=== FILE: README.md ===
# MSMP_QQBot plugins, modelled in Dafny

This project models the logic of five plugins of the MSMP_QQBot Minecraft/QQ
bridge and proves properties of that model.

- **Whitelist audit** (`whitelist_audit.py`). A QQ user asks for a player id to be whitelisted. They answer
  generated or default questions one at a time, each against a timer. A scorer scores the answers. A pass adds the id to
  the local whitelist and, through RCON, to the server's. Around this sit cooldowns, per-user quotas, idle-interview
  sweeping and the admin commands.
- **QQ↔MC binding** (`qq_mc_binding.py`). A QQ user asks for a numeric code. The player types it in the game chat,
  and the log poll binds that player to the QQ id. Covered here:
  - the per-QQ maximum, code expiry and reuse;
  - unbinding and the admin commands.
- **Chunk deleter** (`chunk_deleter.py`). `delete_chunk` and `delete_chunk_area` remove a chunk's region and POI files.
  Covered here:
  - the argument reading;
  - the confirmation step with its timers;
  - backups made before deletion, and restore;
  - the area loop and its 100-chunk limit.
- **MC↔QQ sync** (`mc_qq_sync.py`). Chat lines read from the server log are forwarded to QQ, either automatically or
  with `qq <message>`. A five-second cache stops duplicates, and a processed-line set is halved when it grows past
  200. The same file holds the `mc` command (QQ → server `say`) and `sync_config`.
- **Player coordinates** (`player_coordinate_manager.py`). This plugin finds a player's `.dat` files by name, uuid,
  dashed uuid or `usercache.json`. It reads `Pos` and `Dimension` from the preferred file and rewrites them in every
  file. It also resolves the world folder from the configured working directory, and provides `getpos` and `setpos`.

**How the source is represented**
- Every handler is a pure function from the plugin's state, the command text and the environment's answers to the
  new state and the reply. The environment's answers are RCON replies, the clock, random draws, the scorer's and
  question generator's replies, the files on disk, and which removals raise.
- Paths are sequences of components, so `os.path.join` is concatenation.
- Python dict and set iteration order is passed in as a sequence wherever the code depends on it.
- Timers are explicit task ids in a pending set.
- Log lines are keyed by themselves. The source uses their MD5 digest, which is taken to be injective.

**Behaviour of the code that the model keeps as written**
- The chunk handlers read their arguments as the code does (`ChunkDeleter.ReadArgsAsWritten`): the
  coordinates are converted before later words can switch the coordinate type, and an unknown dimension word
  is taken as the overworld. `ChunkDeleter.ReadArgs` is the corrected reading; it is used only by the corrected
  halves of the Findings.
- A duplicate refused by the sync cache is not marked processed. It is forwarded once its cache entry expires.
- The very first poll forwards the whole 50-line window.
- The empty-payload check for `qq ` messages (mc_qq_sync.py:321) can never fire; see `McQqSyncProps.PayloadNonEmpty`.
- An auto-route cache key `p:qq:x` equals the manual-route key of `qq x`. This is harmless, because a `qq ` message
  never takes the auto route.
- In the coordinate plugin, `setpos` checks admin rights only when a config manager is passed. Once the world folder
  is known, a call without one skips the check.
- `set_player_pos` counts a file without a `Pos` tag as rewritten. It sets that file's dimension only.
- The usercache is read next to the world folder. When the working directory is itself the world, that means its
  parent.
- In the chunk deleter, only a successful single deletion trims the history. Area and error records are appended
  untrimmed.
- A single deletion removes the chunk's whole region file, like the area loop does.

## Model

| member | source | states |
|---|---|---|
| Text.Strip | whitelist_audit.py:258 | `str.strip()`: the result has no blank at either end, is no longer than the text, and is empty exactly when the text is all blanks |
| Text.StripIdempotent | whitelist_audit.py:258 | stripping twice is stripping once |
| Text.Split | whitelist_audit.py:735 | `str.split()`: every word is non-empty and blank-free, and the words together are the text's non-blank characters in order |
| Text.SplitJoinSpaced | whitelist_audit.py:735 | splitting words joined by single spaces gives the words back |
| Text.SplitSkipsBlanks | whitelist_audit.py:735 | leading blanks do not change the words |
| Text.SplitWord | whitelist_audit.py:735 | a non-empty blank-free text splits into itself alone |
| Text.SplitAppend | whitelist_audit.py:735 | a blank separates words: the words of `a + blank + b` are those of `a` followed by those of `b`, so every word is a maximal run |
| Text.IntRoundTrip | whitelist_audit.py:874 | `int()` reads back every integer's decimal rendering |
| Text.IntToStringInjective | whitelist_audit.py:1249 | different integers render differently, which keeps the composed keys apart |
| Chat.TailUnique | mc_qq_sync.py:44 | the text after the marker matches the chat pattern in at most one way: the name group ends at the first `>` |
| Chat.MatchTailSpec | mc_qq_sync.py:44 | the tail parser succeeds exactly when the tail pattern matches, and returns its two groups |
| Chat.LastMatchIsLast | mc_qq_sync.py:44 | the greedy leading `.*` makes the last matching marker win: no later marker position matches |
| Chat.ChatMatchSpec | mc_qq_sync.py:303-310 | `re.search` of the chat pattern reports the groups of the last matching marker, and nothing when no marker matches |
| Chat.ChatMatchRendered | mc_qq_sync.py:303-310 | a line the server prints for a chat message, after any prefix, is read back as that player and message |
| Chat.ChatMatchGuards | qq_mc_binding.py:308-317 | the marker, `<` and `>` pre-checks reject no line the pattern would accept |
| Chat.ChatMatchStripped | mc_qq_sync.py:309-310 | the groups reported are already stripped |
| Chat.DigitsHoldNoMarker | qq_mc_binding.py:324-333 | a digits-only verification code can never contain the chat marker |
| LogCache.Trim | mc_qq_sync.py:272-281 | above 200 entries, the first half of the set in its iteration order is dropped; the rest, and any set of at most 200, is kept |
| LogCache.ScanKeepsLedger | mc_qq_sync.py:248-257 | within a poll, no line already processed, or handled earlier in the same poll, is handled again |
| LogCache.Poll | mc_qq_sync.py:243-259 | the newest-first poll handles only unprocessed lines of the window, each at most once, and the processed set becomes the trimmed union |
| AuditQuestions.ValidStrippedId | whitelist_audit.py:1281-1283 | on a stripped id, the `^[a-zA-Z0-9_]{3,16}$` check accepts exactly 3 to 16 word characters (the `$`-before-newline loophole is closed) |
| AuditQuestions.IdShapeStripped | whitelist_audit.py:1281-1283 | a valid id is unchanged by stripping |
| AuditQuestions.JoinSplitOn | whitelist_audit.py:1049 | joining the pieces of `text.split('\n')` gives the text back |
| AuditQuestions.SplitJoinOn | whitelist_audit.py:1049 | splitting a newline-join of newline-free lines gives the lines back |
| AuditQuestions.StripNumbering | whitelist_audit.py:1058 | a line with no leading question number `\d+[.)]` (`NumberMark`) is unchanged; on a numbered line the result starts after the mark and the blanks that follow it, and does not start with a blank |
| AuditQuestions.CleanQuestionsAcceptable | whitelist_audit.py:1046-1062 | every parsed question is longer than ten characters and holds none of the filter words |
| AuditQuestions.ParseListedQuestions | whitelist_audit.py:1046-1062 | a reply listing acceptable questions one per line parses back into exactly those questions |
| AuditQuestions.ParseNumbered | whitelist_audit.py:1057-1060 | a numbered question loses exactly its number and the blanks after it |
| AuditQuestions.DefaultQuestions | whitelist_audit.py:1035-1044 | the whole bank when it is small enough, otherwise a sample of exactly `question_count` entries from the bank |
| AuditQuestions.SampleDistinct | whitelist_audit.py:1044 | a sample of a bank without repeats has no repeated question |
| AuditQuestions.FetchFromAi | whitelist_audit.py:972-1033 | at most three attempts; the first attempt whose reply yields at least `question_count` questions (`Usable`) is used, every earlier one being unusable; no usable attempt gives nothing |
| AuditQuestions.FetchQuestions | whitelist_audit.py:962-970 | the first `question_count` generated questions when generation is on and succeeds; when it is off, fails or yields an empty list, the default choice |
| AuditQuestions.FetchedAcceptable | whitelist_audit.py:962-970 | every generated question handed out passed the reader's filter |
| AuditQuestions.FirstNumberSpec | whitelist_audit.py:1116-1118 | `re.search(r'(\d+)')` finds the leftmost maximal digit run, and finds one exactly when the text has a digit |
| AuditQuestions.ExtractScore | whitelist_audit.py:1116-1122 | a grading reply yields its first number, accepted only within 0 and the total |
| AuditQuestions.EvaluateAnswers | whitelist_audit.py:1064-1153 | two grading attempts; the first attempt with a usable score (`Graded`) gives the score, so a failed first attempt defers to the second, and with neither usable the score is 0; the score is always within range |
| AuditQuestions.GradeReadsNumber | whitelist_audit.py:1116-1122 | a scorer that replies with a bare in-range number gets exactly that score |
| AuditRcon.AddToServer | whitelist_audit.py:615-647 | any non-`None` reply is success; a `None` reply falls back to the listing, which must name the player |
| AuditRcon.RemoveFromServer | whitelist_audit.py:910-942 | the same rule with the listing check reversed: the listing must be non-empty and not name the player |
| AuditRcon.ListingChecksExclusive | whitelist_audit.py:649-663 | the add and remove listing checks never both succeed, and on a non-empty listing exactly one does |
| AuditRcon.ReplyDecides | whitelist_audit.py:615-647 | when the command itself replies, both operations count as done whatever the listing says |
| AuditRcon.NoLinkNoEffect | whitelist_audit.py:615-647 | without a connected client nothing is reported as done on the server |
| Audit.SessionKeyInjective | whitelist_audit.py:287 | different (user, group) pairs never share an interview key |
| Audit.CooldownKeyInjective | whitelist_audit.py:1249 | different (user, game) pairs never share a cooldown entry |
| Audit.AppendRecord | whitelist_audit.py:1227-1234 | a record is appended to its user's list; every other user's list is unchanged |
| Audit.CheckCooldown | whitelist_audit.py:1253-1263 | the whole seconds still to wait, or 0 with the expired entry deleted |
| Audit.AddEntry | whitelist_audit.py:1236-1245 | the id is listed afterwards with the given owner and origin; every other entry is unchanged |
| Audit.Arm | whitelist_audit.py:336-339 | a new pending timer is registered for the interview, replacing a registered one without cancelling it |
| Audit.Start | whitelist_audit.py:249-307 | the request is refused by the first failing check, or accepted; nothing but an expired cooldown entry changes |
| Audit.StartFirstFailing | whitelist_audit.py:249-307 | the refusal reported is the first check that fails, in the plugin's order |
| Audit.Prepare | whitelist_audit.py:309-360 | without questions nothing happens; otherwise the interview is created with no answers, the id locked, and question 0's timer armed |
| Audit.Unload | whitelist_audit.py:189-197 | every registered timer is cancelled and every lock released |
| Audit.DropSession | whitelist_audit.py:170-180 | one interview goes, with its lock and its registered timer |
| AuditProps.CooldownRoundTrip | whitelist_audit.py:1247-1263 | a cooldown set at t reports the remaining wait while it runs, and nothing (dropping the entry) after |
| AuditProps.CooldownSeparate | whitelist_audit.py:1247-1263 | a cooldown for one (user, game) pair leaves every other pair's check unchanged |
| AuditProps.AnswerRefusals | whitelist_audit.py:384-392 | no interview, an empty answer or one over 500 characters leaves everything unchanged |
| AuditProps.AnswerAppends | whitelist_audit.py:402-421 | an accepted answer is appended stripped; grading begins exactly when the answers reach the question count |
| AuditProps.AnswerArmsNext | whitelist_audit.py:424-450 | before the last question, an answer arms the next question's timer |
| AuditProps.LateAnswerTimesOut | whitelist_audit.py:396-400 | an answer after its question's time ran out ends the interview as a timeout instead of being recorded |
| AuditProps.TimeoutSpec | whitelist_audit.py:570-613 | a timeout acts only while its question is open: one empty answer, score 0, cooldown set, interview dropped; otherwise nothing happens |
| AuditProps.FireTimerSpec | whitelist_audit.py:543-568 | a timer acts only when due and all its guards hold; otherwise it only stops being pending |
| AuditProps.AnswerDefusesTimer | whitelist_audit.py:543-568 | once question k is answered, k's timer leaves the interview, records and ledger alone |
| AuditProps.TimerPreemptsAnswer | whitelist_audit.py:570-613 | after a timeout the next answer finds no interview |
| AuditProps.CompletionSpec | whitelist_audit.py:465-541 | pass is `score >= pass_score`; a pass writes the local entry and no cooldown, a fail sets the cooldown; the record is saved and the interview and lock are gone |
| AuditProps.AsWrittenNeverAddsToServer | whitelist_audit.py:421 | as written, a passed interview never reaches the server's whitelist |
| AuditProps.CorrectedAddsToServer | whitelist_audit.py:509-512 | with the client passed on, a pass adds the id on the server when the server acknowledges it |
| AuditProps.GradingGapAcceptsAnswers | whitelist_audit.py:468-504 | while grading is pending the interview stays, so an answer in that gap starts a second grading |
| AuditProps.LockRace | whitelist_audit.py:249-360 | the id lock is taken only at preparation, so two requests for one id that both pass the checks both get an interview |
| AuditProps.ReapSpec | whitelist_audit.py:149-187 | the sweep keeps exactly the interviews not idle for 30 minutes and unlocks the removed ones' ids |
| AuditProps.AdminWhitelist | whitelist_audit.py:741-770 | `add` writes an admin entry whatever the server said; `remove` drops a listed id; `clear` empties the local list only |
| AuditProps.AdminReset | whitelist_audit.py:793-821 | `reset` drops the first interview, in key order, whose key starts with the user id and `_` |
| AuditProps.AdminQuota | whitelist_audit.py:870-885 | `set_max` changes only the global quota, and only to a value of at least 1 |
| AuditProps.SetMaxParses | whitelist_audit.py:870-885 | `set_max <qq> <n>` with n of at least 1 sets the quota to n |
| AuditProps.InterviewAppendOnly | whitelist_audit.py:1227-1234 | requests, preparation and answers never rewrite or remove an audit record |
| AuditProps.UpkeepAppendOnly | whitelist_audit.py:1227-1234 | timers, completion, the sweep, unloading and admin commands never rewrite or remove an audit record |
| Binding.GenerateCode | qq_mc_binding.py:491-493 | the code is the drawn digits in order, as many as configured |
| Binding.UniqueCode | qq_mc_binding.py:574-586 | the first drawn code that is not live (every earlier draw hit a live code), replacing a void entry with that code; none when every draw is live |
| Binding.DropUnused | qq_mc_binding.py:559-572 | the QQ id's unused codes go and every other entry stays |
| Binding.Sweep | qq_mc_binding.py:495-513 | void codes go, with the waiting players whose code was one of them |
| Binding.CodeInLine | qq_mc_binding.py:302-341 | a line yields a code only through the marker and bracket checks, the pattern, and a digits-only message of the configured length |
| Binding.FindBinding | qq_mc_binding.py:411-421 | the first binding of the player in the first QQ id, in key order, that holds one (`Holds`); none when no QQ id along the keys holds one |
| Binding.ProcessCode | qq_mc_binding.py:343-409 | unknown and used codes change nothing, a void one is deleted, a bound player only consumes the code, otherwise the player is bound |
| Binding.CheckLogs | qq_mc_binding.py:232-275 | the expiry sweep, then the newest-first poll: handled lines are new, distinct and carry codes, and the processed set is the trim of the old set plus the handled lines |
| BindingProps.ValidBoundsBindings | qq_mc_binding.py:522-525 | in every valid state no QQ id holds more bindings than allowed |
| BindingProps.BindKeeps | qq_mc_binding.py:515-557 | a bind request keeps the invariant: unique players, quota of bindings plus unused codes |
| BindingProps.SweepKeeps | qq_mc_binding.py:495-513 | the expiry sweep keeps the invariant |
| BindingProps.ProcessKeeps | qq_mc_binding.py:343-409 | using a code keeps the invariant |
| BindingProps.UnbindKeeps | qq_mc_binding.py:618-657 | unbinding keeps the invariant |
| BindingProps.AdminKeeps | qq_mc_binding.py:659-715 | the admin commands keep the invariant |
| BindingProps.CheckLogsKeeps | qq_mc_binding.py:232-275 | a whole log poll keeps the invariant, whatever lines it reads |
| BindingSpec.BindSpec | qq_mc_binding.py:515-557 | refused exactly at the maximum; otherwise one fresh, unused, pending code of the configured length is the QQ id's only unused code |
| BindingSpec.BindKeepsOthers | qq_mc_binding.py:559-586 | other QQ ids' codes survive a bind unless a void code was replaced |
| BindingSpec.CodeLineSpec | qq_mc_binding.py:302-341 | a line is a code line exactly when the pattern matches and the message is digits of the configured length |
| BindingSpec.CodeLineRendered | qq_mc_binding.py:302-341 | a code typed in game and printed by the server is read back as that player and code |
| BindingSpec.ProcessRefusals | qq_mc_binding.py:346-362 | unknown and used codes change nothing; a void code is deleted and nothing else changes |
| BindingSpec.ProcessTaken | qq_mc_binding.py:364-382 | a live code spent on a bound player binds nothing and is consumed |
| BindingSpec.ProcessBinds | qq_mc_binding.py:384-401 | a live code on an unbound player appends exactly one binding to the code's QQ id |
| BindingSpec.FindBindingComplete | qq_mc_binding.py:411-421 | in a valid state a player is found exactly when some QQ id holds a binding of that name |
| BindingSpec.BindThenType | qq_mc_binding.py:515-557 | request a code, type it in game before it expires, and the next poll binds the player to that QQ id |
| BindingSpec.RemoveSpec | qq_mc_binding.py:636-644 | removal takes out the first binding of the name and drops the QQ id when its list runs empty |
| BindingSpec.UnbindSpec | qq_mc_binding.py:618-657 | a blank request is usage, a QQ id without bindings is told so, otherwise the named player is unbound if bound to the caller |
| BindingSpec.AdminSpec | qq_mc_binding.py:659-715 | `delete` removes the binding as unbinding does; `list` and refusals change nothing |
| BindingSpec.RedeemThenUnbind | qq_mc_binding.py:618-657 | unbinding the player a code just bound restores the bindings and key order exactly |
| ChunkPaths.ChunkOfWorld | chunk_deleter.py:148-149 | the chunk of a world coordinate holds it: `16c <= w < 16c + 16`, also for negatives |
| ChunkPaths.RegionOf | chunk_deleter.py:938-939 | the region of a chunk holds it: `32r <= c < 32r + 32` |
| ChunkPaths.ChunkCount | chunk_deleter.py:286-289 | the rectangle's chunk count is the product of its inclusive side lengths |
| ChunkPaths.WorldPath | chunk_deleter.py:921-932 | no world folder before a working directory is known, or for an unknown type or dimension |
| ChunkPaths.RegionOfWorld | chunk_deleter.py:148-149 | the two floor divisions together are one floor division by 512 |
| ChunkPaths.RegionNameInjective | chunk_deleter.py:940 | region file names `r.X.Z.mca` name one region each |
| ChunkPaths.SameRegionFile | chunk_deleter.py:934-952 | two chunks share a region file exactly when they lie in the same 32 x 32 region |
| ChunkPaths.BackupRoundTrip | chunk_deleter.py:954-973 | the backup written for a chunk's file is the one restore looks up for that chunk |
| ChunkPaths.BackupOutsideWorld | chunk_deleter.py:883-900 | no backup path is the region or POI file of any chunk |
| ChunkSweep.Cell | chunk_deleter.py:681-712 | one chunk: existing files backed up when enabled, then removed unless removal raises, with counts |
| ChunkSweep.RowEffect | chunk_deleter.py:681-712 | a row clears every chunk of the row and touches nothing outside it |
| ChunkSweep.SweepArea | chunk_deleter.py:681-712 | the area loop clears every chunk of the rectangle, removes nothing else, and counts at most one per chunk |
| ChunkDeleter.DetectServerType | chunk_deleter.py:902-919 | the first jar whose name says something decides; otherwise the folders do; otherwise vanilla |
| ChunkDeleter.CoordTypeOf | chunk_deleter.py:158-168 | the coordinate type comes from the fourth and fifth argument words only (`parts[3]`, `parts[4]`) |
| ChunkDeleter.ParseCoords | chunk_deleter.py:141-156 | every word parses as an integer and is converted to a chunk coordinate when asked, else `None` (the source's `ValueError`) |
| ChunkDeleter.ReadArgsAsWritten | chunk_deleter.py:189-207 | as written: coordinates converted with the early type; later words can still switch the type; an unknown dimension word is ignored |
| ChunkDeleter.ReadArgs | chunk_deleter.py:189-214 | corrected: the type is settled before conversion, and an unknown word in the dimension's place is refused |
| ChunkDeleter.EnsureDetected | chunk_deleter.py:975-990 | a known directory stays; otherwise an existing configured one, or the start script's folder, is taken |
| ChunkDeleter.TrimHistory | chunk_deleter.py:607-608 | above 100 entries the history keeps its last 50 |
| ChunkDeleter.ExecuteSingle | chunk_deleter.py:525-644 | a single deletion with backups and counts, recorded in the history |
| ChunkDeleter.ExecuteArea | chunk_deleter.py:646-758 | an area deletion over the rectangle, recorded without trimming |
| ChunkDeleter.Ask | chunk_deleter.py:402-475 | a request replaces the user's pending operation and re-arms their timer |
| ChunkDeleter.Confirm | chunk_deleter.py:494-523 | confirming pops the operation, cancels its timer, and carries it out |
| ChunkDeleter.Timeout | chunk_deleter.py:477-492 | only the user's live timer drops the pending operation |
| ChunkDeleter.ClearPending | chunk_deleter.py:997-1012 | server start and stop drop every pending operation and cancel every timer |
| ChunkDeleter.ExecuteRestore | chunk_deleter.py:760-832 | each backup that exists is copied back over its world file |
| ChunkDeleter.ExecuteBackup | chunk_deleter.py:834-881 | whichever of the two files exists is copied to its backup |
| ChunkDeleter.DeleteChunk | chunk_deleter.py:170-238 | `confirm` or a request for one chunk, checked in order, with the arguments read as the code reads them (`ReadArgsAsWritten`) |
| ChunkDeleter.SingleRequest | chunk_deleter.py:189-236 | arguments read as written; refused for an unparsable number, an unsupported dimension, a missing world folder or absent files; otherwise asks or deletes |
| ChunkDeleter.DeleteArea | chunk_deleter.py:240-316 | the area command, checked in order, with the arguments read as written |
| ChunkDeleter.AreaRequest | chunk_deleter.py:254-316 | arguments read as written; refused above 100 chunks or when no file of the rectangle exists; otherwise asks or deletes |
| ChunkDeleter.RestoreChunk | chunk_deleter.py:318-358 | arguments read as written, with no dimension check (an unknown word means the overworld); restore refuses missing backups and otherwise copies them back |
| ChunkDeleter.BackupChunk | chunk_deleter.py:360-400 | arguments read as written, with no dimension check (an unknown word means the overworld); backup refuses missing files and otherwise copies them |
| ChunkDeleterProps.LateCoordTypeAsWritten | chunk_deleter.py:189-207 | as written, `160 320 world` deletes chunk (160, 320) |
| ChunkDeleterProps.LateCoordTypeCorrected | chunk_deleter.py:189-207 | read correctly, `160 320 world` is chunk (10, 20) |
| ChunkDeleterProps.AreaCoordTypeAsWritten | chunk_deleter.py:254-272 | as written, the documented form `0 0 9 9 overworld world` never converts: 100 chunks instead of one |
| ChunkDeleterProps.AreaCoordTypeCorrected | chunk_deleter.py:254-272 | read correctly, the blocks (0, 0) to (9, 9) are the one chunk (0, 0) |
| ChunkDeleterProps.TypoDimensionAsWritten | chunk_deleter.py:197-214 | as written, `1 2 nethr` is read as the overworld |
| ChunkDeleterProps.TypoDimensionCorrected | chunk_deleter.py:197-214 | read correctly, `nethr` is refused as an unknown dimension |
| ChunkDeleterProps.AsWrittenConvertsEarlyOnly | chunk_deleter.py:158-168 | the code's reading converts only when the early words ask for world coordinates |
| ChunkDeleterProps.CorrectionConservative | chunk_deleter.py:189-207 | the corrected reading agrees with the code's wherever the code reads correctly |
| ChunkDeleterProps.SingleDeletionEffect | chunk_deleter.py:525-644 | the region and POI file go unless removal raises, nothing else changes, backups are what restore looks up, counts are exact |
| ChunkDeleterProps.AreaOutcome | chunk_deleter.py:646-758 | the area deletion's files, backups and counts are those of the loop |
| ChunkDeleterProps.AreaDeletionClears | chunk_deleter.py:681-712 | every chunk of the rectangle is cleared; a remaining file means a counted failure |
| ChunkDeleterProps.AreaDeletionTouches | chunk_deleter.py:681-712 | only region and POI files of the rectangle are removed and no kept file changes |
| ChunkDeleterProps.AreaDeletionCounts | chunk_deleter.py:681-712 | at most one deletion or failure per chunk and file kind; no failure when no removal raises |
| ChunkDeleterProps.AreaWithoutErrorsClears | chunk_deleter.py:681-712 | without removal errors no region or POI file of the rectangle is left |
| ChunkDeleterProps.ChunkCountCorners | chunk_deleter.py:286-289 | the rectangle's size does not depend on which corners come first |
| ChunkDeleterProps.DeleteThenRestore | chunk_deleter.py:760-832 | with backups on, restore right after a deletion puts back what was deleted |
| ChunkDeleterProps.BackupDeleteRestore | chunk_deleter.py:834-881 | backup, any deletion, restore: the region file comes back as it was |
| ChunkDeleterProps.DeleteChunkKeeps | chunk_deleter.py:170-238 | `delete_chunk` keeps pending operations and timers in step, areas within the limit |
| ChunkDeleterProps.DeleteAreaKeeps | chunk_deleter.py:240-316 | `delete_chunk_area` keeps that bookkeeping consistent |
| ChunkDeleterProps.RestoreBackupKeep | chunk_deleter.py:318-400 | restore and backup leave pending operations alone |
| ChunkDeleterProps.ConfirmTwice | chunk_deleter.py:494-523 | a second confirmation finds nothing pending |
| ChunkDeleterProps.ReplacedTimerIsStale | chunk_deleter.py:467-492 | a replaced timer does nothing when it fires; the new one drops the new operation |
| ChunkDeleterProps.ConfirmDisarms | chunk_deleter.py:494-523 | after a confirmation no timer of the user can drop anything |
| ChunkDeleterProps.ConfirmedAreaBounded | chunk_deleter.py:291-292 | a confirmed area deletion never deletes more than 100 chunks' files |
| McQqSync.Classify | mc_qq_sync.py:296-370 | a forwarded message comes from a matched, non-blacklisted line; `qq ` goes manual with the stripped rest, other non-commands go auto; a route that is off or has no groups forwards nothing |
| McQqSync.ProcessMessage | mc_qq_sync.py:296-370 | a message is forwarded exactly when it classifies and its key is not cached, and then its key is cached at now |
| McQqSync.Expire | mc_qq_sync.py:283-294 | a key stays exactly when it was cached at most five seconds ago |
| McQqSync.CheckLogs | mc_qq_sync.py:235-281 | handled lines come from the window, were not processed, forward distinct uncached keys, and are added before the trim |
| McQqSync.KeepWindow | mc_qq_sync.py:272-281 | the corrected trim keeps every processed line still in the window, stays within the old set, and stays bounded |
| McQqSync.CheckLogsKeepingWindow | mc_qq_sync.py:235-281 | the poll with the corrected trim |
| McQqSync.GameIdByQq | mc_qq_sync.py:483-497 | the game id of the QQ id's first binding, when the binding plugin is there and the QQ id has one |
| McQqSync.HandleMc | mc_qq_sync.py:414-481 | refused, in order, when off, wrong group, unbound, blacklisted or blank; otherwise the stripped text is sent under the game id or `QQ <id>` |
| McQqSync.RemoveGroup | mc_qq_sync.py:640-641 | `list.remove` drops exactly one occurrence, the first, and the other groups keep their order; an absent group leaves the list unchanged |
| McQqSync.Switch | mc_qq_sync.py:547-585 | enable and disable change exactly one feature's flag, or nothing for a bad mode |
| McQqSync.EditGroups | mc_qq_sync.py:587-645 | the group id is read before the mode is checked; add appends an unlisted group, remove drops a listed one |
| McQqSync.SyncConfig | mc_qq_sync.py:533-653 | dispatch on the lower-cased first word; unknown words change nothing |
| McQqSyncProps.ForwardedLineShape | mc_qq_sync.py:299-310 | a forwarded line carries the marker and its player name has no `>` |
| McQqSyncProps.PayloadNonEmpty | mc_qq_sync.py:319-323 | a stripped message starting with `qq ` always has something after it, so the empty check never fires |
| McQqSyncProps.ClassifyRendered | mc_qq_sync.py:296-370 | the server's rendering of a chat message is forwarded on the route its text selects, unchanged |
| McQqSyncProps.IdleWhenBothOff | mc_qq_sync.py:210-215 | with both MC→QQ features off the poll does not run and would forward nothing anyway |
| McQqSyncProps.CacheKeyInjective | mc_qq_sync.py:335 | within one route a cache key names one player and one message |
| McQqSyncProps.LiveKeyBlocks | mc_qq_sync.py:360-363 | a key cached at most five seconds ago blocks the line |
| McQqSyncProps.ExpiredKeyForwards | mc_qq_sync.py:283-294 | once the key is more than five seconds old the line is forwarded again |
| McQqSyncProps.TrimmedWindowLineForwardedAgain | mc_qq_sync.py:272-281 | as written: the halving can discard a line still in the window, which is forwarded again once its key expires |
| McQqSyncProps.KeptWindowNotForwardedAgain | mc_qq_sync.py:248-257 | with the corrected trim a processed window line is never handled again |
| McQqSyncProps.McTextRoundTrip | mc_qq_sync.py:467-470 | the `say` text reads back as its sender and message |
| McQqSyncProps.GameIdIsOwnBinding | mc_qq_sync.py:483-497 | in a state the binding plugin keeps, the game id found for a QQ id is a player the binding plugin finds bound to that same QQ id |
| McQqSyncProps.SentTextNamesSender | mc_qq_sync.py:462-470 | every text sent names the game id when the binding plugin is loaded, `QQ <id>` only when it is not |
| McQqSyncProps.RemoveGroupGone | mc_qq_sync.py:640-641 | removing a group from a repetition-free list leaves none of it |
| McQqSyncProps.GroupEditsIdempotent | mc_qq_sync.py:609-645 | adding a listed group or removing an unlisted one changes nothing |
| McQqSyncProps.AddThenRemove | mc_qq_sync.py:609-645 | removing a group just added gives the list back |
| McQqSyncProps.SyncConfigKeepsDistinct | mc_qq_sync.py:533-653 | every `sync_config` command keeps each group list free of repeats |
| McQqSyncProps.SyncConfigIdempotent | mc_qq_sync.py:533-653 | giving the same `sync_config` command twice has the effect of giving it once |
| PlayerCoords.Dashed | player_coordinate_manager.py:46-47 | the dashed form has 36 characters, dashes at 8, 13, 18 and 23, and the identifier's pieces in between |
| PlayerCoords.Candidates | player_coordinate_manager.py:28-91 | at most four existing files, and none without a `playerdata` folder |
| PlayerCoords.ChooseFile | player_coordinate_manager.py:98-107 | a file is chosen exactly when there are candidates; a `.dat` one when any is, the first such; otherwise the first |
| PlayerCoords.GetPlayerPos | player_coordinate_manager.py:93-139 | a reading exists exactly when the chosen file loads and has a `Pos` tag |
| PlayerCoords.Rewritten | player_coordinate_manager.py:161-171 | `Pos` is replaced only where present; `Dimension` is set when one is given |
| PlayerCoords.RewriteAll | player_coordinate_manager.py:157-178 | every writable listed file is rewritten, the rest stay, and the count is positive exactly when one was writable |
| PlayerCoords.SetPlayerPos | player_coordinate_manager.py:141-189 | out of range refuses before any file is touched; true exactly when some candidate was rewritten; only candidates change |
| PlayerCoords.WorkingDirectory | player_coordinate_manager.py:268-310 | a configured directory is used only if it exists; only without one is the start script's folder used |
| PlayerCoords.InitModifier | player_coordinate_manager.py:312-339 | a known world stays; otherwise the resolved world holds `playerdata` and is the working directory or its `world` folder |
| PlayerCoords.Reload | player_coordinate_manager.py:542-548 | the world is forgotten, so the next command resolves it from the current configuration |
| PlayerCoords.DimensionName | player_coordinate_manager.py:398-405 | the three known dimension ids get their display name; any other id is shown unchanged |
| PlayerCoords.ReadSetpos | player_coordinate_manager.py:438-455 | fewer than four words is usage; three numbers are required; the fifth word, if any, is the dimension, else the overworld |
| PlayerCoords.HandleGetpos | player_coordinate_manager.py:377-422 | not ready without a world; usage without words; otherwise the first word's reading with its display name, or no data |
| PlayerCoords.HandleSetpos | player_coordinate_manager.py:424-507 | readiness, admin, usage, numbers, range, in that order; a kick is sent and files are written only past every check |
| PlayerCoordsProps.DashedRoundTrip | player_coordinate_manager.py:46-47 | removing the dashes from the dashed form gives back the identifier |
| PlayerCoordsProps.CandidatesDistinct | player_coordinate_manager.py:28-91 | no file is listed twice |
| PlayerCoordsProps.DirectWins | player_coordinate_manager.py:36-57 | when a file named after the identifier or its dashed form exists, the candidates are exactly those files |
| PlayerCoordsProps.UsercacheFallback | player_coordinate_manager.py:56-78 | otherwise they are the files of the first usercache entry whose name matches in any case, or none |
| PlayerCoordsProps.OwnDatFirst | player_coordinate_manager.py:37-41 | the identifier's own `.dat` file, when it exists, is the first candidate |
| PlayerCoordsProps.PlainBeforeDashed | player_coordinate_manager.py:36-54 | every file of the plain identifier comes before every file of its dashed form |
| PlayerCoordsProps.ReadsOwnDat | player_coordinate_manager.py:98-130 | the identifier's own `.dat` is the file read; without a dimension tag the overworld is reported |
| PlayerCoordsProps.ReadsOldWhenAlone | player_coordinate_manager.py:105-107 | with only the `.dat_old` file present, that file is read |
| PlayerCoordsProps.SetThenGet | player_coordinate_manager.py:141-189 | after a rewrite of the file `get_player_pos` reads, it reports the new position and dimension |
| PlayerCoordsProps.SetIdempotent | player_coordinate_manager.py:157-178 | setting the same position twice leaves the files as setting it once |
| PlayerCoordsProps.WorkingDirWins | player_coordinate_manager.py:327-331 | a working directory that holds `playerdata` is the world, even if it also has a `world` folder |
| PlayerCoordsProps.WorldSubfolder | player_coordinate_manager.py:332-337 | otherwise its `world` folder, and the usercache is read from the working directory |
| PlayerCoordsProps.MissingDirNoFallback | player_coordinate_manager.py:287-306 | a configured directory that does not exist disables the plugin; the start script is not consulted |
| PlayerCoordsProps.WorldSticks | player_coordinate_manager.py:314-315 | once the world is known, later commands keep it whatever the configuration says |
| PlayerCoordsProps.NumberExtendsInt | player_coordinate_manager.py:446-448 | every integer word reads as that integer |
| PlayerCoordsProps.SetposArgsRoundTrip | player_coordinate_manager.py:438-455 | `setpos` words with integer coordinates read back as that player, position and dimension |
| PlayerCoordsProps.SetposThenGetpos | player_coordinate_manager.py:424-507 | a successful `setpos` is reported back by `getpos` for the same player |

## Left out

- `handle_query_command` of the binding plugin only reports the caller's bindings and changes nothing; it is not modelled.
- Audit admin `reload` re-reads the data files, and `sync` only repeats server adds; with `sessions`, `config` and `set_command`, they leave the modelled state as it is (`set_command` edits command templates, which are not modelled).
- Plugin loading, unloading and configuration reloads other than `PlayerCoords.Reload` and `Audit.Unload` are not modelled.
- Sending `say` to the server (`_send_message_to_mc`) is an output; its connection checks and failures are not modelled.
- Sending messages to QQ groups, websockets, RCON transport, plugin registration, help texts and reply wording. Replies are constructors, not strings.
- Persistence (`_load_config`, `_save_config`, `_load_data`, `_save_data`, the JSON files). State lives in the model's values.
- The polling loops, their sleeps and the server-running checks. Each poll is one call. `McQqSyncProps.IdleWhenBothOff` covers the sync loop's only guard that matters.
- Real time is modelled as whole seconds passed in (`int`), and randomness as the draws passed in.
- Floating-point rounding is not modelled. Python `int()` also accepts underscores and non-ASCII digits; `Text.ParseInt` takes ASCII digits only. Case folding is ASCII-only.
- PlayerCoords.ParseNumber: accepts plain decimals only. Python's `float()` also reads exponents, `inf` and `nan`. The range check rejects the last two anyway.
- PlayerCoords.CachedUuid: a usercache entry without a `uuid` (the source then looks for `None.dat`) is not modelled.
- NBT is reduced to the `Pos` and `Dimension` tags. A save that raises is modelled as leaving the file unchanged.
- The kick's RCON result is ignored by the source, and so by the model.
- In the chunk deleter:
  - world coordinates are integers, and `_parse_coordinates`' float parsing of world coordinates is not modelled;
  - a backup copy that raises is not modelled;
  - the `except asyncio.Cancelled` clause names no real attribute, and has no effect on state;
  - `on_server_started` and `on_server_stopping` are modelled only through `ClearPending`.
- `_get_sync_config_info` and custom message formats of the sync plugin are not modelled.
- The whitelist audit's aliasing of the live answers list during grading is not modelled. Completion works on a snapshot.
- The scorer and question generator are modelled only as the replies they return.
- AuditQuestions.FirstNumberSpec: digits are ASCII `0`-`9`. Python's `\d` in `re.search(r'(\d+)')` also matches other Unicode decimal digits, which the model does not read as digits.
- AuditQuestions.StripNumbering: the same ASCII-only reading of `\d` in `^\d+[\.\)]\s*`; `\s` is read as the blanks `Text.IsSpace` knows.
- AuditQuestions.ExtractScore: inherits the ASCII-only digits of `FirstNumberSpec`, and reads the number with `Text.ParseInt` (ASCII digits only).
- Binding.CodeInLine: `str.isdigit()` also accepts non-ASCII digits, which the model rejects. The `chat_message_pattern` setting (qq_mc_binding.py:51, used at :314) is configurable in the source; the model fixes it to its default `.*\[Not Secure\]\s*<([^>]+)>\s*(.+)`.
- Binding.ProcessCode: when the player is already bound to another QQ account, the source awaits the failure notice to the player before `del self.pending_verify[verify_code]` (qq_mc_binding.py:375-376), so another line can see the code in between; the model performs the whole step at once.
- LogCache.Poll: `_get_log_hash` (MD5) is replaced by the line itself. This assumes MD5 has no collisions among log lines.

## Findings

| source | as written | input that shows it | evidently intended | confidence | as-written member | corrected member |
|---|---|---|---|---|---|---|
| chunk_deleter.py:189-207 | the coordinate type is read from the third and fourth words only after the coordinates were converted with the early type | `delete_chunk 160 320 world` | block (160, 320), which is chunk (10, 20) | high; not executed | ChunkDeleterProps.LateCoordTypeAsWritten | ChunkDeleterProps.LateCoordTypeCorrected |
| chunk_deleter.py:254-272 | the area form with a dimension and a coordinate type never converts | `delete_chunk_area 0 0 9 9 overworld world` | the one chunk (0, 0), not the 100 chunks (0, 0) to (9, 9) | high; not executed | ChunkDeleterProps.AreaCoordTypeAsWritten | ChunkDeleterProps.AreaCoordTypeCorrected |
| chunk_deleter.py:197-214 | a third word that is neither a dimension nor a coordinate type is ignored, so the overworld is used | `delete_chunk 1 2 nethr` | refuse the unknown dimension | medium; not executed | ChunkDeleterProps.TypoDimensionAsWritten | ChunkDeleterProps.TypoDimensionCorrected |
| mc_qq_sync.py:272-281 | halving the processed set drops arbitrary lines, including lines still in the 50-line window | a window line processed earlier, dropped by the halving, with its cache key older than 5 s | a line still in the window is never forwarded twice | medium; not executed | McQqSyncProps.TrimmedWindowLineForwardedAgain | McQqSyncProps.KeptWindowNotForwardedAgain |
| whitelist_audit.py:421 | `_complete_audit` is called without the RCON client, so the server add is never attempted | any passed interview | a passed player is added to the server whitelist | high; not executed | AuditProps.AsWrittenNeverAddsToServer | AuditProps.CorrectedAddsToServer |

=== FILE: audit.dfy ===
/**
 * The whitelist audit as a state machine. A player asks for an interview with a
 * game id; questions are prepared; each answer moves the interview on; a timer
 * per question ends an interview that stalls; the scorer's score decides
 * whether the id is whitelisted or the applicant must wait out a cooldown.
 *
 * Every asynchronous piece of the plugin becomes an explicit step: the request
 * (`Start`) and the preparation of questions (`Prepare`) are separate steps, as
 * are the synchronous part of completing an interview (inside `Answer`) and its
 * end after the scorer replied (`FinishCompletion`). A question timer is a
 * pending task with an id; it fires through `FireTimer`. Time is whole seconds.
 */
module Audit {
  import opened Wrappers
  import opened Text
  import opened LogCache
  import opened AuditQuestions
  import opened AuditRcon

  /** An interview with no activity for longer than this many seconds is reaped. */
  const IdleLimit := 1800
  /** Longest accepted answer, in characters. */
  const MaxAnswerLength := 500

  datatype Config = Config(
    allowedGroups: set<int>,
    cooldownSeconds: int,
    passScore: int,
    questionCount: nat,
    answerTimeout: int,
    useAi: bool,
    maxPerQq: int,
    bank: seq<string>)

  /** One interview in progress. `group` is `None` when the request came from outside a group. */
  datatype Session = Session(
    user: int, game: string, group: Option<int>,
    questions: seq<string>, answers: seq<string>,
    lastActivity: int, questionStart: int)

  /** A finished interview; `timeoutState` is `timeout_question_<n>` when a question timed out. */
  datatype Record = Record(
    user: int, game: string, group: Option<int>,
    questions: seq<string>, answers: seq<string>,
    score: int, passed: bool, timeoutState: Option<string>)

  /** A local whitelist entry: who it counts against, and whether an admin added it. */
  datatype Entry = Entry(user: int, group: Option<int>, byAdmin: bool)

  /** A question timer that has not run yet: it checks question `index` of the interview under `key` at `due`. */
  datatype Timer = Timer(key: string, user: int, group: Option<int>, index: nat, due: int)

  /**
   * `pending` holds the timers not yet run or cancelled, by task id; `registry`
   * is `timeout_tasks`, the task the plugin remembers per interview key. A
   * timer can be pending without being registered (its entry was overwritten or
   * deleted without a cancel) and registered without being pending (it ran).
   */
  datatype State = State(
    config: Config,
    records: map<int, seq<Record>>,
    whitelist: map<string, Entry>,
    cooldown: map<string, int>,
    sessions: map<string, Session>,
    auditing: set<string>,
    pending: map<nat, Timer>,
    registry: map<string, nat>,
    nextTimer: nat)

  // ------------------------------------------------------------------ keys

  /** `str(group_id)`, which is `None` for a missing group. */
  function GroupText(group: Option<int>): string {
    match group
    case Some(g) => IntToString(g)
    case None => "None"
  }

  /** `f"{user_id}_{group_id}"`, the key of an interview. */
  function SessionKey(user: int, group: Option<int>): string {
    IntKey(user, '_', GroupText(group))
  }

  /** `f"{user_id}_{game_id}"`, the key of a cooldown. */
  function CooldownKey(user: int, game: string): string {
    IntKey(user, '_', game)
  }

  lemma GroupTextInjective(g: Option<int>, h: Option<int>)
    ensures GroupText(g) == GroupText(h) <==> g == h
  {
    if g.Some? && h.None? {
      assert GroupText(g)[0] != 'N';
    } else if g.None? && h.Some? {
      assert GroupText(h)[0] != 'N';
    } else if g.Some? && h.Some? && GroupText(g) == GroupText(h) {
      IntToStringInjective(g.value, h.value);
    }
  }

  /** Different (user, group) pairs never share an interview key. */
  lemma SessionKeyInjective(u: int, g: Option<int>, v: int, h: Option<int>)
    ensures SessionKey(u, g) == SessionKey(v, h) <==> u == v && g == h
  {
    IntKeyInjective(u, GroupText(g), v, GroupText(h), '_');
    GroupTextInjective(g, h);
  }

  /** Different (user, game) pairs never share a cooldown. */
  lemma CooldownKeyInjective(u: int, g: string, v: int, h: string)
    ensures CooldownKey(u, g) == CooldownKey(v, h) <==> u == v && g == h
  {
    IntKeyInjective(u, g, v, h, '_');
  }

  // --------------------------------------------------------- small helpers

  /** The records of one user, `[]` when there are none. */
  function RecordsOf(records: map<int, seq<Record>>, user: int): seq<Record> {
    if user in records then records[user] else []
  }

  /** Every user's record list only grows at its end. */
  predicate AppendOnly(a: map<int, seq<Record>>, b: map<int, seq<Record>>) {
    forall u | u in a :: u in b && a[u] <= b[u]
  }

  /** `_save_audit_record`: append to the list of the record's user. */
  function AppendRecord(records: map<int, seq<Record>>, r: Record): (out: map<int, seq<Record>>)
    ensures RecordsOf(out, r.user) == RecordsOf(records, r.user) + [r]
    ensures forall u | u != r.user :: RecordsOf(out, u) == RecordsOf(records, u)
    ensures AppendOnly(records, out)
  {
    records[r.user := RecordsOf(records, r.user) + [r]]
  }

  /** `_get_user_whitelist_count`: the entries that count against `user`. */
  function UserCount(whitelist: map<string, Entry>, user: int): nat {
    |set g | g in whitelist && whitelist[g].user == user|
  }

  /** A cooldown under `key` is still running at `now`. */
  predicate CooldownActive(cooldown: map<string, int>, key: string, now: int) {
    key in cooldown && cooldown[key] > now
  }

  /** `_set_cooldown`. */
  function SetCooldown(cooldown: map<string, int>, user: int, game: string, now: int, seconds: int): (out: map<string, int>)
    ensures out.Keys == cooldown.Keys + {CooldownKey(user, game)}
    ensures forall k | k in cooldown && k != CooldownKey(user, game) :: out[k] == cooldown[k]
    ensures CooldownActive(out, CooldownKey(user, game), now) <==> seconds > 0
  {
    cooldown[CooldownKey(user, game) := now + seconds]
  }

  /**
   * `_check_cooldown`: the seconds still to wait (0 when none), and the ledger
   * with an expired entry for the key removed.
   */
  function CheckCooldown(cooldown: map<string, int>, user: int, game: string, now: int): (r: (int, map<string, int>))
    ensures r.0 >= 0
    ensures r.0 > 0 <==> CooldownActive(cooldown, CooldownKey(user, game), now)
    ensures r.0 > 0 ==> r.0 == cooldown[CooldownKey(user, game)] - now && r.1 == cooldown
    ensures r.0 == 0 ==> r.1 == cooldown - {CooldownKey(user, game)}
  {
    var key := CooldownKey(user, game);
    if key in cooldown then
      var remaining := cooldown[key] - now;
      if remaining > 0 then (remaining, cooldown) else (0, cooldown - {key})
    else (0, cooldown)
  }

  /** `_add_to_whitelist`. */
  function AddEntry(whitelist: map<string, Entry>, game: string, user: int, group: Option<int>, byAdmin: bool): (out: map<string, Entry>)
    ensures out.Keys == whitelist.Keys + {game}
    ensures out[game] == Entry(user, group, byAdmin)
    ensures forall g | g in whitelist && g != game :: out[g] == whitelist[g]
  {
    whitelist[game := Entry(user, group, byAdmin)]
  }

  /** Cancel the task registered under `key` (a task that already ran is not pending) and forget it. */
  function CancelRegistered(st: State, key: string): (out: State)
    ensures key !in out.registry
    ensures out == st.(pending := out.pending, registry := out.registry)
    ensures out.registry == st.registry - {key}
    ensures out.pending.Keys <= st.pending.Keys
    ensures key in st.registry ==> out.pending == st.pending - {st.registry[key]}
  {
    if key in st.registry then st.(pending := st.pending - {st.registry[key]}, registry := st.registry - {key})
    else st
  }

  /** Start a timer for question `index` of the interview under `key` and register it, replacing any registered one without cancelling it. */
  function Arm(st: State, key: string, user: int, group: Option<int>, index: nat, now: int): (out: State)
    ensures out == st.(pending := out.pending, registry := out.registry, nextTimer := st.nextTimer + 1)
    ensures out.pending == st.pending[st.nextTimer := Timer(key, user, group, index, now + st.config.answerTimeout)]
    ensures out.registry == st.registry[key := st.nextTimer]
  {
    var t := Timer(key, user, group, index, now + st.config.answerTimeout);
    st.(pending := st.pending[st.nextTimer := t], registry := st.registry[key := st.nextTimer], nextTimer := st.nextTimer + 1)
  }

  // ------------------------------------------------------------------ start

  /** What the request for an interview came to. */
  datatype StartOutcome =
    | NoGroup
    | GroupNotAllowed
    | EmptyId
    | InvalidId
    | CoolingDown(remaining: int)
    | AlreadyListed
    | QuotaReached(count: nat)
    | BeingAudited
    | SessionActive
    | Accepted(job: Prep)

  /** What the preparation step needs to know about an accepted request. */
  datatype Prep = Prep(key: string, user: int, group: Option<int>, game: string)

  /** The position of a refusal in the order the checks run; 9 for acceptance. */
  function Rank(o: StartOutcome): nat {
    match o
    case NoGroup => 0
    case GroupNotAllowed => 1
    case EmptyId => 2
    case InvalidId => 3
    case CoolingDown(_) => 4
    case AlreadyListed => 5
    case QuotaReached(_) => 6
    case BeingAudited => 7
    case SessionActive => 8
    case Accepted(_) => 9
  }

  /** Check number `i` of the start command fails on this request. */
  predicate CheckFails(st: State, user: int, group: Option<int>, text: string, now: int, i: nat) {
    var game := Strip(text);
    if i == 0 then group.None? || group.value == 0
    else if i == 1 then group.None? || group.value !in st.config.allowedGroups
    else if i == 2 then |game| == 0
    else if i == 3 then !IsValidGameId(game)
    else VetFails(st, user, group, game, now, i)
  }

  /** Check number `i`, from the cooldown on, fails for the stripped id `game`. */
  predicate VetFails(st: State, user: int, group: Option<int>, game: string, now: int, i: nat) {
    if i == 4 then CooldownActive(st.cooldown, CooldownKey(user, game), now)
    else if i == 5 then game in st.whitelist
    else if i == 6 then UserCount(st.whitelist, user) >= st.config.maxPerQq
    else if i == 7 then game in st.auditing
    else if i == 8 then SessionKey(user, group) in st.sessions
    else false
  }

  /**
   * `handle_whitelist_command`: the first failing check, in order, refuses the
   * request; otherwise it is accepted and the questions are prepared later.
   * Nothing but the applicant's expired cooldown entry changes here: no refusal
   * and no acceptance creates an interview or takes the id's lock.
   */
  function Start(st: State, user: int, group: Option<int>, text: string, now: int): (r: (State, StartOutcome))
    ensures r.0 == st.(cooldown := r.0.cooldown)
    ensures r.0.cooldown == st.cooldown || r.0.cooldown == st.cooldown - {CooldownKey(user, Strip(text))}
    ensures r.1.Accepted? ==> r.1.job == Prep(SessionKey(user, group), user, group, Strip(text))
    ensures r.1.Accepted? ==> IdShape(r.1.job.game)
  {
    var game := Strip(text);
    ValidStrippedId(text);
    if group.None? || group.value == 0 then (st, NoGroup)
    else if group.value !in st.config.allowedGroups then (st, GroupNotAllowed)
    else if |game| == 0 then (st, EmptyId)
    else if !IsValidGameId(game) then (st, InvalidId)
    else Vet(st, user, group, game, now)
  }

  /** The checks from the cooldown on, for a well-formed stripped id `game`. */
  function Vet(st: State, user: int, group: Option<int>, game: string, now: int): (r: (State, StartOutcome))
    ensures r.0 == st.(cooldown := r.0.cooldown)
    ensures r.0.cooldown == st.cooldown || r.0.cooldown == st.cooldown - {CooldownKey(user, game)}
    ensures r.1.Accepted? ==> r.1.job == Prep(SessionKey(user, group), user, group, game)
  {
    var (remaining, cooldown) := CheckCooldown(st.cooldown, user, game, now);
    var st1 := st.(cooldown := cooldown);
    if remaining > 0 then (st1, CoolingDown(remaining))
    else if game in st.whitelist then (st1, AlreadyListed)
    else if UserCount(st.whitelist, user) >= st.config.maxPerQq then (st1, QuotaReached(UserCount(st.whitelist, user)))
    else if game in st.auditing then (st1, BeingAudited)
    else if SessionKey(user, group) in st.sessions then (st1, SessionActive)
    else (st1, Accepted(Prep(SessionKey(user, group), user, group, game)))
  }

  /** The request is refused by the first check that fails, in the plugin's order, and accepted when none fails. */
  lemma StartFirstFailing(st: State, user: int, group: Option<int>, text: string, now: int)
    ensures var o := Start(st, user, group, text, now).1;
      (Rank(o) < 9 ==> CheckFails(st, user, group, text, now, Rank(o)))
      && forall i | 0 <= i < Rank(o) :: !CheckFails(st, user, group, text, now, i)
  {
    var game := Strip(text);
    if !(group.None? || group.value == 0 || group.value !in st.config.allowedGroups || |game| == 0 || !IsValidGameId(game)) {
      VetFirstFailing(st, user, group, game, now);
    }
  }

  /** `StartFirstFailing` for the checks from the cooldown on. */
  lemma VetFirstFailing(st: State, user: int, group: Option<int>, game: string, now: int)
    ensures var o := Vet(st, user, group, game, now).1;
      4 <= Rank(o)
      && (Rank(o) < 9 ==> VetFails(st, user, group, game, now, Rank(o)))
      && forall i | 4 <= i < Rank(o) :: !VetFails(st, user, group, game, now, i)
  {
  }

  // ---------------------------------------------------------------- prepare

  /**
   * `_prepare_and_send_first_question`, after the questions arrived: without
   * questions nothing happens; otherwise the interview is created with no
   * answers, the id is locked and the timer for question 0 is armed. Nothing is
   * re-checked: whatever happened since the request was accepted is overwritten.
   */
  function Prepare(st: State, job: Prep, questions: seq<string>, now: int): (out: State)
    ensures |questions| == 0 ==> out == st
    ensures |questions| > 0 ==>
      out.sessions == st.sessions[job.key := Session(job.user, job.game, job.group, questions, [], now, now)]
      && out.auditing == st.auditing + {job.game}
      && out.pending == st.pending[st.nextTimer := Timer(job.key, job.user, job.group, 0, now + st.config.answerTimeout)]
      && out.registry == st.registry[job.key := st.nextTimer]
      && out.records == st.records && out.whitelist == st.whitelist && out.cooldown == st.cooldown
  {
    if |questions| == 0 then st
    else
      var s := Session(job.user, job.game, job.group, questions, [], now, now);
      var st1 := st.(sessions := st.sessions[job.key := s], auditing := st.auditing + {job.game});
      Arm(st1, job.key, job.user, job.group, 0, now)
  }

  /** `Prepare` with the questions fetched the way `_fetch_questions` fetches them. */
  function PrepareFetched(st: State, job: Prep, replies: seq<Option<string>>, picks: seq<nat>, now: int): (out: State)
    requires |st.config.bank| > st.config.questionCount ==> IsSample(picks, |st.config.bank|, st.config.questionCount)
    ensures st.config.questionCount > 0 && |st.config.bank| > 0 ==> job.key in out.sessions && job.game in out.auditing
    ensures job.key in out.sessions && job.key !in st.sessions ==> |out.sessions[job.key].questions| <= st.config.questionCount
  {
    Prepare(st, job, FetchQuestions(st.config.useAi, replies, st.config.bank, st.config.questionCount, picks), now)
  }

  // ---------------------------------------------------------------- timeout

  /**
   * `_handle_question_timeout` for question `k` of the interview under `key`:
   * when that question is still the open one, it is recorded as unanswered,
   * the interview ends with score 0, the applicant gets a cooldown, and the
   * lock, the registered timer and the interview are dropped.
   */
  function HandleTimeout(st: State, key: string, user: int, group: Option<int>, k: nat, now: int): (out: State)
  {
    if key !in st.sessions || |st.sessions[key].answers| != k then st
    else
      var s := st.sessions[key];
      var answers := s.answers + [""];
      var rec := Record(user, s.game, group, s.questions, answers, 0, false, Some("timeout_question_" + IntToString(k + 1)));
      st.(records := AppendRecord(st.records, rec),
          auditing := st.auditing - {s.game},
          cooldown := SetCooldown(st.cooldown, user, s.game, now, st.config.cooldownSeconds),
          registry := st.registry - {key},
          sessions := st.sessions - {key})
  }

  /** The guards of `_check_question_timeout`: the interview exists, the question is still open, the id is locked. */
  predicate TimerLive(st: State, t: Timer) {
    t.key in st.sessions && |st.sessions[t.key].answers| == t.index && st.sessions[t.key].game in st.auditing
  }

  /**
   * The timer `id` wakes at `now`. It does anything only when it is pending and
   * due; it then stops being pending, and acts only when its guards hold.
   */
  function FireTimer(st: State, id: nat, now: int): (out: State)
  {
    if id !in st.pending || st.pending[id].due > now then st
    else
      var t := st.pending[id];
      var st1 := st.(pending := st.pending - {id});
      if TimerLive(st1, t) then HandleTimeout(st1, t.key, t.user, t.group, t.index, now) else st1
  }

  // ----------------------------------------------------------------- answer

  /** What an interview must be graded on, as it stood when the last answer came in. */
  datatype Job = Job(key: string, user: int, group: Option<int>, game: string, questions: seq<string>, answers: seq<string>)

  datatype AnswerOutcome =
    | NoSession
    | EmptyAnswer
    | TooLong
    | Expired
    | NextQuestion(index: nat)
    | IndexError
    | Completing(job: Job)

  /**
   * `handle_answer_command` up to the scorer's call: a stale answer ends the
   * interview as a timeout; otherwise the registered timer is cancelled, the
   * answer is appended, and either grading begins (the interview stays in place
   * until it ends) or the next question's timer is armed.
   */
  function Answer(st: State, user: int, group: Option<int>, text: string, now: int): (r: (State, AnswerOutcome))
  {
    var key := SessionKey(user, group);
    if key !in st.sessions then (st, NoSession)
    else
      var a := Strip(text);
      if |a| == 0 then (st, EmptyAnswer)
      else if |a| > MaxAnswerLength then (st, TooLong)
      else
        var s := st.sessions[key];
        if now - s.questionStart > st.config.answerTimeout then
          (HandleTimeout(st, key, user, group, |s.answers|, now), Expired)
        else Accept(st, key, user, group, s, a, now)
  }

  /**
   * A timely answer `a` to the interview `s` under `key`: the registered timer
   * is cancelled, the answer appended, and either grading begins or the next
   * question's timer is armed.
   */
  function Accept(st: State, key: string, user: int, group: Option<int>, s: Session, a: string, now: int): (r: (State, AnswerOutcome))
  {
    var c := CancelRegistered(st, key);
    var answers := s.answers + [a];
    if |answers| >= st.config.questionCount then
      var s1 := s.(answers := answers, lastActivity := now);
      (c.(sessions := c.sessions[key := s1]), Completing(Job(key, user, group, s.game, s.questions, answers)))
    else
      var s1 := s.(answers := answers, lastActivity := now, questionStart := now);
      var c1 := c.(sessions := c.sessions[key := s1]);
      if |answers| < |s.questions| then (Arm(c1, key, user, group, |answers|, now), NextQuestion(|answers|))
      else (c1, IndexError)
  }

  // ------------------------------------------------------------- completion

  datatype Completion = SessionGone | Passed(serverAdded: bool) | NotPassed

  /**
   * The end of `_complete_audit`, once the scorer gave `score`: the record is
   * saved and the lock released first; the interview is then deleted (when it
   * is already gone the deletion raises and nothing further happens); a pass
   * writes the local whitelist entry whatever the server said, a fail sets the
   * cooldown.
   */
  function FinishCompletion(st: State, job: Job, score: int, ex: Exchange, now: int): (r: (State, Completion))
  {
    var passed := score >= st.config.passScore;
    var rec := Record(job.user, job.game, job.group, job.questions, job.answers, score, passed, None);
    var st1 := st.(records := AppendRecord(st.records, rec), auditing := st.auditing - {job.game});
    if job.key !in st1.sessions then (st1, SessionGone)
    else
      var st2 := st1.(sessions := st1.sessions - {job.key});
      if passed then
        (st2.(whitelist := AddEntry(st2.whitelist, job.game, job.user, job.group, false)), Passed(AddToServer(ex, job.game)))
      else
        (st2.(cooldown := SetCooldown(st2.cooldown, job.user, job.game, now, st.config.cooldownSeconds)), NotPassed)
  }

  /**
   * The same step as the plugin is written: the answer handler calls
   * `_complete_audit` without its console client, so the server-side add is
   * never attempted.
   */
  function FinishCompletionAsWritten(st: State, job: Job, score: int, now: int): (r: (State, Completion)) {
    FinishCompletion(st, job, score, Exchange(NoClient, NoneReply, NoneReply), now)
  }

  // ------------------------------------------------------------ maintenance

  /** No activity for longer than the idle limit. */
  predicate Idle(s: Session, now: int) {
    now - s.lastActivity > IdleLimit
  }

  /**
   * `_cleanup_expired_sessions`, one sweep: idle interviews are dropped with
   * their locks and registered timers (which are cancelled).
   */
  function Reap(st: State, now: int): (out: State)
  {
    var idle := set k | k in st.sessions && Idle(st.sessions[k], now);
    var games := set k | k in idle :: st.sessions[k].game;
    var tasks := set k | k in idle && k in st.registry :: st.registry[k];
    st.(sessions := st.sessions - idle,
        auditing := st.auditing - games,
        registry := st.registry - idle,
        pending := st.pending - tasks)
  }

  /** `on_unload`: every registered timer is cancelled and all locks are released. */
  function Unload(st: State): (out: State)
    ensures out.auditing == {}
    ensures forall id | id in out.pending :: id in st.pending && id !in st.registry.Values
    ensures forall id | id in st.pending && id !in st.registry.Values :: id in out.pending
    ensures out == st.(pending := out.pending, auditing := {})
  {
    st.(pending := st.pending - st.registry.Values, auditing := {})
  }

  // ------------------------------------------------------------------ admin

  datatype AdminOutcome =
    | Usage
    | Added(serverAdded: bool)
    | Removed(serverRemoved: bool)
    | NotListed
    | Cleared
    | ResetDone(key: string)
    | NoSuchSession
    | NotInteger
    | MaxTooSmall
    | MaxSet(previous: int, current: int)
    | ReadOnly
    | Unknown

  /** The first key of `order` that is an interview key starting with `prefix`, if any. */
  function FirstWithPrefix(order: seq<string>, sessions: map<string, Session>, prefix: string): (r: Option<string>)
    ensures r.Some? ==> r.value in sessions && StartsWith(r.value, prefix)
    ensures r.Some? ==> exists i | 0 <= i < |order| ::
      (order[i] == r.value && forall j | 0 <= j < i :: !(order[j] in sessions && StartsWith(order[j], prefix)))
    ensures r.None? ==> forall i | 0 <= i < |order| :: !(order[i] in sessions && StartsWith(order[i], prefix))
    decreases |order|
  {
    if |order| == 0 then None
    else if order[0] in sessions && StartsWith(order[0], prefix) then Some(order[0])
    else
      var r := FirstWithPrefix(order[1..], sessions, prefix);
      assert forall i | 0 < i < |order| :: order[i] == order[1..][i - 1];
      r
  }

  /** Drop one interview with its lock and its registered timer. */
  function DropSession(st: State, key: string): (out: State)
    requires key in st.sessions
    ensures out.sessions == st.sessions - {key}
    ensures out.auditing == st.auditing - {st.sessions[key].game}
    ensures out.registry == st.registry - {key}
    ensures out.records == st.records && out.whitelist == st.whitelist && out.cooldown == st.cooldown
  {
    var c := CancelRegistered(st, key);
    c.(auditing := c.auditing - {st.sessions[key].game}, sessions := c.sessions - {key})
  }

  /**
   * `handle_admin` for the commands that change state. `order` is the order in
   * which the interview keys are iterated (insertion order). `sessions`,
   * `config`, `reload`, `sync` and `set_command` only report or touch things
   * outside this model and leave the state as it is.
   */
  function Admin(st: State, admin: int, group: Option<int>, text: string, order: seq<string>, ex: Exchange): (r: (State, AdminOutcome))
    requires Elems(order) == st.sessions.Keys
  {
    AdminWords(st, admin, group, Split(text), order, ex)
  }

  /** An administrator command, once split into its words `parts`. */
  function AdminWords(st: State, admin: int, group: Option<int>, parts: seq<string>, order: seq<string>, ex: Exchange): (r: (State, AdminOutcome))
    requires Elems(order) == st.sessions.Keys
  {
    if |parts| == 0 then (st, Usage)
    else
      var action := parts[0];
      if action == "add" && |parts| > 1 then
        (st.(whitelist := AddEntry(st.whitelist, parts[1], admin, group, true)), Added(AddToServer(ex, parts[1])))
      else if action == "remove" && |parts| > 1 then
        if parts[1] in st.whitelist then
          (st.(whitelist := st.whitelist - {parts[1]}), Removed(RemoveFromServer(ex, parts[1])))
        else (st, NotListed)
      else if action == "clear" then (st.(whitelist := map[]), Cleared)
      else if action == "reload" || action == "sessions" || action == "sync" || action == "config" then (st, ReadOnly)
      else if action == "reset" && |parts| > 1 then
        match FirstWithPrefix(order, st.sessions, parts[1] + "_")
        case Some(key) => (DropSession(st, key), ResetDone(key))
        case None => (st, NoSuchSession)
      else if action == "set_max" && |parts| > 2 then
        match ParseInt(parts[2])
        case None => (st, NotInteger)
        case Some(n) =>
          if n < 1 then (st, MaxTooSmall)
          else (st.(config := st.config.(maxPerQq := n)), MaxSet(st.config.maxPerQq, n))
      else if action == "set_command" && |parts| > 2 then (st, ReadOnly)
      else (st, Unknown)
  }
}

=== FILE: audit_props.dfy ===
/**
 * What the whitelist audit's steps guarantee, and what they do not: the
 * effects of answers, timers, completion, the cooldown ledger, the idle sweep
 * and the admin commands, the interleavings of an answer with its question's
 * timer, and the race the id lock does not prevent.
 */
module AuditProps {
  import opened Wrappers
  import opened Text
  import opened LogCache
  import opened AuditQuestions
  import opened AuditRcon
  import opened Audit

  // --------------------------------------------------------------- cooldown

  /**
   * A cooldown set at `t` makes the check report the remaining wait while it
   * runs, and report nothing (dropping the entry) once it has run out.
   */
  lemma CooldownRoundTrip(cd: map<string, int>, user: int, game: string, t: int, seconds: int, now: int)
    ensures var (rem, cd2) := CheckCooldown(SetCooldown(cd, user, game, t, seconds), user, game, now);
      (now < t + seconds ==> rem == t + seconds - now && rem > 0)
      && (now >= t + seconds ==> rem == 0 && CooldownKey(user, game) !in cd2)
  {
  }

  /** A cooldown for one (user, game) pair leaves every other pair's check as it was. */
  lemma CooldownSeparate(cd: map<string, int>, user: int, game: string, t: int, seconds: int, u: int, g: string, now: int)
    requires u != user || g != game
    ensures CheckCooldown(SetCooldown(cd, user, game, t, seconds), u, g, now).0 == CheckCooldown(cd, u, g, now).0
  {
    CooldownKeyInjective(user, game, u, g);
  }

  // ---------------------------------------------------------------- answers

  /** The answer was accepted: appended and either graded or followed by another question. */
  predicate Accepted(o: AnswerOutcome) {
    o.Completing? || o.NextQuestion? || o.IndexError?
  }

  /** Refusals: no interview, an empty answer or an over-long one leave everything as it was. */
  lemma AnswerRefusals(st: State, user: int, group: Option<int>, text: string, now: int)
    ensures var (out, o) := Answer(st, user, group, text, now);
      (o == NoSession <==> SessionKey(user, group) !in st.sessions)
      && (o == EmptyAnswer <==> SessionKey(user, group) in st.sessions && |Strip(text)| == 0)
      && (o == TooLong <==> SessionKey(user, group) in st.sessions && |Strip(text)| > MaxAnswerLength)
      && (o == NoSession || o == EmptyAnswer || o == TooLong ==> out == st)
  {
    var key := SessionKey(user, group);
    if key in st.sessions && 0 < |Strip(text)| <= MaxAnswerLength {
      AnswerPasses(st, user, group, text, now);
    }
  }

  /** A well-formed answer to a running interview is not refused. */
  lemma AnswerPasses(st: State, user: int, group: Option<int>, text: string, now: int)
    requires SessionKey(user, group) in st.sessions && 0 < |Strip(text)| <= MaxAnswerLength
    ensures var o := Answer(st, user, group, text, now).1;
      o.Expired? || Accepted(o)
  {
    var s := st.sessions[SessionKey(user, group)];
    if now - s.questionStart > st.config.answerTimeout {
      assert Answer(st, user, group, text, now).1 == Expired;
    } else if |s.answers| + 1 >= st.config.questionCount {
      assert Answer(st, user, group, text, now).1.Completing?;
    } else {
      assert Accepted(Answer(st, user, group, text, now).1);
    }
  }

  /**
   * An accepted answer is appended, stripped, to the interview, whose questions
   * and id stay as they were; records, whitelist, locks and cooldowns are
   * untouched, and grading begins exactly when the answers reach the question
   * count, with the answers as they now stand and no timer registered.
   */
  lemma AnswerAppends(st: State, user: int, group: Option<int>, text: string, now: int)
    requires Accepted(Answer(st, user, group, text, now).1)
    ensures var key := SessionKey(user, group);
      var (out, o) := Answer(st, user, group, text, now);
      key in st.sessions && key in out.sessions
      && out.sessions[key].answers == st.sessions[key].answers + [Strip(text)]
      && out.sessions[key].questions == st.sessions[key].questions
      && out.sessions[key].game == st.sessions[key].game
      && out.records == st.records && out.whitelist == st.whitelist
      && out.auditing == st.auditing && out.cooldown == st.cooldown
      && (o.Completing? <==> |out.sessions[key].answers| >= st.config.questionCount)
      && (o.Completing? ==> o.job.answers == out.sessions[key].answers && key !in out.registry)
      && (forall i | i in out.pending && i < st.nextTimer :: i in st.pending && out.pending[i] == st.pending[i])
  {
    var key := SessionKey(user, group);
    AnswerIsAccept(st, user, group, text, now);
    AcceptAppends(st, key, user, group, st.sessions[key], Strip(text), now);
  }

  /** An answer that is accepted is taken by `Accept`, with the stripped text. */
  lemma AnswerIsAccept(st: State, user: int, group: Option<int>, text: string, now: int)
    requires Accepted(Answer(st, user, group, text, now).1)
    ensures var key := SessionKey(user, group);
      key in st.sessions
      && Answer(st, user, group, text, now) == Accept(st, key, user, group, st.sessions[key], Strip(text), now)
  {
  }

  /** What `Accept` does to the interview, the rest of the state and the timers. */
  lemma AcceptAppends(st: State, key: string, user: int, group: Option<int>, s: Session, a: string, now: int)
    requires key in st.sessions && s == st.sessions[key]
    ensures var (out, o) := Accept(st, key, user, group, s, a, now);
      Accepted(o) && key in out.sessions
      && out.sessions[key].answers == s.answers + [a]
      && out.sessions[key].questions == s.questions
      && out.sessions[key].game == s.game
      && out.records == st.records && out.whitelist == st.whitelist
      && out.auditing == st.auditing && out.cooldown == st.cooldown
      && (o.Completing? <==> |out.sessions[key].answers| >= st.config.questionCount)
      && (o.Completing? ==> o.job.answers == out.sessions[key].answers && key !in out.registry)
      && (forall i | i in out.pending && i < st.nextTimer :: i in st.pending && out.pending[i] == st.pending[i])
  {
    var c := CancelRegistered(st, key);
    var answers := s.answers + [a];
    if |answers| >= st.config.questionCount {
      var s1 := s.(answers := answers, lastActivity := now);
      assert Accept(st, key, user, group, s, a, now).0 == c.(sessions := c.sessions[key := s1]);
    } else {
      var s1 := s.(answers := answers, lastActivity := now, questionStart := now);
      var c1 := c.(sessions := c.sessions[key := s1]);
      if |answers| < |s.questions| {
        assert Accept(st, key, user, group, s, a, now).0 == Arm(c1, key, user, group, |answers|, now);
      } else {
        assert Accept(st, key, user, group, s, a, now).0 == c1;
      }
    }
  }

  /** Before the last question, an accepted answer arms the timer of the next one and registers it under the interview's key. */
  lemma AnswerArmsNext(st: State, user: int, group: Option<int>, text: string, now: int)
    requires Answer(st, user, group, text, now).1.NextQuestion?
    ensures var key := SessionKey(user, group);
      var (out, o) := Answer(st, user, group, text, now);
      key in st.sessions && key in out.sessions
      && o.index == |out.sessions[key].answers| == |st.sessions[key].answers| + 1
      && o.index < |st.sessions[key].questions|
      && out.sessions[key].questionStart == now
      && key in out.registry && out.registry[key] in out.pending
      && out.pending[out.registry[key]] == Timer(key, user, group, o.index, now + st.config.answerTimeout)
  {
    var key := SessionKey(user, group);
    AnswerIsAccept(st, user, group, text, now);
    AcceptArmsNext(st, key, user, group, st.sessions[key], Strip(text), now);
  }

  /** `AnswerArmsNext` for `Accept`. */
  lemma AcceptArmsNext(st: State, key: string, user: int, group: Option<int>, s: Session, a: string, now: int)
    requires key in st.sessions && s == st.sessions[key]
    requires Accept(st, key, user, group, s, a, now).1.NextQuestion?
    ensures var (out, o) := Accept(st, key, user, group, s, a, now);
      key in out.sessions
      && o.index == |out.sessions[key].answers| == |s.answers| + 1
      && o.index < |s.questions|
      && out.sessions[key].questionStart == now
      && key in out.registry && out.registry[key] in out.pending
      && out.pending[out.registry[key]] == Timer(key, user, group, o.index, now + st.config.answerTimeout)
  {
    var c := CancelRegistered(st, key);
    var answers := s.answers + [a];
    var s1 := s.(answers := answers, lastActivity := now, questionStart := now);
    var c1 := c.(sessions := c.sessions[key := s1]);
    assert Accept(st, key, user, group, s, a, now).0 == Arm(c1, key, user, group, |answers|, now);
  }

  /**
   * An answer that comes after its question's time ran out ends the interview
   * as a timeout of that question instead of being recorded.
   */
  lemma LateAnswerTimesOut(st: State, user: int, group: Option<int>, text: string, now: int)
    requires SessionKey(user, group) in st.sessions
    requires 0 < |Strip(text)| <= MaxAnswerLength
    requires now - st.sessions[SessionKey(user, group)].questionStart > st.config.answerTimeout
    ensures var (out, o) := Answer(st, user, group, text, now);
      o == Expired && SessionKey(user, group) !in out.sessions
      && RecordsOf(out.records, user) == RecordsOf(st.records, user) + [TimeoutRecord(st.sessions[SessionKey(user, group)], user, group)]
  {
  }

  /** The record a timeout of the open question of `s` writes. */
  function TimeoutRecord(s: Session, user: int, group: Option<int>): Record {
    Record(user, s.game, group, s.questions, s.answers + [""], 0, false, Some("timeout_question_" + IntToString(|s.answers| + 1)))
  }

  // --------------------------------------------------------------- timeouts

  /**
   * A timeout of question `k` acts only while `k` is the open question; it then
   * records exactly one empty answer with score 0, sets the cooldown, and
   * drops the lock, the registered timer and the interview. A stale `k` is a
   * no-op.
   */
  lemma TimeoutSpec(st: State, key: string, user: int, group: Option<int>, k: nat, now: int)
    ensures var out := HandleTimeout(st, key, user, group, k, now);
      (key !in st.sessions || |st.sessions[key].answers| != k ==> out == st)
      && (key in st.sessions && |st.sessions[key].answers| == k ==>
            var s := st.sessions[key];
            RecordsOf(out.records, user) == RecordsOf(st.records, user) + [TimeoutRecord(s, user, group)]
            && |TimeoutRecord(s, user, group).answers| == k + 1
            && (st.config.cooldownSeconds > 0 ==> CooldownActive(out.cooldown, CooldownKey(user, s.game), now))
            && s.game !in out.auditing && key !in out.sessions && key !in out.registry
            && out.whitelist == st.whitelist && out.pending == st.pending
            && out.sessions == st.sessions - {key})
  {
  }

  /**
   * A timer acts only when it is pending and due and all three guards hold; a
   * timer that wakes to a finished interview, a question already answered or a
   * released lock only stops being pending.
   */
  lemma FireTimerSpec(st: State, id: nat, now: int)
    ensures var out := FireTimer(st, id, now);
      (id !in st.pending || st.pending[id].due > now ==> out == st)
      && (id in st.pending && st.pending[id].due <= now && !TimerLive(st, st.pending[id]) ==>
            out == st.(pending := st.pending - {id}))
      && (id in st.pending && st.pending[id].due <= now && TimerLive(st, st.pending[id]) ==>
            var t := st.pending[id];
            t.key !in out.sessions && id !in out.pending
            && RecordsOf(out.records, t.user) == RecordsOf(st.records, t.user) + [TimeoutRecord(st.sessions[t.key], t.user, t.group)])
  {
  }

  /**
   * The answer wins the race with its question's timer: once an answer to
   * question `k` is accepted, the timer for `k`, if it still runs, finds the
   * question answered and leaves the interview, the records and the ledger alone.
   */
  lemma AnswerDefusesTimer(st: State, user: int, group: Option<int>, text: string, now: int, id: nat, later: int)
    requires SessionKey(user, group) in st.sessions
    requires id in st.pending && st.pending[id].key == SessionKey(user, group)
    requires st.pending[id].index == |st.sessions[SessionKey(user, group)].answers|
    requires id < st.nextTimer
    requires Accepted(Answer(st, user, group, text, now).1)
    ensures var mid := Answer(st, user, group, text, now).0;
      var out := FireTimer(mid, id, later);
      out.sessions == mid.sessions && out.records == mid.records
      && out.cooldown == mid.cooldown && out.auditing == mid.auditing
  {
    AnswerAppends(st, user, group, text, now);
    var mid := Answer(st, user, group, text, now).0;
    if id in mid.pending && mid.pending[id].due <= later {
      var t := mid.pending[id];
      assert t == st.pending[id];
      assert !TimerLive(mid.(pending := mid.pending - {id}), t);
    }
  }

  /** The timer wins the race: the interview is over, and the answer that arrives next finds no interview. */
  lemma TimerPreemptsAnswer(st: State, id: nat, now: int, text: string, later: int)
    requires id in st.pending && st.pending[id].due <= now && TimerLive(st, st.pending[id])
    requires st.pending[id].key == SessionKey(st.pending[id].user, st.pending[id].group)
    ensures var t := st.pending[id];
      Answer(FireTimer(st, id, now), t.user, t.group, text, later).1 == NoSession
  {
  }

  // ------------------------------------------------------------- completion

  /**
   * The end of an interview: `passed` is `score >= pass_score`. A pass writes the
   * local whitelist entry whatever the server replied and sets no cooldown; a
   * fail sets the cooldown and writes no entry. Either way the record is saved
   * and the lock and the interview are gone.
   */
  lemma CompletionSpec(st: State, job: Job, score: int, ex: Exchange, now: int)
    ensures var (out, c) := FinishCompletion(st, job, score, ex, now);
      var passed := score >= st.config.passScore;
      |RecordsOf(out.records, job.user)| == |RecordsOf(st.records, job.user)| + 1
      && RecordsOf(out.records, job.user)[|RecordsOf(st.records, job.user)|].passed == passed
      && RecordsOf(out.records, job.user)[|RecordsOf(st.records, job.user)|].score == score
      && job.game !in out.auditing && job.key !in out.sessions
      && (c == SessionGone <==> job.key !in st.sessions)
      && (c.Passed? <==> job.key in st.sessions && passed)
      && (c.Passed? ==> job.game in out.whitelist && out.whitelist[job.game] == Entry(job.user, job.group, false)
                        && out.cooldown == st.cooldown)
      && (c == NotPassed ==>
            out.whitelist == st.whitelist
            && (st.config.cooldownSeconds > 0 ==> CooldownActive(out.cooldown, CooldownKey(job.user, job.game), now)))
  {
  }

  /** As the plugin is written, a passed interview never reaches the server's whitelist. */
  lemma AsWrittenNeverAddsToServer(st: State, job: Job, score: int, now: int)
    ensures FinishCompletionAsWritten(st, job, score, now).1 != Passed(true)
  {
  }

  /**
   * With the console client passed on, a passed interview is added on the
   * server when the server acknowledges the command, as the help text promises.
   */
  lemma CorrectedAddsToServer(st: State, job: Job, score: int, reply: string, now: int)
    requires job.key in st.sessions && score >= st.config.passScore
    ensures FinishCompletion(st, job, score, Exchange(Connected, Returned(reply), NoneReply), now).1 == Passed(true)
  {
  }

  /**
   * The interview stays in place while the scorer is asked: an answer sent in
   * that gap is accepted again and starts a second grading of the same interview.
   */
  lemma GradingGapAcceptsAnswers(st: State, user: int, group: Option<int>, text: string, now: int, text2: string, now2: int)
    requires Answer(st, user, group, text, now).1.Completing?
    requires 0 < |Strip(text2)| <= MaxAnswerLength
    requires var s1 := Answer(st, user, group, text, now).0;
      SessionKey(user, group) in s1.sessions && now2 - s1.sessions[SessionKey(user, group)].questionStart <= st.config.answerTimeout
    ensures Answer(Answer(st, user, group, text, now).0, user, group, text2, now2).1.Completing?
  {
    var key := SessionKey(user, group);
    var st1 := Answer(st, user, group, text, now).0;
    AnswerAppends(st, user, group, text, now);
    AcceptedKeepsConfig(st, user, group, text, now);
    AnswerCompletes(st1, user, group, text2, now2);
  }

  /** An accepted answer leaves the settings alone. */
  lemma AcceptedKeepsConfig(st: State, user: int, group: Option<int>, text: string, now: int)
    requires Accepted(Answer(st, user, group, text, now).1)
    ensures Answer(st, user, group, text, now).0.config == st.config
  {
    AnswerIsAccept(st, user, group, text, now);
  }

  /** A timely answer that brings the answers up to the question count starts grading. */
  lemma AnswerCompletes(st: State, user: int, group: Option<int>, text: string, now: int)
    requires SessionKey(user, group) in st.sessions && 0 < |Strip(text)| <= MaxAnswerLength
    requires now - st.sessions[SessionKey(user, group)].questionStart <= st.config.answerTimeout
    requires |st.sessions[SessionKey(user, group)].answers| >= st.config.questionCount
    ensures Answer(st, user, group, text, now).1.Completing?
  {
  }

  // ----------------------------------------------------------------- locking

  /**
   * The id lock is taken only when the questions are ready, so two requests for
   * the same id that both pass the checks before either is prepared both get an
   * interview for it: the lock is a refusal rule, not mutual exclusion.
   */
  lemma LockRace(st: State, u1: int, u2: int, group: int, game: string, q1: seq<string>, q2: seq<string>, now: int)
    requires u1 != u2 && group != 0 && group in st.config.allowedGroups
    requires IdShape(game) && game !in st.whitelist && game !in st.auditing
    requires CooldownKey(u1, game) !in st.cooldown && CooldownKey(u2, game) !in st.cooldown
    requires UserCount(st.whitelist, u1) < st.config.maxPerQq && UserCount(st.whitelist, u2) < st.config.maxPerQq
    requires SessionKey(u1, Some(group)) !in st.sessions && SessionKey(u2, Some(group)) !in st.sessions
    requires |q1| > 0 && |q2| > 0
    ensures var (s1, o1) := Start(st, u1, Some(group), game, now);
      var (s2, o2) := Start(s1, u2, Some(group), game, now);
      o1.Accepted? && o2.Accepted?
      && var out := Prepare(Prepare(s2, o1.job, q1, now), o2.job, q2, now);
      out.sessions[SessionKey(u1, Some(group))].game == game
      && out.sessions[SessionKey(u2, Some(group))].game == game
      && SessionKey(u1, Some(group)) != SessionKey(u2, Some(group))
  {
    IdShapeStripped(game);
    ValidStrippedId(game);
    SessionKeyInjective(u1, Some(group), u2, Some(group));
    var (s1, o1) := Start(st, u1, Some(group), game, now);
    assert o1.Accepted?;
    var (s2, o2) := Start(s1, u2, Some(group), game, now);
    assert o2.Accepted?;
  }

  // ------------------------------------------------------------- idle sweep

  /**
   * After a sweep exactly the interviews that were not idle remain, with their
   * contents; the ids of the removed ones are unlocked; records, whitelist and
   * cooldowns are untouched.
   */
  lemma ReapSpec(st: State, now: int)
    ensures var out := Reap(st, now);
      (forall k :: k in out.sessions <==> k in st.sessions && !Idle(st.sessions[k], now))
      && (forall k | k in out.sessions :: out.sessions[k] == st.sessions[k])
      && (forall k | k in st.sessions && Idle(st.sessions[k], now) :: st.sessions[k].game !in out.auditing && k !in out.registry)
      && out.auditing <= st.auditing
      && out.records == st.records && out.whitelist == st.whitelist && out.cooldown == st.cooldown
  {
  }

  // ------------------------------------------------------------------- admin

  /**
   * `add` writes an admin entry whether or not the server took it; `remove` of
   * a listed id drops it whatever the server said, of an unlisted one changes
   * nothing; `clear` empties the local whitelist and nothing else.
   */
  lemma AdminWhitelist(st: State, admin: int, group: Option<int>, text: string, order: seq<string>, ex: Exchange)
    requires Elems(order) == st.sessions.Keys
    ensures var (out, o) := Admin(st, admin, group, text, order, ex);
      var parts := Split(text);
      (o.Added? ==>
         |parts| > 1 && out == st.(whitelist := st.whitelist[parts[1] := Entry(admin, group, true)])
         && o.serverAdded == AddToServer(ex, parts[1]))
      && (o.Removed? ==>
         |parts| > 1 && parts[1] in st.whitelist && out == st.(whitelist := st.whitelist - {parts[1]})
         && o.serverRemoved == RemoveFromServer(ex, parts[1]))
      && (o == NotListed ==> out == st && |parts| > 1 && parts[1] !in st.whitelist)
      && (o == Cleared ==> out == st.(whitelist := map[]))
  {
    WordsWhitelist(st, admin, group, Split(text), order, ex);
  }

  /** `AdminWhitelist` for the command's words. */
  lemma WordsWhitelist(st: State, admin: int, group: Option<int>, parts: seq<string>, order: seq<string>, ex: Exchange)
    requires Elems(order) == st.sessions.Keys
    ensures var (out, o) := AdminWords(st, admin, group, parts, order, ex);
      (o.Added? ==>
         |parts| > 1 && out == st.(whitelist := st.whitelist[parts[1] := Entry(admin, group, true)])
         && o.serverAdded == AddToServer(ex, parts[1]))
      && (o.Removed? ==>
         |parts| > 1 && parts[1] in st.whitelist && out == st.(whitelist := st.whitelist - {parts[1]})
         && o.serverRemoved == RemoveFromServer(ex, parts[1]))
      && (o == NotListed ==> out == st && |parts| > 1 && parts[1] !in st.whitelist)
      && (o == Cleared ==> out == st.(whitelist := map[]))
  {
    if |parts| > 0 {
      var action := parts[0];
      if action == "add" && |parts| > 1 {
      } else if action == "remove" && |parts| > 1 {
      } else if action == "clear" {
      } else {
        var o := AdminWords(st, admin, group, parts, order, ex).1;
        assert !o.Added? && !o.Removed? && o != NotListed && o != Cleared;
      }
    }
  }

  /**
   * `reset` drops the first interview, in key order, whose key starts with the
   * given user id and `_`, together with its lock and registered timer.
   */
  lemma AdminReset(st: State, admin: int, group: Option<int>, text: string, order: seq<string>, ex: Exchange)
    requires Elems(order) == st.sessions.Keys
    requires Admin(st, admin, group, text, order, ex).1.ResetDone?
    ensures var (out, o) := Admin(st, admin, group, text, order, ex);
      var parts := Split(text);
      |parts| > 1 && o.key in st.sessions && StartsWith(o.key, parts[1] + "_")
      && out.sessions == st.sessions - {o.key}
      && st.sessions[o.key].game !in out.auditing
      && o.key !in out.registry
      && out.records == st.records && out.whitelist == st.whitelist && out.cooldown == st.cooldown
  {
    WordsReset(st, admin, group, Split(text), order, ex);
  }

  /** `AdminReset` for the command's words. */
  lemma WordsReset(st: State, admin: int, group: Option<int>, parts: seq<string>, order: seq<string>, ex: Exchange)
    requires Elems(order) == st.sessions.Keys
    requires AdminWords(st, admin, group, parts, order, ex).1.ResetDone?
    ensures var (out, o) := AdminWords(st, admin, group, parts, order, ex);
      |parts| > 1 && o.key in st.sessions && StartsWith(o.key, parts[1] + "_")
      && out.sessions == st.sessions - {o.key}
      && st.sessions[o.key].game !in out.auditing
      && o.key !in out.registry
      && out.records == st.records && out.whitelist == st.whitelist && out.cooldown == st.cooldown
  {
  }

  /**
   * `set_max` changes only the global quota, and only to a value of at least 1;
   * every other outcome that is not a change leaves the state as it was.
   */
  lemma AdminQuota(st: State, admin: int, group: Option<int>, text: string, order: seq<string>, ex: Exchange)
    requires Elems(order) == st.sessions.Keys
    ensures var (out, o) := Admin(st, admin, group, text, order, ex);
      (o.MaxSet? ==> o.current >= 1 && o.previous == st.config.maxPerQq
                     && out == st.(config := st.config.(maxPerQq := o.current)))
      && (o == ReadOnly || o == Usage || o == Unknown || o == NotInteger || o == MaxTooSmall || o == NoSuchSession ==> out == st)
  {
    WordsQuota(st, admin, group, Split(text), order, ex);
  }

  /** `AdminQuota` for the command's words. */
  lemma WordsQuota(st: State, admin: int, group: Option<int>, parts: seq<string>, order: seq<string>, ex: Exchange)
    requires Elems(order) == st.sessions.Keys
    ensures var (out, o) := AdminWords(st, admin, group, parts, order, ex);
      (o.MaxSet? ==> o.current >= 1 && o.previous == st.config.maxPerQq
                     && out == st.(config := st.config.(maxPerQq := o.current)))
      && (o == ReadOnly || o == Usage || o == Unknown || o == NotInteger || o == MaxTooSmall || o == NoSuchSession ==> out == st)
  {
  }

  /** `set_max` with a number of at least 1 sets the quota to that number for everyone. */
  lemma SetMaxParses(st: State, admin: int, group: Option<int>, target: string, n: int, order: seq<string>, ex: Exchange)
    requires Elems(order) == st.sessions.Keys
    requires n >= 1 && |target| > 0 && NoSpace(target)
    ensures Admin(st, admin, group, JoinSpaced(["set_max", target, IntToString(n)]), order, ex).0.config.maxPerQq == n
  {
    var ws := ["set_max", target, IntToString(n)];
    assert NoSpace(IntToString(n));
    SplitJoinSpaced(ws);
    IntRoundTrip(n);
    WordsSetMax(st, admin, group, ws, order, ex, n);
  }

  /** `set_max` whose third word reads as a number of at least 1 sets the quota to it. */
  lemma WordsSetMax(st: State, admin: int, group: Option<int>, parts: seq<string>, order: seq<string>, ex: Exchange, n: int)
    requires Elems(order) == st.sessions.Keys
    requires |parts| > 2 && parts[0] == "set_max" && ParseInt(parts[2]) == Some(n) && n >= 1
    ensures AdminWords(st, admin, group, parts, order, ex).0.config.maxPerQq == n
  {
  }

  // ------------------------------------------------------- records only grow

  /** Requests, preparation and answers never rewrite or remove an audit record. */
  lemma InterviewAppendOnly(st: State, user: int, group: Option<int>, text: string, now: int, job: Prep, questions: seq<string>)
    ensures AppendOnly(st.records, Start(st, user, group, text, now).0.records)
    ensures AppendOnly(st.records, Prepare(st, job, questions, now).records)
    ensures AppendOnly(st.records, Answer(st, user, group, text, now).0.records)
  {
    AnswerRecords(st, user, group, text, now);
  }

  /** Timers, completion, the sweep, unloading and the admin commands never rewrite or remove an audit record. */
  lemma UpkeepAppendOnly(st: State, id: nat, j: Job, score: int, ex: Exchange, now: int, admin: int, group: Option<int>, text: string, order: seq<string>)
    requires Elems(order) == st.sessions.Keys
    ensures AppendOnly(st.records, FireTimer(st, id, now).records)
    ensures AppendOnly(st.records, FinishCompletion(st, j, score, ex, now).0.records)
    ensures AppendOnly(st.records, Reap(st, now).records)
    ensures AppendOnly(st.records, Unload(st).records)
    ensures AppendOnly(st.records, Admin(st, admin, group, text, order, ex).0.records)
  {
    FireTimerAppendOnly(st, id, now);
    FinishAppendOnly(st, j, score, ex, now);
    ReapAppendOnly(st, now);
    UnloadAppendOnly(st);
    AdminAppendOnly(st, admin, group, text, order, ex);
  }

  /** A timer that fires appends at most one record. */
  lemma FireTimerAppendOnly(st: State, id: nat, now: int)
    ensures AppendOnly(st.records, FireTimer(st, id, now).records)
  {
  }

  /** Finishing a graded interview appends its record. */
  lemma FinishAppendOnly(st: State, j: Job, score: int, ex: Exchange, now: int)
    ensures AppendOnly(st.records, FinishCompletion(st, j, score, ex, now).0.records)
  {
  }

  /** The periodic sweep writes no record: the log is left as it was. */
  lemma ReapAppendOnly(st: State, now: int)
    ensures AppendOnly(st.records, Reap(st, now).records)
    ensures Reap(st, now).records == st.records
  {
  }

  /** Unloading the plugin writes no record: the log is left as it was. */
  lemma UnloadAppendOnly(st: State)
    ensures AppendOnly(st.records, Unload(st).records)
    ensures Unload(st).records == st.records
  {
  }

  /** No administrator command takes a record away. */
  lemma AdminAppendOnly(st: State, admin: int, group: Option<int>, text: string, order: seq<string>, ex: Exchange)
    requires Elems(order) == st.sessions.Keys
    ensures AppendOnly(st.records, Admin(st, admin, group, text, order, ex).0.records)
  {
    AdminQuota(st, admin, group, text, order, ex);
    AdminWhitelist(st, admin, group, text, order, ex);
    if Admin(st, admin, group, text, order, ex).1.ResetDone? {
      AdminReset(st, admin, group, text, order, ex);
    }
  }

  /** An answer either leaves the records alone or, when it comes too late, appends one timeout record. */
  lemma AnswerRecords(st: State, user: int, group: Option<int>, text: string, now: int)
    ensures AppendOnly(st.records, Answer(st, user, group, text, now).0.records)
  {
    AnswerRefusals(st, user, group, text, now);
    var o := Answer(st, user, group, text, now).1;
    if Accepted(o) {
      AnswerAppends(st, user, group, text, now);
    }
  }
}

=== FILE: audit_questions.dfy ===
/**
 * The text handling of the whitelist audit that does not touch its state:
 * game-id validation, reading questions out of a generated reply, choosing
 * questions from the built-in bank, and reading a score out of a grading reply.
 * The replies of the language model are inputs; the model itself is not.
 */
module AuditQuestions {
  import opened Wrappers
  import opened Text

  // ---------------------------------------------------------------- game ids

  /** A character of the class `[a-zA-Z0-9_]`. */
  predicate IsIdChar(c: char) {
    'a' <= c <= 'z' || 'A' <= c <= 'Z' || '0' <= c <= '9' || c == '_'
  }

  /** The whole string is `[a-zA-Z0-9_]{3,16}`. */
  predicate IdShape(s: string) {
    3 <= |s| <= 16 && forall i | 0 <= i < |s| :: IsIdChar(s[i])
  }

  /**
   * `re.match(r'^[a-zA-Z0-9_]{3,16}$', s)`: Python's `$` also matches just
   * before a final newline, so one trailing `\n` is accepted.
   */
  predicate IsValidGameId(s: string) {
    IdShape(s) || (|s| > 0 && s[|s| - 1] == '\n' && IdShape(s[..|s| - 1]))
  }

  /** On a stripped string (the only kind the start command passes) the newline loophole is closed. */
  lemma ValidStrippedId(s: string)
    ensures IsValidGameId(Strip(s)) <==> IdShape(Strip(s))
  {
  }

  /** A valid stripped id is its own strip: padding around a valid id is ignored, nothing else changes. */
  lemma IdShapeStripped(s: string)
    requires IdShape(s)
    ensures Strip(s) == s
  {
    StripStripped(s);
  }

  // ------------------------------------------------------ splitting on a char

  /** `s.split(sep)` with an explicit separator: empty pieces are kept. */
  function SplitOn(s: string, sep: char): (r: seq<string>)
    ensures |r| >= 1
    ensures forall i | 0 <= i < |r| :: sep !in r[i]
    decreases |s|
  {
    var i := IndexOfChar(s, sep);
    if i == |s| then [s] else [s[..i]] + SplitOn(s[i + 1..], sep)
  }

  /** `sep.join(ps)`. */
  function JoinOn(ps: seq<string>, sep: char): string
    decreases |ps|
  {
    if |ps| == 0 then "" else if |ps| == 1 then ps[0] else ps[0] + [sep] + JoinOn(ps[1..], sep)
  }

  /** Joining the pieces gives the text back. */
  lemma {:induction false} JoinSplitOn(s: string, sep: char)
    ensures JoinOn(SplitOn(s, sep), sep) == s
    decreases |s|
  {
    var i := IndexOfChar(s, sep);
    if i < |s| {
      var r := SplitOn(s[i + 1..], sep);
      assert SplitOn(s, sep) == [s[..i]] + r;
      JoinCons(s[..i], r, sep);
      JoinSplitOn(s[i + 1..], sep);
      assert s == s[..i] + [sep] + s[i + 1..];
    }
  }

  lemma JoinCons(x: string, r: seq<string>, sep: char)
    requires |r| >= 1
    ensures JoinOn([x] + r, sep) == x + [sep] + JoinOn(r, sep)
  {
    assert ([x] + r)[1..] == r;
  }

  /** Splitting a join of separator-free pieces gives the pieces back. */
  lemma {:induction false} SplitJoinOn(ps: seq<string>, sep: char)
    requires |ps| >= 1
    requires forall i | 0 <= i < |ps| :: sep !in ps[i]
    ensures SplitOn(JoinOn(ps, sep), sep) == ps
    decreases |ps|
  {
    if |ps| > 1 {
      var rest := JoinOn(ps[1..], sep);
      SeparatorIndex(ps[0], rest, sep);
      var s := ps[0] + [sep] + rest;
      assert s[..|ps[0]|] == ps[0];
      assert s[|ps[0]| + 1..] == rest;
      SplitJoinOn(ps[1..], sep);
      assert ps == [ps[0]] + ps[1..];
    } else {
      assert IndexOfChar(ps[0], sep) == |ps[0]|;
    }
  }

  // ---------------------------------------------------------------- questions

  /** Lines holding any of these are commentary, not questions. */
  const FilterWords: seq<string> := ["\U{601D}\U{8003}", "\U{89E3}\U{7B54}", "---", "===", "\U{8BC4}\U{5206}", "\U{5206}\U{6570}"]

  predicate HasFilterWord(line: string) {
    exists w | w in FilterWords :: Contains(line, w)
  }

  /** Length of the run of ASCII digits starting at `i`. */
  function DigitRunFrom(s: string, i: int): (j: int)
    requires 0 <= i <= |s|
    ensures i <= j <= |s|
    ensures forall k | i <= k < j :: IsDigit(s[k])
    ensures j < |s| ==> !IsDigit(s[j])
    decreases |s| - i
  {
    if i < |s| && IsDigit(s[i]) then DigitRunFrom(s, i + 1) else i
  }

  /**
   * `re.sub(r'^\d+[\.\)]\s*', '', line)`: drop a leading question number such
   * as `3.` or `12)` and the blanks after it; a line without one is unchanged.
   */
  function StripNumbering(line: string): (r: string)
    ensures |r| <= |line|
    ensures r == line[|line| - |r|..]
    ensures (forall k :: !NumberMark(line, k)) ==> r == line
    ensures forall k | NumberMark(line, k) ::
      k < |line| - |r| && AllSpace(line[k + 1..|line| - |r|]) && (|r| > 0 ==> !IsSpace(r[0]))
  {
    var k := DigitRunFrom(line, 0);
    if 0 < k < |line| && (line[k] == '.' || line[k] == ')') then
      assert NumberMark(line, k);
      line[SpacesFrom(line, k + 1)..]
    else line
  }

  /** `line` opens with the question number `line[..k]` followed by `.` or `)`, as `^\d+[\.\)]` requires. */
  predicate NumberMark(line: string, k: int) {
    0 < k < |line| && (forall i | 0 <= i < k :: IsDigit(line[i])) && (line[k] == '.' || line[k] == ')')
  }

  /** A question after its number is removed: kept only above ten characters. */
  function CleanQuestion(piece: string): Option<string> {
    var line := Strip(piece);
    if |line| == 0 || HasFilterWord(line) then None
    else
      var cleaned := StripNumbering(line);
      if |cleaned| > 10 then Some(cleaned) else None
  }

  /** The questions read from the pieces of a reply, in order. */
  function CleanQuestions(pieces: seq<string>): seq<string>
    decreases |pieces|
  {
    if |pieces| == 0 then []
    else
      match CleanQuestion(pieces[0])
      case Some(q) => [q] + CleanQuestions(pieces[1..])
      case None => CleanQuestions(pieces[1..])
  }

  /** `_parse_questions`: one candidate per line of the reply. */
  function ParseQuestions(text: string): seq<string> {
    CleanQuestions(SplitOn(text, '\n'))
  }

  /** A question read from a reply: longer than ten characters and free of filter words. */
  predicate AcceptableQuestion(q: string) {
    |q| > 10 && !HasFilterWord(q)
  }

  /** A word inside a suffix of a line is inside the line. */
  lemma SuffixKeepsWords(line: string, q: string)
    requires |q| <= |line| && q == line[|line| - |q|..]
    ensures HasFilterWord(q) ==> HasFilterWord(line)
  {
    if HasFilterWord(q) {
      var w :| w in FilterWords && Contains(q, w);
      assert line[|line| - |q|..|line|] == q;
      ContainsSlice(line, |line| - |q|, |line|, w);
    }
  }

  /** Every question the reader keeps is acceptable. */
  lemma CleanQuestionAcceptable(piece: string)
    ensures CleanQuestion(piece).Some? ==> AcceptableQuestion(CleanQuestion(piece).value)
  {
    var line := Strip(piece);
    if |line| > 0 && !HasFilterWord(line) {
      SuffixKeepsWords(line, StripNumbering(line));
    }
  }

  /** Every parsed question is longer than ten characters and contains no filter word. */
  lemma {:induction false} CleanQuestionsAcceptable(pieces: seq<string>)
    ensures forall i | 0 <= i < |CleanQuestions(pieces)| :: AcceptableQuestion(CleanQuestions(pieces)[i])
    decreases |pieces|
  {
    if |pieces| > 0 {
      CleanQuestionAcceptable(pieces[0]);
      CleanQuestionsAcceptable(pieces[1..]);
    }
  }

  /** A question the reader passes through untouched. */
  predicate PlainQuestion(q: string) {
    AcceptableQuestion(q) && '\n' !in q && !IsSpace(q[0]) && !IsSpace(q[|q| - 1]) && !IsDigit(q[0])
  }

  lemma CleanPlain(q: string)
    requires PlainQuestion(q)
    ensures CleanQuestion(q) == Some(q)
  {
    StripStripped(q);
  }

  /** One step of `CleanQuestions` over a line that is kept as it is. */
  lemma CleanQuestionsKeep(qs: seq<string>)
    requires |qs| > 0 && CleanQuestion(qs[0]) == Some(qs[0])
    ensures CleanQuestions(qs) == [qs[0]] + CleanQuestions(qs[1..])
  {
  }

  lemma {:induction false} CleanPlains(qs: seq<string>)
    requires forall i | 0 <= i < |qs| :: PlainQuestion(qs[i])
    ensures CleanQuestions(qs) == qs
    decreases |qs|
  {
    if |qs| > 0 {
      var rest := qs[1..];
      assert forall i | 0 <= i < |rest| :: PlainQuestion(rest[i]) by {
        forall i | 0 <= i < |rest|
          ensures PlainQuestion(rest[i])
        {
          assert rest[i] == qs[i + 1];
        }
      }
      CleanPlain(qs[0]);
      CleanQuestionsKeep(qs);
      CleanPlains(rest);
      assert qs == [qs[0]] + rest;
    }
  }

  /** A reply listing plain questions one per line is read back as exactly those questions. */
  lemma ParseListedQuestions(qs: seq<string>)
    requires |qs| >= 1
    requires forall i | 0 <= i < |qs| :: PlainQuestion(qs[i])
    ensures ParseQuestions(JoinOn(qs, '\n')) == qs
  {
    SplitJoinOn(qs, '\n');
    CleanPlains(qs);
  }

  /** A prefix of digits, dots and blanks cannot start or hold a filter word. */
  lemma NumberingHidesNoWord(x: string, q: string)
    requires forall k | 0 <= k < |x| :: IsDigit(x[k]) || x[k] == '.' || x[k] == ' '
    requires !HasFilterWord(q)
    ensures !HasFilterWord(x + q)
  {
    forall w, i | w in FilterWords && 0 <= i <= |x + q|
      ensures !OccursAt(x + q, w, i)
    {
      if i < |x| {
        assert (x + q)[i] == x[i];
        NotOccursAt(x + q, w, i);
      } else {
        OccursInSuffix(x, q, w, i);
        assert !Contains(q, w);
      }
    }
  }

  /** A numbered question loses exactly its number and the blanks after it. */
  lemma ParseNumbered(n: string, q: string)
    requires |n| > 0 && AllDigits(n) && PlainQuestion(q)
    ensures CleanQuestion(n + ". " + q) == Some(q)
  {
    var x := n + ". ";
    var line := x + q;
    assert line[0] == n[0] && line[|line| - 1] == q[|q| - 1];
    StripStripped(line);
    NumberingHidesNoWord(x, q);
    assert DigitRunFrom(line, 0) == |n| by {
      assert forall k | 0 <= k < |n| :: line[k] == n[k];
      assert line[|n|] == '.';
    }
    assert SpacesFrom(line, |n| + 1) == |n| + 2 by {
      assert line[|n| + 1] == ' ' && line[|n| + 2] == q[0];
    }
    assert line[|n| + 2..] == q;
  }

  // ------------------------------------------------------ choosing questions

  /** `picks` is a draw of `count` distinct positions of a bank of `size` questions. */
  predicate IsSample(picks: seq<nat>, size: nat, count: nat) {
    |picks| == count
    && (forall i | 0 <= i < |picks| :: picks[i] < size)
    && forall i, j | 0 <= i < j < |picks| :: picks[i] != picks[j]
  }

  /**
   * `_get_default_questions`: the whole bank when it has at most `count`
   * questions, otherwise `random.sample(bank, count)`, whose draw is `picks`.
   */
  function DefaultQuestions(bank: seq<string>, count: nat, picks: seq<nat>): (r: seq<string>)
    requires |bank| > count ==> IsSample(picks, |bank|, count)
    ensures |bank| <= count ==> r == bank
    ensures |bank| > count ==> |r| == count && forall i | 0 <= i < count :: r[i] == bank[picks[i]]
    ensures forall i | 0 <= i < |r| :: r[i] in bank
  {
    if |bank| <= count then bank[..|bank|]
    else seq(count, i requires 0 <= i < count => bank[picks[i]])
  }

  /** A sample of a bank without repeated questions repeats no question. */
  lemma SampleDistinct(bank: seq<string>, count: nat, picks: seq<nat>)
    requires |bank| > count && IsSample(picks, |bank|, count)
    requires forall i, j | 0 <= i < j < |bank| :: bank[i] != bank[j]
    ensures var r := DefaultQuestions(bank, count, picks);
      forall i, j | 0 <= i < j < |r| :: r[i] != r[j]
  {
    var r := DefaultQuestions(bank, count, picks);
    forall i, j | 0 <= i < j < |r|
      ensures r[i] != r[j]
    {
      assert r[i] == bank[picks[i]] && r[j] == bank[picks[j]];
      if picks[i] < picks[j] {
        assert bank[picks[i]] != bank[picks[j]];
      } else {
        assert bank[picks[j]] != bank[picks[i]];
      }
    }
  }

  /**
   * `_fetch_questions_from_ai`: up to three attempts; an attempt is `None` when
   * the request failed and otherwise the reply text. The first reply that yields
   * at least `count` questions wins.
   */
  function FetchFromAi(replies: seq<Option<string>>, count: nat): (r: Option<seq<string>>)
    ensures r.Some? ==> |r.value| >= count
    ensures r.Some? ==> exists a | 0 <= a < 3 && a < |replies| :: replies[a].Some? && r.value == ParseQuestions(replies[a].value)
    ensures r.None? ==> forall a | 0 <= a < 3 && a < |replies| :: replies[a].None? || |ParseQuestions(replies[a].value)| < count
    ensures forall a | 0 <= a < 3 && Usable(replies, count, a) && (forall b | 0 <= b < a :: !Usable(replies, count, b)) ::
      r == Some(ParseQuestions(replies[a].value))
  {
    FetchAttempt(replies, count, 0)
  }

  /** Attempt `a` was made, got a reply, and the reply yields at least `count` questions. */
  predicate Usable(replies: seq<Option<string>>, count: nat, a: nat) {
    a < |replies| && replies[a].Some? && |ParseQuestions(replies[a].value)| >= count
  }

  function FetchAttempt(replies: seq<Option<string>>, count: nat, a: nat): (r: Option<seq<string>>)
    ensures r.Some? ==> |r.value| >= count
    ensures r.Some? ==> exists b | a <= b < 3 && Usable(replies, count, b) :: r.value == ParseQuestions(replies[b].value)
    ensures r.None? ==> forall b | a <= b < 3 :: !Usable(replies, count, b)
    ensures forall b | a <= b < 3 && Usable(replies, count, b) && (forall c | a <= c < b :: !Usable(replies, count, c)) ::
      r == Some(ParseQuestions(replies[b].value))
    decreases 3 - a
  {
    if a >= 3 || a >= |replies| then None
    else if Usable(replies, count, a) then Some(ParseQuestions(replies[a].value))
    else
      var r := FetchAttempt(replies, count, a + 1);
      assert forall b | a <= b < 3 && Usable(replies, count, b) :: a + 1 <= b;
      r
  }

  /**
   * `_fetch_questions`: the first `count` generated questions when generation is
   * on and succeeds with a non-empty list, otherwise the default choice.
   */
  function FetchQuestions(useAi: bool, replies: seq<Option<string>>, bank: seq<string>, count: nat, picks: seq<nat>): (r: seq<string>)
    requires |bank| > count ==> IsSample(picks, |bank|, count)
    ensures |r| <= count
    ensures |r| == 0 ==> count == 0 || |bank| == 0
    ensures useAi && FetchFromAi(replies, count).Some? && |FetchFromAi(replies, count).value| > 0 ==>
      r == FetchFromAi(replies, count).value[..count]
    ensures !useAi ==> r == DefaultQuestions(bank, count, picks)
    ensures useAi && (FetchFromAi(replies, count).None? || |FetchFromAi(replies, count).value| == 0) ==>
      r == DefaultQuestions(bank, count, picks)
  {
    var ai := if useAi then FetchFromAi(replies, count) else None;
    if ai.Some? && |ai.value| > 0 && |ai.value| >= count then ai.value[..count]
    else DefaultQuestions(bank, count, picks)
  }

  /** Every generated question that is handed out passed the reader's filter. */
  lemma FetchedAcceptable(useAi: bool, replies: seq<Option<string>>, bank: seq<string>, count: nat, picks: seq<nat>)
    requires |bank| > count ==> IsSample(picks, |bank|, count)
    requires useAi && FetchFromAi(replies, count).Some? && |FetchFromAi(replies, count).value| > 0
    ensures forall i | 0 <= i < |FetchQuestions(useAi, replies, bank, count, picks)| ::
      AcceptableQuestion(FetchQuestions(useAi, replies, bank, count, picks)[i])
  {
    var qs := FetchFromAi(replies, count).value;
    var a :| 0 <= a < 3 && a < |replies| && replies[a].Some? && qs == ParseQuestions(replies[a].value);
    CleanQuestionsAcceptable(SplitOn(replies[a].value, '\n'));
  }

  // -------------------------------------------------------------------- score

  /** Position of the first ASCII digit at or after `i`, or `|s|`. */
  function FirstDigitFrom(s: string, i: int): (j: int)
    requires 0 <= i <= |s|
    ensures i <= j <= |s|
    ensures forall k | i <= k < j :: !IsDigit(s[k])
    ensures j < |s| ==> IsDigit(s[j])
    decreases |s| - i
  {
    if i < |s| && !IsDigit(s[i]) then FirstDigitFrom(s, i + 1) else i
  }

  /** `re.search(r'(\d+)', s).group(1)`: the first maximal run of digits, if any. */
  function FirstNumber(s: string): (r: Option<string>)
    ensures r.Some? ==> |r.value| > 0 && AllDigits(r.value)
  {
    var i := FirstDigitFrom(s, 0);
    if i == |s| then None else Some(s[i..DigitRunFrom(s, i)])
  }

  /** The run `FirstNumber` finds is the leftmost maximal one, and there is one exactly when `s` has a digit. */
  lemma FirstNumberSpec(s: string)
    ensures FirstNumber(s).None? <==> forall k | 0 <= k < |s| :: !IsDigit(s[k])
    ensures FirstNumber(s).Some? ==> exists i, j | 0 <= i < j <= |s| ::
      FirstNumber(s).value == s[i..j]
      && (forall k | 0 <= k < i :: !IsDigit(s[k]))
      && (j == |s| || !IsDigit(s[j]))
  {
    var i := FirstDigitFrom(s, 0);
    if i < |s| {
      var j := DigitRunFrom(s, i);
      assert FirstNumber(s).value == s[i..j];
    }
  }

  /** One grading reply: the first number, accepted only within `[0, total]`. */
  function ExtractScore(reply: string, total: int): (r: Option<int>)
    ensures r.Some? ==> 0 <= r.value <= total
    ensures r.Some? ==> FirstNumber(reply).Some? && r.value == DigitsValue(FirstNumber(reply).value)
    ensures FirstNumber(reply).Some? && DigitsValue(FirstNumber(reply).value) <= total ==> r.Some?
  {
    match FirstNumber(reply)
    case None => None
    case Some(d) =>
      var v: int := DigitsValue(d);
      if 0 <= v <= total then Some(v) else None
  }

  /**
   * The score of `_evaluate_answers`: two grading attempts, each `None` when the
   * request failed; the first usable score wins and 0 is the fallback.
   */
  function EvaluateAnswers(replies: seq<Option<string>>, questionCount: nat): (r: int)
    ensures 0 <= r <= 10 * questionCount
    ensures |replies| > 0 && replies[0].Some? && ExtractScore(replies[0].value, 10 * questionCount).Some? ==>
      r == ExtractScore(replies[0].value, 10 * questionCount).value
    ensures r > 0 ==> exists a | 0 <= a < 2 && a < |replies| ::
      replies[a].Some? && ExtractScore(replies[a].value, 10 * questionCount) == Some(r)
    ensures !Graded(replies, 10 * questionCount, 0) && Graded(replies, 10 * questionCount, 1) ==>
      r == ExtractScore(replies[1].value, 10 * questionCount).value
    ensures !Graded(replies, 10 * questionCount, 0) && !Graded(replies, 10 * questionCount, 1) ==> r == 0
  {
    GradeAttempt(replies, 10 * questionCount, 0)
  }

  /** Attempt `a` was made, got a reply, and the reply holds a score in range. */
  predicate Graded(replies: seq<Option<string>>, total: nat, a: nat) {
    a < |replies| && replies[a].Some? && ExtractScore(replies[a].value, total).Some?
  }

  function GradeAttempt(replies: seq<Option<string>>, total: nat, a: nat): (r: int)
    ensures 0 <= r <= total
    ensures r > 0 ==> exists b | a <= b < 2 && b < |replies| ::
      replies[b].Some? && ExtractScore(replies[b].value, total) == Some(r)
    ensures forall b | a <= b < 2 && Graded(replies, total, b) && (forall c | a <= c < b :: !Graded(replies, total, c)) ::
      r == ExtractScore(replies[b].value, total).value
    ensures (forall b | a <= b < 2 :: !Graded(replies, total, b)) ==> r == 0
    decreases 2 - a
  {
    if a >= 2 || a >= |replies| then 0
    else if Graded(replies, total, a) then ExtractScore(replies[a].value, total).value
    else GradeAttempt(replies, total, a + 1)
  }

  /** A scorer answering with a bare in-range number gets exactly that score. */
  lemma GradeReadsNumber(n: nat, questionCount: nat)
    requires n <= 10 * questionCount
    ensures EvaluateAnswers([Some(NatToString(n))], questionCount) == n
  {
    var s := NatToString(n);
    assert FirstDigitFrom(s, 0) == 0;
    assert DigitRunFrom(s, 0) == |s| by {
      DigitRunAll(s, 0);
    }
    assert s[0..|s|] == s;
  }

  /** Over an all-digit string the run from any point reaches the end. */
  lemma {:induction false} DigitRunAll(s: string, i: int)
    requires 0 <= i <= |s| && AllDigits(s)
    ensures DigitRunFrom(s, i) == |s|
    decreases |s| - i
  {
    if i < |s| {
      DigitRunAll(s, i + 1);
    }
  }
}

=== FILE: audit_rcon.dfy ===
/**
 * How the whitelist audit decides whether a server-side whitelist command took
 * effect. The console (RCON) connection and its replies are inputs: a reply is
 * a string, Python's `None`, or an exception.
 */
module AuditRcon {
  import opened Text

  /** What `execute_command` gave back. */
  datatype Reply = Raised | NoneReply | Returned(text: string)

  /** The console client handed to the handler: absent, present but closed, or connected. */
  datatype Link = NoClient | Disconnected | Connected

  /** The replies of one exchange: the add or remove command, then the listing used to double-check. */
  datatype Exchange = Exchange(link: Link, command: Reply, listing: Reply)

  /** A non-empty listing (Python truthiness) that names the player. */
  predicate Listed(game: string, listing: Reply) {
    listing.Returned? && |listing.text| > 0 && Contains(listing.text, game)
  }

  /** A non-empty listing that does not name the player. */
  predicate Unlisted(game: string, listing: Reply) {
    listing.Returned? && |listing.text| > 0 && !Contains(listing.text, game)
  }

  /**
   * `_add_to_server_whitelist`: any non-`None` reply is success; a `None` reply
   * falls back to the listing, which must name the player.
   */
  function AddToServer(ex: Exchange, game: string): (ok: bool)
    ensures ok ==> ex.link == Connected
    ensures ok <==> ex.link == Connected && (ex.command.Returned? || (ex.command == NoneReply && Listed(game, ex.listing)))
  {
    if ex.link != Connected then false
    else match ex.command
      case Raised => false
      case Returned(_) => true
      case NoneReply => Listed(game, ex.listing)
  }

  /**
   * `_remove_from_server_whitelist`: the same rule with the listing check
   * reversed, the listing must be non-empty and not name the player.
   */
  function RemoveFromServer(ex: Exchange, game: string): (ok: bool)
    ensures ok ==> ex.link == Connected
    ensures ok <==> ex.link == Connected && (ex.command.Returned? || (ex.command == NoneReply && Unlisted(game, ex.listing)))
  {
    if ex.link != Connected then false
    else match ex.command
      case Raised => false
      case Returned(_) => true
      case NoneReply => Unlisted(game, ex.listing)
  }

  /**
   * The two double-checks never both succeed on the same listing, and on a
   * non-empty listing exactly one does: a `None` reply is judged consistently.
   */
  lemma ListingChecksExclusive(game: string, listing: Reply)
    ensures !(Listed(game, listing) && Unlisted(game, listing))
    ensures listing.Returned? && |listing.text| > 0 ==> Listed(game, listing) != Unlisted(game, listing)
  {
  }

  /** When the command itself replies with a string, both operations count as done, whatever the listing says. */
  lemma ReplyDecides(ex: Exchange, game: string)
    requires ex.link == Connected && ex.command.Returned?
    ensures AddToServer(ex, game) && RemoveFromServer(ex, game)
  {
  }

  /** Without a connected client nothing is ever reported as done on the server. */
  lemma NoLinkNoEffect(ex: Exchange, game: string)
    requires ex.link != Connected
    ensures !AddToServer(ex, game) && !RemoveFromServer(ex, game)
  {
  }
}

=== FILE: binding.dfy ===
/**
 * The QQ–Minecraft account binding plugin: a QQ user asks for a one-time code,
 * types it in the game's chat, and the log poll that sees the chat line binds
 * the player's name to the QQ id that asked.
 *
 * State is the pending-code map, the binding map (with its key order, which is
 * Python's dict insertion order) and the waiting-player map. Time is `now`, in
 * seconds; the random digits of a code are the draws handed in; the binding
 * time stamp, persistence and all messages are left out.
 */
module Binding {
  import opened Wrappers
  import opened Text
  import opened Chat
  import opened LogCache

  /** `max_bindings_per_qq`, `verify_timeout` and `verify_code_length`. */
  datatype Config = Config(maxPerQq: int, verifyTimeout: int, codeLength: nat)

  /** The configuration the plugin writes when it finds none. */
  const Defaults := Config(1, 300, 6)

  /** A pending code: the QQ id it was issued to, the time after which it is void, whether it was used. */
  datatype Code = Code(qq: string, expire: int, used: bool)

  /** One binding of a player name to a QQ id (its time stamp is not modelled). */
  datatype Bound = Bound(game: string, qq: string)

  /**
   * `keys` is the order of the QQ ids in the binding map; `waiting` maps player
   * names to codes, and is only ever cleared.
   */
  datatype State = State(
    config: Config,
    keys: seq<string>,
    bindings: map<string, seq<Bound>>,
    pending: map<string, Code>,
    waiting: map<string, string>)

  /** The bindings of one QQ id, `[]` when it has none. */
  function BindingsOf(bindings: map<string, seq<Bound>>, qq: string): seq<Bound> {
    if qq in bindings then bindings[qq] else []
  }

  /** A code is void once `now` is past its expiry time. */
  predicate Void(c: Code, now: int) {
    now > c.expire
  }

  // ------------------------------------------------------------ issuing codes

  /**
   * Every number drawn is a `randint(0, 9)`; one draw of `_generate_verify_code`
   * has one such number for each of the code's places.
   */
  predicate Digits(d: seq<nat>) {
    forall i | 0 <= i < |d| :: d[i] < 10
  }

  /** `_generate_verify_code` on the digits drawn: each digit written out, in order. */
  function GenerateCode(d: seq<nat>): (code: string)
    requires Digits(d)
    ensures |code| == |d| && AllDigits(code)
    ensures forall i | 0 <= i < |d| :: code[i] as int - '0' as int == d[i]
  {
    seq(|d|, i requires 0 <= i < |d| => DigitChar(d[i]))
  }

  /** `_get_unique_verify_code` accepts a drawn code that is not pending or whose pending entry is void. */
  predicate Free(pending: map<string, Code>, code: string, now: int) {
    code !in pending || Void(pending[code], now)
  }

  /** The first draw at or after `i` whose code is free, or `|draws|` when none is. */
  function FirstFree(pending: map<string, Code>, draws: seq<seq<nat>>, n: nat, now: int, i: nat): (k: nat)
    requires i <= |draws|
    requires forall j | 0 <= j < |draws| :: |draws[j]| == n && Digits(draws[j])
    ensures i <= k <= |draws|
    ensures forall j | i <= j < k :: !Free(pending, GenerateCode(draws[j]), now)
    ensures k < |draws| ==> Free(pending, GenerateCode(draws[k]), now)
    decreases |draws| - i
  {
    if i == |draws| then i
    else if Free(pending, GenerateCode(draws[i]), now) then i
    else FirstFree(pending, draws, n, now, i + 1)
  }

  /**
   * `_get_unique_verify_code` over a finite run of draws: the first free code,
   * with its void entry deleted when there was one; `None` when every draw
   * so far hit a live code (the source keeps drawing).
   */
  function UniqueCode(pending: map<string, Code>, draws: seq<seq<nat>>, n: nat, now: int): (r: (map<string, Code>, Option<string>))
    requires forall j | 0 <= j < |draws| :: |draws[j]| == n && Digits(draws[j])
    ensures r.1.None? ==> r.0 == pending
    ensures r.1.None? ==> forall j | 0 <= j < |draws| :: !Free(pending, GenerateCode(draws[j]), now)
    ensures r.1.Some? ==> Free(pending, r.1.value, now) && r.1.value !in r.0 && r.0 == pending - {r.1.value}
    ensures r.1.Some? ==> |r.1.value| == n && AllDigits(r.1.value)
    ensures r.1.Some? ==> exists j | 0 <= j < |draws| :: r.1.value == GenerateCode(draws[j])
    ensures r.1.Some? ==> exists j | 0 <= j < |draws| ::
      r.1.value == GenerateCode(draws[j]) && forall i | 0 <= i < j :: !Free(pending, GenerateCode(draws[i]), now)
  {
    var k := FirstFree(pending, draws, n, now, 0);
    if k == |draws| then (pending, None)
    else
      var code := GenerateCode(draws[k]);
      (pending - {code}, Some(code))
  }

  /** `_cleanup_previous_verify_codes`: drop the unused codes of `qq`, keep every other entry. */
  function DropUnused(pending: map<string, Code>, qq: string): (r: map<string, Code>)
    ensures forall c | c in r :: c in pending && r[c] == pending[c] && (pending[c].qq != qq || pending[c].used)
    ensures forall c | c in pending && (pending[c].qq != qq || pending[c].used) :: c in r
  {
    map c | c in pending && (pending[c].qq != qq || pending[c].used) :: pending[c]
  }

  datatype BindOutcome =
    | QuotaFull(count: nat, max: int)
    | Issued(code: string)
    | Drawing

  /**
   * `handle_bind_command` for QQ user `user` at `now`: refused once the user has
   * as many bindings as allowed; otherwise the user's unused codes are dropped
   * and one fresh code valid until `now + verify_timeout` is issued. `Drawing`
   * stands for the source still looping after the draws given.
   */
  function Bind(st: State, user: int, draws: seq<seq<nat>>, now: int): (r: (State, BindOutcome))
    requires forall j | 0 <= j < |draws| :: |draws[j]| == st.config.codeLength && Digits(draws[j])
  {
    var qq := IntToString(user);
    var count := |BindingsOf(st.bindings, qq)|;
    if count >= st.config.maxPerQq then (st, QuotaFull(count, st.config.maxPerQq))
    else
      var p1 := DropUnused(st.pending, qq);
      var (p2, code) := UniqueCode(p1, draws, st.config.codeLength, now);
      match code
      case None => (st.(pending := p2), Drawing)
      case Some(c) => (st.(pending := p2[c := Code(qq, now + st.config.verifyTimeout, false)]), Issued(c))
  }

  // ----------------------------------------------------------- expiry sweep

  /**
   * `_cleanup_expired_verify_codes`: void codes go, and so do the waiting
   * players whose code was one of them.
   */
  function Sweep(st: State, now: int): (out: State)
    ensures forall c :: c in out.pending <==> c in st.pending && !Void(st.pending[c], now)
    ensures forall c | c in out.pending :: out.pending[c] == st.pending[c]
    ensures forall p :: p in out.waiting <==>
      p in st.waiting && !(st.waiting[p] in st.pending && Void(st.pending[st.waiting[p]], now))
    ensures out == st.(pending := out.pending, waiting := out.waiting)
  {
    st.(pending := map c | c in st.pending && !Void(st.pending[c], now) :: st.pending[c],
        waiting := map p | p in st.waiting && !(st.waiting[p] in st.pending && Void(st.pending[st.waiting[p]], now)) :: st.waiting[p])
  }

  // ------------------------------------------------------ reading chat lines

  /**
   * `_process_log_line` up to the code: the line must carry the marker, a `<`
   * and a `>`, match the chat pattern, and its message must be a non-empty run
   * of digits of exactly the configured length. Returns the player and the code.
   */
  function CodeInLine(cfg: Config, line: string): (r: Option<ChatLine>)
    ensures r.Some? ==> |r.value.message| == cfg.codeLength > 0 && AllDigits(r.value.message)
  {
    if !Contains(line, Marker) then None
    else if '<' !in line || '>' !in line then None
    else match ChatMatch(line)
      case None => None
      case Some(m) =>
        var code := Strip(m.message);
        if |code| == 0 || !AllDigits(code) then None
        else if |code| != cfg.codeLength then None
        else Some(ChatLine(m.player, code))
  }

  // ---------------------------------------------------------- using a code

  /** The first binding of `game` found walking the QQ ids in `keys` order. */
  function FindBinding(keys: seq<string>, bindings: map<string, seq<Bound>>, game: string): (r: Option<Bound>)
    ensures r.Some? ==> r.value.game == game
    ensures r.Some? ==> exists q, i | q in bindings && 0 <= i < |bindings[q]| :: bindings[q][i] == r.value
    ensures r.None? ==> forall k, i | 0 <= k < |keys| && keys[k] in bindings && 0 <= i < |bindings[keys[k]]| ::
      bindings[keys[k]][i].game != game
    ensures forall k | 0 <= k < |keys| && Holds(bindings, keys[k], game) && (forall j | 0 <= j < k :: !Holds(bindings, keys[j], game)) ::
      r == Some(bindings[keys[k]][IndexOfGame(bindings[keys[k]], game)])
    decreases |keys|
  {
    if |keys| == 0 then None
    else
      var q := keys[0];
      var i := if q in bindings then IndexOfGame(bindings[q], game) else 0;
      if q in bindings && i < |bindings[q]| then Some(bindings[q][i])
      else
        var r := FindBinding(keys[1..], bindings, game);
        assert forall k | 0 < k < |keys| :: keys[k] == keys[1..][k - 1];
        r
  }

  /** QQ id `q` has a binding of `game`. */
  predicate Holds(bindings: map<string, seq<Bound>>, q: string, game: string) {
    q in bindings && IndexOfGame(bindings[q], game) < |bindings[q]|
  }

  /** The position of the first binding of `game` in `bs`, or `|bs|`. */
  function IndexOfGame(bs: seq<Bound>, game: string): (i: nat)
    ensures i <= |bs|
    ensures forall j | 0 <= j < i :: bs[j].game != game
    ensures i < |bs| ==> bs[i].game == game
    decreases |bs|
  {
    if |bs| == 0 then 0
    else if bs[0].game == game then 0
    else 1 + IndexOfGame(bs[1..], game)
  }

  datatype Verdict =
    | UnknownCode
    | VoidCode
    | UsedCode
    | TakenByOther(owner: string)
    | AlreadyBound
    | BoundNow(qq: string)

  /**
   * `_process_verify_code`: an unknown code and a used one change nothing; a
   * void one is deleted; a player already bound (to anyone) only consumes the
   * code; otherwise the player is bound to the code's QQ id, the code is
   * consumed and the player stops waiting.
   */
  function ProcessCode(st: State, code: string, player: string, now: int): (r: (State, Verdict))
    ensures r.0.config == st.config
  {
    if code !in st.pending then (st, UnknownCode)
    else
      var info := st.pending[code];
      if Void(info, now) then (st.(pending := st.pending - {code}), VoidCode)
      else if info.used then (st, UsedCode)
      else
        var qq := info.qq;
        var rest := st.pending - {code};
        match FindBinding(st.keys, st.bindings, player)
        case Some(b) => (st.(pending := rest), if b.qq != qq then TakenByOther(b.qq) else AlreadyBound)
        case None =>
          var keys := if qq in st.bindings then st.keys else st.keys + [qq];
          var bs := BindingsOf(st.bindings, qq) + [Bound(player, qq)];
          (st.(keys := keys, bindings := st.bindings[qq := bs], pending := rest, waiting := st.waiting - {player}), BoundNow(qq))
  }

  /** `_process_log_line`: a code line is handed on and counts as handled, whatever became of the code. */
  function ProcessLine(st: State, line: string, now: int): (r: (State, bool))
    ensures r.1 <==> CodeInLine(st.config, line).Some?
    ensures !r.1 ==> r.0 == st
    ensures r.0.config == st.config
  {
    match CodeInLine(st.config, line)
    case None => (st, false)
    case Some(m) => (ProcessCode(st, m.message, m.player, now).0, true)
  }

  /**
   * `_check_server_logs`: the expiry sweep, then (for a non-empty log) the
   * newest-first poll with this plugin's line handler and the cache trim.
   */
  method CheckLogs(st: State, seen: set<string>, logs: seq<string>, now: int, order: seq<string>)
    returns (out: State, processed: set<string>, handled: seq<string>)
    requires |logs| > 0 ==>
      Enumerates(order, Scan(logs, Scanned(Sweep(st, now), seen, []), (s: State, l: string) => ProcessLine(s, l, now)).processed)
    ensures |logs| == 0 ==> out == Sweep(st, now) && processed == seen && handled == []
    ensures forall k | 0 <= k < |handled| :: handled[k] in logs && handled[k] !in seen
    ensures forall k | 0 <= k < |handled| :: CodeInLine(st.config, handled[k]).Some?
    ensures out.config == st.config
    ensures Distinct(handled)
    ensures |logs| > 0 ==> var all := seen + Elems(handled);
      processed <= all && (|all| <= Limit ==> processed == all) &&
      (|all| > Limit ==> |processed| == |all| - |all| / 2)
    ensures |logs| > 0 ==> Enumerates(order, seen + Elems(handled)) && processed == Trim(seen + Elems(handled), order)
    ensures |logs| > 0 ==> out == Scan(logs, Scanned(Sweep(st, now), seen, []), (s: State, l: string) => ProcessLine(s, l, now)).state
  {
    var st1 := Sweep(st, now);
    if |logs| == 0 {
      return st1, seen, [];
    }
    var step := (s: State, l: string) => ProcessLine(s, l, now);
    ScanHandlesCodes(logs, Scanned(st1, seen, []), now, st.config);
    processed, out, handled := Poll(logs, seen, st1, step, order);
  }

  /** Every line the poll handled is a code line, and the configuration never changes. */
  lemma {:induction false} ScanHandlesCodes(logs: seq<string>, acc: Scanned<State>, now: int, cfg: Config)
    requires acc.state.config == cfg
    requires forall k | 0 <= k < |acc.handled| :: CodeInLine(cfg, acc.handled[k]).Some?
    ensures var r := Scan(logs, acc, (s: State, l: string) => ProcessLine(s, l, now));
      r.state.config == cfg && forall k | 0 <= k < |r.handled| :: CodeInLine(cfg, r.handled[k]).Some?
    decreases |logs|
  {
    if |logs| > 0 {
      var step := (s: State, l: string) => ProcessLine(s, l, now);
      var line := logs[|logs| - 1];
      var next := Visit(acc, line, step);
      if line !in acc.processed {
        var (s2, ok) := ProcessLine(acc.state, line, now);
        assert step(acc.state, line) == (s2, ok);
        assert next.handled == if ok then acc.handled + [line] else acc.handled;
      }
      assert next.state.config == cfg;
      assert forall k | 0 <= k < |next.handled| :: CodeInLine(cfg, next.handled[k]).Some?;
      ScanHandlesCodes(logs[..|logs| - 1], next, now, cfg);
    }
  }

  // -------------------------------------------------------- removing bindings

  /** `keys` without `q`. */
  function Without(keys: seq<string>, q: string): (r: seq<string>)
    ensures Elems(r) == Elems(keys) - {q}
    ensures Distinct(keys) ==> Distinct(r)
    decreases |keys|
  {
    if |keys| == 0 then []
    else
      var r := Without(keys[1..], q);
      assert Elems(keys) == {keys[0]} + Elems(keys[1..]) by {
        assert keys == [keys[0]] + keys[1..];
      }
      assert Distinct(keys) ==> Distinct(keys[1..]) && keys[0] !in Elems(keys[1..]) by {
        if Distinct(keys) {
          forall i, j | 0 <= i < j < |keys[1..]|
            ensures keys[1..][i] != keys[1..][j]
          {
            assert keys[1..][i] == keys[i + 1] && keys[1..][j] == keys[j + 1];
          }
          forall i | 0 <= i < |keys[1..]|
            ensures keys[1..][i] != keys[0]
          {
            assert keys[1..][i] == keys[i + 1];
          }
        }
      }
      if keys[0] == q then r
      else
        assert Elems([keys[0]] + r) == {keys[0]} + Elems(r);
        assert Distinct(keys) ==> Distinct([keys[0]] + r) by {
          if Distinct(keys) {
            var t := [keys[0]] + r;
            forall i, j | 0 <= i < j < |t|
              ensures t[i] != t[j]
            {
              assert t[j] == r[j - 1] && r[j - 1] in Elems(r);
              if i > 0 {
                assert t[i] == r[i - 1];
              }
            }
          }
        }
        [keys[0]] + r
  }

  /**
   * The removal shared by `handle_unbind_command` and the admin `delete`: pop
   * the first binding of `game` from the list of `qq`, and drop `qq` when its
   * list runs empty. Reports whether anything was removed.
   */
  function RemoveBinding(st: State, qq: string, game: string): (r: (State, bool))
    requires qq in st.bindings
  {
    var bs := st.bindings[qq];
    var i := IndexOfGame(bs, game);
    if i == |bs| then (st, false)
    else
      var rest := bs[..i] + bs[i + 1..];
      if |rest| == 0 then (st.(keys := Without(st.keys, qq), bindings := st.bindings - {qq}), true)
      else (st.(bindings := st.bindings[qq := rest]), true)
  }

  datatype UnbindOutcome =
    | UnbindUsage
    | NoBindings
    | Unbound(game: string)
    | NotBound(game: string)

  /** `handle_unbind_command`: the stripped text names the player to unbind from the caller's QQ id. */
  function Unbind(st: State, user: int, text: string): (r: (State, UnbindOutcome))
  {
    var game := Strip(text);
    if |game| == 0 then (st, UnbindUsage)
    else
      var qq := IntToString(user);
      if qq !in st.bindings then (st, NoBindings)
      else
        var (out, ok) := RemoveBinding(st, qq, game);
        (out, if ok then Unbound(game) else NotBound(game))
  }

  /** The number of bindings over the QQ ids in `keys`. */
  function TotalBound(keys: seq<string>, bindings: map<string, seq<Bound>>): nat
    decreases |keys|
  {
    if |keys| == 0 then 0 else |BindingsOf(bindings, keys[0])| + TotalBound(keys[1..], bindings)
  }

  datatype AdminOutcome =
    | AdminUsage
    | NothingBound
    | Listing(total: nat, owners: nat)
    | MissingArguments
    | NoSuchQq(qq: string)
    | Deleted(qq: string, game: string)
    | NoSuchBinding(qq: string, game: string)
    | UnknownCommand(command: string)

  /**
   * `handle_admin_command`: `list` reports the number of bindings and of QQ ids;
   * `delete <qq_id> <game_id>` removes that binding. Splitting on blanks makes
   * the leading strip of the source redundant.
   */
  function AdminCommand(st: State, text: string): (r: (State, AdminOutcome))
  {
    var args := Split(text);
    if |args| == 0 then (st, AdminUsage)
    else
      var command := Lower(args[0]);
      if command == "list" then
        (st, if |st.bindings| == 0 then NothingBound else Listing(TotalBound(st.keys, st.bindings), |st.bindings|))
      else if command == "delete" then
        if |args| < 3 then (st, MissingArguments)
        else
          var qq := args[1];
          var game := args[2];
          if qq !in st.bindings then (st, NoSuchQq(qq))
          else
            var (out, ok) := RemoveBinding(st, qq, game);
            (out, if ok then Deleted(qq, game) else NoSuchBinding(qq, game))
      else (st, UnknownCommand(command))
  }
}

=== FILE: binding_props.dfy ===
/**
 * What the binding plugin keeps true: every player name is bound at most once
 * over all QQ ids, a QQ id's bindings plus its live codes never exceed the
 * per-QQ maximum (so the maximum the help text states holds), and no code is
 * ever left marked used. Each step keeps these; the operations' effects are
 * stated alongside.
 */
module BindingProps {
  import opened Wrappers
  import opened Text
  import opened Chat
  import opened LogCache
  import opened Binding

  // --------------------------------------------------------------- invariant

  /** No player name is bound twice, whether to one QQ id or to two. */
  predicate UniqueGames(b: map<string, seq<Bound>>) {
    forall q1, i, q2, j | q1 in b && q2 in b && 0 <= i < |b[q1]| && 0 <= j < |b[q2]| && b[q1][i].game == b[q2][j].game ::
      q1 == q2 && i == j
  }

  /** Every binding sits under its own QQ id, and no QQ id keeps an empty list. */
  predicate Filed(b: map<string, seq<Bound>>) {
    forall q | q in b :: |b[q]| > 0 && forall i | 0 <= i < |b[q]| :: b[q][i].qq == q
  }

  /** The unused pending codes of `qq`. */
  function Unused(pending: map<string, Code>, qq: string): nat {
    |set c | c in pending && pending[c].qq == qq && !pending[c].used|
  }

  /** A QQ id with nothing, or with at most `max` bindings and live codes together. */
  predicate Within(n: int, max: int) {
    n == 0 || n <= max
  }

  /** The bindings and unused codes of every QQ id stay within the per-QQ maximum. */
  ghost predicate Quota(st: State) {
    forall q :: Within(|BindingsOf(st.bindings, q)| + Unused(st.pending, q), st.config.maxPerQq)
  }

  /** The plugin's invariant. */
  ghost predicate Valid(st: State) {
    Enumerates(st.keys, st.bindings.Keys)
    && Filed(st.bindings)
    && UniqueGames(st.bindings)
    && (forall c | c in st.pending :: !st.pending[c].used)
    && Quota(st)
  }

  /** The plugin as it starts without saved data. */
  function Fresh(cfg: Config): State {
    State(cfg, [], map[], map[], map[])
  }

  lemma FreshValid(cfg: Config)
    ensures Valid(Fresh(cfg))
  {
    var none: map<string, Code> := map[];
    forall q
      ensures Unused(none, q) == 0
    {
      assert (set c | c in none && none[c].qq == q && !none[c].used) == {};
    }
  }

  /** The maximum the help text states: no QQ id ever holds more bindings than allowed. */
  lemma ValidBoundsBindings(st: State, q: string)
    requires Valid(st) && q in st.bindings
    ensures |st.bindings[q]| <= st.config.maxPerQq
  {
    assert Within(|BindingsOf(st.bindings, q)| + Unused(st.pending, q), st.config.maxPerQq);
  }

  // ----------------------------------------------------- counting live codes

  lemma SubsetCard<T>(a: set<T>, b: set<T>)
    requires a <= b
    ensures |a| <= |b|
  {
    assert b == a + (b - a);
    assert a * (b - a) == {};
  }

  /** Dropping or keeping entries never adds an unused code. */
  lemma UnusedShrinks(p: map<string, Code>, p2: map<string, Code>, q: string)
    requires forall c | c in p2 :: c in p && p2[c] == p[c]
    ensures Unused(p2, q) <= Unused(p, q)
  {
    SubsetCard(set c | c in p2 && p2[c].qq == q && !p2[c].used, set c | c in p && p[c].qq == q && !p[c].used);
  }

  /** A new entry adds one unused code to its owner, if it is unused. */
  lemma UnusedAdd(p: map<string, Code>, c: string, e: Code, q: string)
    requires c !in p
    ensures Unused(p[c := e], q) == Unused(p, q) + (if e.qq == q && !e.used then 1 else 0)
  {
    var a := set d | d in p && p[d].qq == q && !p[d].used;
    var p2 := p[c := e];
    var b := set d | d in p2 && p2[d].qq == q && !p2[d].used;
    if e.qq == q && !e.used {
      assert b == a + {c};
    } else {
      assert b == a;
    }
  }

  /** Removing an entry takes one unused code from its owner, if it was unused. */
  lemma UnusedRemove(p: map<string, Code>, c: string, q: string)
    requires c in p
    ensures Unused(p - {c}, q) == Unused(p, q) - (if p[c].qq == q && !p[c].used then 1 else 0)
  {
    var a := set d | d in p && p[d].qq == q && !p[d].used;
    var p2 := p - {c};
    var b := set d | d in p2 && p2[d].qq == q && !p2[d].used;
    if p[c].qq == q && !p[c].used {
      assert b == a - {c};
    } else {
      assert b == a;
    }
  }

  /** After `_cleanup_previous_verify_codes` the QQ id has no unused code left. */
  lemma DropUnusedClears(p: map<string, Code>, qq: string)
    ensures Unused(DropUnused(p, qq), qq) == 0
  {
    var r := DropUnused(p, qq);
    assert (set c | c in r && r[c].qq == qq && !r[c].used) == {};
  }

  /** Fewer of both keeps a QQ id within the maximum. */
  lemma WithinShrinks(n: int, m: int, max: int)
    requires 0 <= m <= n && Within(n, max)
    ensures Within(m, max)
  {
  }

  // ------------------------------------------------------- keeping the invariant

  /**
   * A bind request keeps the invariant: the quota check and the cleanup of the
   * QQ id's old codes leave room for the one code issued.
   */
  lemma BindKeeps(st: State, user: int, draws: seq<seq<nat>>, now: int)
    requires forall j | 0 <= j < |draws| :: |draws[j]| == st.config.codeLength && Digits(draws[j])
    requires Valid(st)
    ensures Valid(Bind(st, user, draws, now).0)
  {
    var qq := IntToString(user);
    if |BindingsOf(st.bindings, qq)| < st.config.maxPerQq {
      var out := Bind(st, user, draws, now).0;
      forall q
        ensures Within(|BindingsOf(out.bindings, q)| + Unused(out.pending, q), out.config.maxPerQq)
      {
        BindQuotaAt(st, user, draws, now, q);
      }
    }
  }

  /** After a bind request that passed the quota check, QQ id `q` is still within its quota. */
  lemma BindQuotaAt(st: State, user: int, draws: seq<seq<nat>>, now: int, q: string)
    requires forall j | 0 <= j < |draws| :: |draws[j]| == st.config.codeLength && Digits(draws[j])
    requires Valid(st) && |BindingsOf(st.bindings, IntToString(user))| < st.config.maxPerQq
    ensures var out := Bind(st, user, draws, now).0;
      Within(|BindingsOf(out.bindings, q)| + Unused(out.pending, q), out.config.maxPerQq)
  {
    var qq := IntToString(user);
    var p1 := DropUnused(st.pending, qq);
    var (p2, code) := UniqueCode(p1, draws, st.config.codeLength, now);
    var out := Bind(st, user, draws, now).0;
    DropUnusedClears(st.pending, qq);
    assert Within(|BindingsOf(st.bindings, q)| + Unused(st.pending, q), st.config.maxPerQq);
    UnusedShrinks(st.pending, p1, q);
    UnusedShrinks(p1, p2, q);
    if code.Some? {
      var c := code.value;
      assert out.pending == p2[c := Code(qq, now + st.config.verifyTimeout, false)];
      UnusedAdd(p2, c, Code(qq, now + st.config.verifyTimeout, false), q);
    }
  }

  /** The expiry sweep only drops codes and waiting players, so it keeps the invariant. */
  lemma SweepKeeps(st: State, now: int)
    requires Valid(st)
    ensures Valid(Sweep(st, now))
  {
    var out := Sweep(st, now);
    forall q
      ensures Within(|BindingsOf(out.bindings, q)| + Unused(out.pending, q), out.config.maxPerQq)
    {
      assert Within(|BindingsOf(st.bindings, q)| + Unused(st.pending, q), st.config.maxPerQq);
      UnusedShrinks(st.pending, out.pending, q);
    }
  }

  /** Finding nothing along the key order means the player is bound nowhere. */
  lemma NotFoundAnywhere(keys: seq<string>, b: map<string, seq<Bound>>, game: string)
    requires Elems(keys) == b.Keys
    requires FindBinding(keys, b, game).None?
    ensures forall q, i | q in b && 0 <= i < |b[q]| :: b[q][i].game != game
  {
    forall q, i | q in b && 0 <= i < |b[q]|
      ensures b[q][i].game != game
    {
      assert q in Elems(keys);
      var k :| 0 <= k < |keys| && keys[k] == q;
    }
  }

  /** Appending a binding of a player bound nowhere keeps player names unique. */
  lemma UniqueGamesAppend(b: map<string, seq<Bound>>, qq: string, x: Bound)
    requires UniqueGames(b)
    requires forall q, i | q in b && 0 <= i < |b[q]| :: b[q][i].game != x.game
    ensures UniqueGames(b[qq := BindingsOf(b, qq) + [x]])
  {
    var b2: map<string, seq<Bound>> := b[qq := BindingsOf(b, qq) + [x]];
    forall q1: string, i: int, q2: string, j: int | q1 in b2 && q2 in b2 && 0 <= i < |b2[q1]| && 0 <= j < |b2[q2]| && b2[q1][i].game == b2[q2][j].game
      ensures q1 == q2 && i == j
    {
      var n := |BindingsOf(b, qq)|;
      var new1 := q1 == qq && i == n;
      var new2 := q2 == qq && j == n;
      if !new1 {
        assert b2[q1][i] == b[q1][i];
      }
      if !new2 {
        assert b2[q2][j] == b[q2][j];
      }
    }
  }

  /** Dropping pending codes (and waiting players) keeps the invariant. */
  lemma DropCodesKeeps(st: State, p2: map<string, Code>, w2: map<string, string>)
    requires Valid(st)
    requires forall c | c in p2 :: c in st.pending && p2[c] == st.pending[c]
    ensures Valid(st.(pending := p2, waiting := w2))
  {
    var out := st.(pending := p2, waiting := w2);
    forall q
      ensures Within(|BindingsOf(out.bindings, q)| + Unused(out.pending, q), out.config.maxPerQq)
    {
      assert Within(|BindingsOf(st.bindings, q)| + Unused(st.pending, q), st.config.maxPerQq);
      UnusedShrinks(st.pending, p2, q);
    }
  }

  /** The binding a live code turns into takes the place the code held in its QQ id's quota. */
  lemma RedeemKeeps(st: State, code: string, player: string)
    requires Valid(st) && code in st.pending
    requires FindBinding(st.keys, st.bindings, player).None?
    ensures var qq := st.pending[code].qq;
      var keys := if qq in st.bindings then st.keys else st.keys + [qq];
      Valid(st.(keys := keys, bindings := st.bindings[qq := BindingsOf(st.bindings, qq) + [Bound(player, qq)]],
                pending := st.pending - {code}, waiting := st.waiting - {player}))
  {
    var qq := st.pending[code].qq;
    var keys := if qq in st.bindings then st.keys else st.keys + [qq];
    var out := st.(keys := keys, bindings := st.bindings[qq := BindingsOf(st.bindings, qq) + [Bound(player, qq)]],
                   pending := st.pending - {code}, waiting := st.waiting - {player});
    NotFoundAnywhere(st.keys, st.bindings, player);
    UniqueGamesAppend(st.bindings, qq, Bound(player, qq));
    KeysAppended(st.keys, st.bindings, qq, BindingsOf(st.bindings, qq) + [Bound(player, qq)]);
    forall q
      ensures Within(|BindingsOf(out.bindings, q)| + Unused(out.pending, q), out.config.maxPerQq)
    {
      RedeemQuotaAt(st, code, player, q);
    }
  }

  /** Filing bindings under `qq` keeps the key order an enumeration, with `qq` appended when new. */
  lemma KeysAppended(keys: seq<string>, b: map<string, seq<Bound>>, qq: string, bs: seq<Bound>)
    requires Enumerates(keys, b.Keys)
    ensures Enumerates(if qq in b then keys else keys + [qq], b[qq := bs].Keys)
  {
    if qq !in b {
      assert qq !in Elems(keys);
      assert Elems(keys + [qq]) == Elems(keys) + {qq};
      forall i, j | 0 <= i < j < |keys + [qq]|
        ensures (keys + [qq])[i] != (keys + [qq])[j]
      {
        assert (keys + [qq])[i] == keys[i] && keys[i] in Elems(keys);
      }
    }
  }

  /** The code's place in its QQ id's quota passes to the new binding. */
  lemma RedeemQuotaAt(st: State, code: string, player: string, q: string)
    requires Valid(st) && code in st.pending
    ensures var qq := st.pending[code].qq;
      var b := st.bindings[qq := BindingsOf(st.bindings, qq) + [Bound(player, qq)]];
      Within(|BindingsOf(b, q)| + Unused(st.pending - {code}, q), st.config.maxPerQq)
  {
    assert Within(|BindingsOf(st.bindings, q)| + Unused(st.pending, q), st.config.maxPerQq);
    UnusedRemove(st.pending, code, q);
  }

  /** Using a code keeps the invariant. */
  lemma ProcessKeeps(st: State, code: string, player: string, now: int)
    requires Valid(st)
    ensures Valid(ProcessCode(st, code, player, now).0)
  {
    if code in st.pending && !Void(st.pending[code], now) && !st.pending[code].used
       && FindBinding(st.keys, st.bindings, player).None? {
      RedeemKeeps(st, code, player);
    } else if code in st.pending {
      DropCodesKeeps(st, st.pending - {code}, st.waiting);
    }
  }

  /** Where an entry of a list with position `i` removed came from. */
  function Origin(i: int, k: int): int {
    if k < i then k else k + 1
  }

  /** Taking one binding out of a list keeps player names unique. */
  lemma UniqueGamesRemove(b: map<string, seq<Bound>>, qq: string, i: int)
    requires UniqueGames(b) && qq in b && 0 <= i < |b[qq]|
    ensures UniqueGames(b[qq := b[qq][..i] + b[qq][i + 1..]])
  {
    var bs := b[qq];
    var rest := bs[..i] + bs[i + 1..];
    var b2: map<string, seq<Bound>> := b[qq := rest];
    assert forall k | 0 <= k < |rest| :: rest[k] == bs[Origin(i, k)];
    forall q1: string, k1: int, q2: string, k2: int | q1 in b2 && q2 in b2 && 0 <= k1 < |b2[q1]| && 0 <= k2 < |b2[q2]| && b2[q1][k1].game == b2[q2][k2].game
      ensures q1 == q2 && k1 == k2
    {
      var o1 := if q1 == qq then Origin(i, k1) else k1;
      var o2 := if q2 == qq then Origin(i, k2) else k2;
      assert b2[q1][k1] == b[q1][o1];
      assert b2[q2][k2] == b[q2][o2];
    }
  }

  /** Dropping a QQ id whose last binding goes keeps the invariant. */
  lemma DropOwnerKeeps(st: State, qq: string)
    requires Valid(st) && qq in st.bindings && |st.bindings[qq]| == 1
    ensures Valid(st.(keys := Without(st.keys, qq), bindings := st.bindings - {qq}))
  {
    var out := st.(keys := Without(st.keys, qq), bindings := st.bindings - {qq});
    assert forall q | q in out.bindings :: out.bindings[q] == st.bindings[q];
    forall q
      ensures Within(|BindingsOf(out.bindings, q)| + Unused(out.pending, q), out.config.maxPerQq)
    {
      assert Within(|BindingsOf(st.bindings, q)| + Unused(st.pending, q), st.config.maxPerQq);
    }
  }

  /** Shortening a QQ id's list by one binding keeps the invariant. */
  lemma ShortenKeeps(st: State, qq: string, i: int)
    requires Valid(st) && qq in st.bindings && 0 <= i < |st.bindings[qq]| && |st.bindings[qq]| > 1
    ensures Valid(st.(bindings := st.bindings[qq := st.bindings[qq][..i] + st.bindings[qq][i + 1..]]))
  {
    var bs := st.bindings[qq];
    var rest := bs[..i] + bs[i + 1..];
    var out := st.(bindings := st.bindings[qq := rest]);
    UniqueGamesRemove(st.bindings, qq, i);
    assert forall k | 0 <= k < |rest| :: rest[k] == bs[Origin(i, k)];
    forall q
      ensures Within(|BindingsOf(out.bindings, q)| + Unused(out.pending, q), out.config.maxPerQq)
    {
      assert Within(|BindingsOf(st.bindings, q)| + Unused(st.pending, q), st.config.maxPerQq);
    }
  }

  /** Removing a binding keeps the invariant. */
  lemma RemoveKeeps(st: State, qq: string, game: string)
    requires Valid(st) && qq in st.bindings
    ensures Valid(RemoveBinding(st, qq, game).0)
  {
    var bs := st.bindings[qq];
    var i := IndexOfGame(bs, game);
    if i < |bs| {
      if |bs| == 1 {
        DropOwnerKeeps(st, qq);
      } else {
        ShortenKeeps(st, qq, i);
      }
    }
  }

  /** `handle_unbind_command` keeps the invariant. */
  lemma UnbindKeeps(st: State, user: int, text: string)
    requires Valid(st)
    ensures Valid(Unbind(st, user, text).0)
  {
    var qq := IntToString(user);
    if |Strip(text)| > 0 && qq in st.bindings {
      RemoveKeeps(st, qq, Strip(text));
    }
  }

  /** The admin commands keep the invariant. */
  lemma AdminKeeps(st: State, text: string)
    requires Valid(st)
    ensures Valid(AdminCommand(st, text).0)
  {
    var args := Split(text);
    if |args| >= 3 && Lower(args[0]) == "delete" && args[1] in st.bindings {
      RemoveKeeps(st, args[1], args[2]);
    }
  }

  /** Reading one log line keeps the invariant. */
  lemma LineKeeps(st: State, line: string, now: int)
    requires Valid(st)
    ensures Valid(ProcessLine(st, line, now).0)
  {
    var m := CodeInLine(st.config, line);
    if m.Some? {
      ProcessKeeps(st, m.value.message, m.value.player, now);
    }
  }

  /** A whole poll of the log keeps the invariant, whatever lines it reads. */
  lemma {:induction false} ScanKeeps(logs: seq<string>, acc: Scanned<State>, now: int)
    requires Valid(acc.state)
    ensures Valid(Scan(logs, acc, (s: State, l: string) => ProcessLine(s, l, now)).state)
    decreases |logs|
  {
    if |logs| > 0 {
      var step := (s: State, l: string) => ProcessLine(s, l, now);
      var line := logs[|logs| - 1];
      LineKeeps(acc.state, line, now);
      assert Valid(Visit(acc, line, step).state);
      ScanKeeps(logs[..|logs| - 1], Visit(acc, line, step), now);
    }
  }

  /** `_check_server_logs` keeps the invariant. */
  lemma CheckLogsKeeps(st: State, seen: set<string>, logs: seq<string>, now: int)
    requires Valid(st)
    ensures Valid(Sweep(st, now))
    ensures Valid(Scan(logs, Scanned(Sweep(st, now), seen, []), (s: State, l: string) => ProcessLine(s, l, now)).state)
  {
    SweepKeeps(st, now);
    ScanKeeps(logs, Scanned(Sweep(st, now), seen, []), now);
  }
}

=== FILE: binding_spec.dfy ===
/**
 * The effects of the binding plugin's operations, one by one, and the round
 * trips they complete: a code typed in the game binds the player it was issued
 * for, and unbinding that player restores the bindings as they were.
 */
module BindingSpec {
  import opened Wrappers
  import opened Text
  import opened Chat
  import opened LogCache
  import opened Binding
  import opened BindingProps

  // ------------------------------------------------------------------- bind

  /**
   * A bind request is refused exactly when the QQ id already holds the maximum
   * number of bindings, and then changes nothing. An issued code is a run of
   * `verify_code_length` digits, pending for that QQ id, unused, and valid for
   * `verify_timeout` seconds; it is the QQ id's only unused code, every other
   * entry that survives is unchanged, and it did not collide with a live code
   * of anyone else. Bindings never change.
   */
  lemma BindSpec(st: State, user: int, draws: seq<seq<nat>>, now: int)
    requires forall j | 0 <= j < |draws| :: |draws[j]| == st.config.codeLength && Digits(draws[j])
    ensures var (out, o) := Bind(st, user, draws, now);
      var qq := IntToString(user);
      (o.QuotaFull? <==> |BindingsOf(st.bindings, qq)| >= st.config.maxPerQq)
      && (o.QuotaFull? ==> out == st)
      && out.bindings == st.bindings && out.keys == st.keys && out.waiting == st.waiting
      && (o.Issued? ==>
            |o.code| == st.config.codeLength && AllDigits(o.code)
            && o.code in out.pending && out.pending[o.code] == Code(qq, now + st.config.verifyTimeout, false)
            && (forall c | c in out.pending && c != o.code ::
                  c in st.pending && out.pending[c] == st.pending[c] && (out.pending[c].qq != qq || out.pending[c].used))
            && (o.code in st.pending ==> Void(st.pending[o.code], now) || st.pending[o.code].qq == qq))
  {
  }

  /** Every other QQ id's pending codes survive a bind unless the new code replaced a void one. */
  lemma BindKeepsOthers(st: State, user: int, draws: seq<seq<nat>>, now: int, c: string)
    requires forall j | 0 <= j < |draws| :: |draws[j]| == st.config.codeLength && Digits(draws[j])
    requires c in st.pending && st.pending[c].qq != IntToString(user) && !Void(st.pending[c], now)
    ensures c in Bind(st, user, draws, now).0.pending
    ensures Bind(st, user, draws, now).0.pending[c] == st.pending[c]
  {
  }

  // ------------------------------------------------------------- chat lines

  /**
   * A line is read as a code exactly when the chat pattern matches and the
   * message is a non-empty run of digits of the configured length; the
   * marker and bracket pre-checks reject nothing the pattern accepts.
   */
  lemma CodeLineSpec(cfg: Config, line: string)
    ensures CodeInLine(cfg, line).Some? <==>
      ChatMatch(line).Some? && |ChatMatch(line).value.message| == cfg.codeLength > 0 && AllDigits(ChatMatch(line).value.message)
    ensures CodeInLine(cfg, line).Some? ==> CodeInLine(cfg, line) == ChatMatch(line)
  {
    if ChatMatch(line).Some? {
      ChatMatchGuards(line);
      ChatMatchStripped(line);
    }
  }

  /**
   * A code a player types in the game, printed by the server after any prefix,
   * is read back as that player and that code.
   */
  lemma CodeLineRendered(cfg: Config, prefix: string, player: string, code: string)
    requires |player| > 0 && '>' !in player && '[' !in player && Strip(player) == player
    requires |code| == cfg.codeLength > 0 && AllDigits(code)
    ensures CodeInLine(cfg, prefix + Render(player, code)) == Some(ChatLine(player, code))
  {
    DigitsHoldNoMarker(code);
    assert !IsSpace(code[0]) && !IsSpace(code[|code| - 1]);
    StripStripped(code);
    ChatMatchRendered(prefix, player, code);
    CodeLineSpec(cfg, prefix + Render(player, code));
  }

  // --------------------------------------------------------------- redeeming

  /** Unknown and used codes change nothing; a void code is deleted and nothing else changes. */
  lemma ProcessRefusals(st: State, code: string, player: string, now: int)
    ensures var (out, v) := ProcessCode(st, code, player, now);
      (v == UnknownCode <==> code !in st.pending)
      && (v == VoidCode <==> code in st.pending && Void(st.pending[code], now))
      && (v == UsedCode <==> code in st.pending && !Void(st.pending[code], now) && st.pending[code].used)
      && (v == UnknownCode || v == UsedCode ==> out == st)
      && (v == VoidCode ==> out == st.(pending := st.pending - {code}))
  {
  }

  /**
   * A live code spent on a player who is already bound, to anyone, binds
   * nothing: the code is consumed and the bindings stay as they were. The
   * verdict tells whose binding it was.
   */
  lemma ProcessTaken(st: State, code: string, player: string, now: int)
    requires code in st.pending && !Void(st.pending[code], now) && !st.pending[code].used
    requires FindBinding(st.keys, st.bindings, player).Some?
    ensures var (out, v) := ProcessCode(st, code, player, now);
      var b := FindBinding(st.keys, st.bindings, player).value;
      out == st.(pending := st.pending - {code})
      && (v == AlreadyBound <==> b.qq == st.pending[code].qq)
      && (v == TakenByOther(b.qq) <==> b.qq != st.pending[code].qq)
  {
  }

  /**
   * A live, unused code spent on a player bound nowhere appends exactly one
   * binding of that player to the code's QQ id, consumes the code and clears
   * the player's waiting entry; every other QQ id's bindings stay.
   */
  lemma ProcessBinds(st: State, code: string, player: string, now: int)
    requires code in st.pending && !Void(st.pending[code], now) && !st.pending[code].used
    requires FindBinding(st.keys, st.bindings, player).None?
    ensures var (out, v) := ProcessCode(st, code, player, now);
      var qq := st.pending[code].qq;
      v == BoundNow(qq)
      && BindingsOf(out.bindings, qq) == BindingsOf(st.bindings, qq) + [Bound(player, qq)]
      && (forall q | q != qq :: BindingsOf(out.bindings, q) == BindingsOf(st.bindings, q))
      && out.pending == st.pending - {code} && player !in out.waiting
      && out.bindings.Keys == st.bindings.Keys + {qq}
  {
  }

  /** In a valid state a player counts as bound exactly when some QQ id holds a binding of that name. */
  lemma FindBindingComplete(st: State, player: string)
    requires Valid(st)
    ensures FindBinding(st.keys, st.bindings, player).None? <==>
      forall q, i | q in st.bindings && 0 <= i < |st.bindings[q]| :: st.bindings[q][i].game != player
  {
    if FindBinding(st.keys, st.bindings, player).None? {
      NotFoundAnywhere(st.keys, st.bindings, player);
    }
  }

  /**
   * The whole flow: a QQ user under the maximum asks for a code, the player
   * types it in the game before it runs out, and the log poll that reads the
   * line binds the player to that QQ user.
   */
  lemma BindThenType(st: State, user: int, draws: seq<seq<nat>>, now: int, prefix: string, player: string, later: int)
    requires Valid(st) && st.config.codeLength > 0
    requires forall j | 0 <= j < |draws| :: |draws[j]| == st.config.codeLength && Digits(draws[j])
    requires Bind(st, user, draws, now).1.Issued?
    requires |player| > 0 && '>' !in player && '[' !in player && Strip(player) == player
    requires forall q, i | q in st.bindings && 0 <= i < |st.bindings[q]| :: st.bindings[q][i].game != player
    requires later <= now + st.config.verifyTimeout
    ensures var (mid, o) := Bind(st, user, draws, now);
      var (out, handled) := ProcessLine(mid, prefix + Render(player, o.code), later);
      handled && BindingsOf(out.bindings, IntToString(user)) == BindingsOf(st.bindings, IntToString(user)) + [Bound(player, IntToString(user))]
  {
    var (mid, o) := Bind(st, user, draws, now);
    BindSpec(st, user, draws, now);
    BindKeeps(st, user, draws, now);
    CodeLineRendered(mid.config, prefix, player, o.code);
    FindBindingComplete(mid, player);
    ProcessBinds(mid, o.code, player, later);
  }

  // ---------------------------------------------------------------- removing

  /**
   * Removal takes out the first binding of the name from the QQ id's list,
   * keeping the others in order, and reports whether there was one; the QQ id
   * goes when its list runs empty. Codes and other QQ ids are untouched.
   */
  lemma RemoveSpec(st: State, qq: string, game: string)
    requires qq in st.bindings
    ensures var (out, ok) := RemoveBinding(st, qq, game);
      var bs := st.bindings[qq];
      var i := IndexOfGame(bs, game);
      (ok <==> exists k | 0 <= k < |bs| :: bs[k].game == game)
      && (!ok ==> out == st)
      && (ok ==> BindingsOf(out.bindings, qq) == bs[..i] + bs[i + 1..] && bs[i].game == game)
      && (ok ==> (qq in out.bindings <==> |bs| > 1))
      && (forall q | q != qq :: BindingsOf(out.bindings, q) == BindingsOf(st.bindings, q))
      && out.pending == st.pending && out.config == st.config
  {
  }

  /**
   * `handle_unbind_command`: a blank request is a usage message, a QQ id
   * without bindings is told so, and otherwise the named player is unbound
   * from the caller's QQ id if it was bound to it.
   */
  lemma UnbindSpec(st: State, user: int, text: string)
    ensures var (out, o) := Unbind(st, user, text);
      var qq := IntToString(user);
      (o == UnbindUsage <==> AllSpace(text))
      && (o == NoBindings <==> !AllSpace(text) && qq !in st.bindings)
      && (o.Unbound? || o.NotBound? ==> o.game == Strip(text) && qq in st.bindings)
      && (o.Unbound? <==> !AllSpace(text) && qq in st.bindings && exists k | 0 <= k < |st.bindings[qq]| :: st.bindings[qq][k].game == Strip(text))
      && (!o.Unbound? ==> out == st)
  {
    var qq := IntToString(user);
    if !AllSpace(text) && qq in st.bindings {
      RemoveSpec(st, qq, Strip(text));
    }
  }

  /**
   * The admin command: `delete` with a QQ id and a name removes that binding
   * as unbinding does; `list` and every refusal change nothing.
   */
  lemma AdminSpec(st: State, text: string)
    ensures var (out, o) := AdminCommand(st, text);
      var args := Split(text);
      (o == AdminUsage <==> |args| == 0)
      && (o.Deleted? ==> |args| >= 3 && o.qq == args[1] && o.game == args[2] && o.qq in st.bindings
                         && out == RemoveBinding(st, o.qq, o.game).0)
      && (!o.Deleted? ==> out == st)
      && (o.Listing? ==> o.owners == |st.bindings| > 0)
  {
    var args := Split(text);
    if |args| >= 3 && Lower(args[0]) == "delete" && args[1] in st.bindings {
      RemoveSpec(st, args[1], args[2]);
    }
  }

  // -------------------------------------------------------------- round trip

  /** `keys` with `q` appended and then removed again is `keys`, when `q` was not in it. */
  lemma {:induction false} WithoutAppended(keys: seq<string>, q: string)
    requires q !in keys
    ensures Without(keys + [q], q) == keys
    decreases |keys|
  {
    if |keys| > 0 {
      assert (keys + [q])[1..] == keys[1..] + [q];
      WithoutAppended(keys[1..], q);
    } else {
      assert [q][1..] == [];
    }
  }

  /** Removing the name that was appended last takes exactly that binding off again. */
  lemma RemoveAppended(st: State, qq: string, player: string, bs: seq<Bound>)
    requires qq in st.bindings && st.bindings[qq] == bs + [Bound(player, qq)]
    requires forall k | 0 <= k < |bs| :: bs[k].game != player
    ensures RemoveBinding(st, qq, player).1
    ensures |bs| == 0 ==> RemoveBinding(st, qq, player).0 == st.(keys := Without(st.keys, qq), bindings := st.bindings - {qq})
    ensures |bs| > 0 ==> RemoveBinding(st, qq, player).0 == st.(bindings := st.bindings[qq := bs])
  {
    var nb := bs + [Bound(player, qq)];
    assert IndexOfGame(nb, player) == |bs| by {
      assert forall k | 0 <= k < |bs| :: nb[k] == bs[k];
      assert nb[|bs|].game == player;
    }
    assert nb[..|bs|] + nb[|bs| + 1..] == bs;
  }

  /**
   * Unbinding the player a code just bound restores the bindings and the key
   * order exactly as they were before the code was used.
   */
  lemma RedeemThenUnbind(st: State, code: string, player: string, now: int, user: int)
    requires Valid(st) && |player| > 0 && Strip(player) == player
    requires ProcessCode(st, code, player, now).1 == BoundNow(IntToString(user))
    ensures var mid := ProcessCode(st, code, player, now).0;
      var (out, o) := Unbind(mid, user, player);
      o == Unbound(player) && out.bindings == st.bindings && out.keys == st.keys
  {
    var qq := IntToString(user);
    assert FindBinding(st.keys, st.bindings, player).None?;
    NotFoundAnywhere(st.keys, st.bindings, player);
    var keys := if qq in st.bindings then st.keys else st.keys + [qq];
    var bs := BindingsOf(st.bindings, qq);
    var mid := st.(keys := keys, bindings := st.bindings[qq := bs + [Bound(player, qq)]],
                   pending := st.pending - {code}, waiting := st.waiting - {player});
    assert ProcessCode(st, code, player, now).0 == mid;
    UnbindAppended(st, mid, user, player);
  }

  /** The unbinding half of `RedeemThenUnbind`, on the state the code left behind. */
  lemma UnbindAppended(st: State, mid: State, user: int, player: string)
    requires Enumerates(st.keys, st.bindings.Keys) && Filed(st.bindings)
    requires |player| > 0 && Strip(player) == player
    requires forall q, i | q in st.bindings && 0 <= i < |st.bindings[q]| :: st.bindings[q][i].game != player
    requires var qq := IntToString(user);
      mid.keys == (if qq in st.bindings then st.keys else st.keys + [qq])
      && mid.bindings == st.bindings[qq := BindingsOf(st.bindings, qq) + [Bound(player, qq)]]
    ensures var (out, o) := Unbind(mid, user, player);
      o == Unbound(player) && out.bindings == st.bindings && out.keys == st.keys
  {
    var qq := IntToString(user);
    var bs := BindingsOf(st.bindings, qq);
    AppendedUnbind(mid, user, player, bs);
    AppendedUndone(st, mid, qq, player);
  }

  /** Unbinding the name just appended to the caller's bindings takes exactly that binding away. */
  lemma AppendedUnbind(st: State, user: int, player: string, bs: seq<Bound>)
    requires |player| > 0 && Strip(player) == player
    requires var qq := IntToString(user);
      qq in st.bindings && st.bindings[qq] == bs + [Bound(player, qq)]
    requires forall k | 0 <= k < |bs| :: bs[k].game != player
    ensures var qq := IntToString(user);
      var (out, o) := Unbind(st, user, player);
      o == Unbound(player)
      && (|bs| == 0 ==> out == st.(keys := Without(st.keys, qq), bindings := st.bindings - {qq}))
      && (|bs| > 0 ==> out == st.(bindings := st.bindings[qq := bs]))
  {
    RemoveAppended(st, IntToString(user), player, bs);
    UnbindRemoves(st, user, player);
  }

  /** Unbinding a stripped name the caller has bound is the removal of that binding. */
  lemma UnbindRemoves(st: State, user: int, player: string)
    requires |player| > 0 && Strip(player) == player
    requires IntToString(user) in st.bindings && RemoveBinding(st, IntToString(user), player).1
    ensures Unbind(st, user, player) == (RemoveBinding(st, IntToString(user), player).0, Unbound(player))
  {
  }

  /** Taking the appended binding away again restores the bindings and the key order before it. */
  lemma AppendedUndone(st: State, mid: State, qq: string, player: string)
    requires Enumerates(st.keys, st.bindings.Keys) && Filed(st.bindings)
    requires mid.keys == (if qq in st.bindings then st.keys else st.keys + [qq])
    requires mid.bindings == st.bindings[qq := BindingsOf(st.bindings, qq) + [Bound(player, qq)]]
    ensures var bs := BindingsOf(st.bindings, qq);
      (|bs| == 0 ==> Without(mid.keys, qq) == st.keys && mid.bindings - {qq} == st.bindings)
      && (|bs| > 0 ==> mid.keys == st.keys && mid.bindings[qq := bs] == st.bindings)
  {
    if qq !in st.bindings {
      NewKeyDropped(st, mid, qq, player);
    } else {
      assert mid.bindings[qq := st.bindings[qq]] == st.bindings;
    }
  }

  /** A QQ id that had no bindings before the code goes away again, from the map and from the key order. */
  lemma NewKeyDropped(st: State, mid: State, qq: string, player: string)
    requires Enumerates(st.keys, st.bindings.Keys) && qq !in st.bindings
    requires mid.keys == st.keys + [qq] && mid.bindings == st.bindings[qq := BindingsOf(st.bindings, qq) + [Bound(player, qq)]]
    ensures Without(mid.keys, qq) == st.keys && mid.bindings - {qq} == st.bindings
  {
    assert qq !in st.keys by {
      assert qq !in Elems(st.keys);
    }
    WithoutAppended(st.keys, qq);
  }
}

=== FILE: chat.dfy ===
/**
 * The chat-line shape both log-watching plugins search server logs for, the
 * pattern `.*\[Not Secure\]\s*<([^>]+)>\s*(.+)`: the `[Not Secure]` marker, a
 * player name in angle brackets, then the message. Both capture groups are
 * stripped by the callers, so the result here is already stripped.
 */
module Chat {
  import opened Wrappers
  import opened Text

  const Marker := "[Not Secure]"

  datatype ChatLine = ChatLine(player: string, message: string)

  /**
   * `t` matches `\s*<([^>]+)>\s*(.+)` from its start with the `<` at `a` and the
   * closing `>` at `c`: blanks before `a`, the name is everything up to the first `>`,
   * and at least one character follows.
   */
  predicate TailAt(t: string, a: int, c: int) {
    0 <= a && a + 1 < c && c + 1 < |t|
    && (forall i | 0 <= i < a :: IsSpace(t[i])) && t[a] == '<'
    && (forall i | a < i < c :: t[i] != '>') && t[c] == '>'
  }

  /** The stripped groups of a tail match with the `<` at `a` and the `>` at `c`. */
  function TailGroups(t: string, a: int, c: int): ChatLine
    requires 0 <= a < c < |t|
  {
    ChatLine(Strip(t[a + 1..c]), Strip(t[c + 1..]))
  }

  /** A tail matches in at most one way: after the leading blanks, up to the first `>`. */
  lemma TailUnique(t: string)
    ensures forall a, c :: TailAt(t, a, c) ==> a == LeadingSpaces(t) && c == IndexFrom(t, '>', a + 1)
  {
    forall a, c | TailAt(t, a, c)
      ensures a == LeadingSpaces(t) && c == IndexFrom(t, '>', a + 1)
    {
      TailAtFirst(t, a, c);
    }
  }

  /** One match of the tail sits after the leading blanks and ends at the first `>`. */
  lemma TailAtFirst(t: string, a: int, c: int)
    requires TailAt(t, a, c)
    ensures a == LeadingSpaces(t) && c == IndexFrom(t, '>', a + 1)
  {
  }

  /** Whether `t` matches the tail pattern; decided from the leading blanks and the first `>`. */
  predicate TailFits(t: string) {
    var a := LeadingSpaces(t);
    a < |t| && t[a] == '<' && a + 1 < IndexFrom(t, '>', a + 1) && IndexFrom(t, '>', a + 1) + 1 < |t|
  }

  /** The tail of a chat line after the marker, matched the way the regex engine does. */
  function MatchTail(t: string): Option<ChatLine> {
    if TailFits(t) then
      var a := LeadingSpaces(t);
      Some(TailGroups(t, a, IndexFrom(t, '>', a + 1)))
    else None
  }

  /** `MatchTail` succeeds exactly when the tail pattern matches, and then returns its stripped groups. */
  lemma MatchTailSpec(t: string)
    ensures TailFits(t) <==> exists a, c :: TailAt(t, a, c)
    ensures forall a, c :: TailAt(t, a, c) ==> MatchTail(t) == Some(TailGroups(t, a, c))
  {
    if TailFits(t) {
      TailFitsAt(t);
    }
    forall a, c | TailAt(t, a, c)
      ensures TailFits(t) && MatchTail(t) == Some(TailGroups(t, a, c))
    {
      TailAtMatches(t, a, c);
    }
  }

  /** A tail the quick test accepts matches after its leading blanks. */
  lemma TailFitsAt(t: string)
    requires TailFits(t)
    ensures TailAt(t, LeadingSpaces(t), IndexFrom(t, '>', LeadingSpaces(t) + 1))
  {
  }

  /** A tail that matches passes the quick test, and `MatchTail` returns the groups of the match. */
  lemma TailAtMatches(t: string, a: int, c: int)
    requires TailAt(t, a, c)
    ensures TailFits(t) && MatchTail(t) == Some(TailGroups(t, a, c))
  {
    TailAtFirst(t, a, c);
    assert TailFits(t);
  }

  /** The marker occurs at `p` and the rest of the line after it matches the tail. */
  predicate MatchesAt(line: string, p: int) {
    OccursAt(line, Marker, p) && TailFits(line[p + |Marker|..])
  }

  /**
   * The last marker position at or before `p` whose tail matches (the greedy `.*`
   * prefers it), or -1 when there is none.
   */
  function LastMatch(line: string, p: int): (r: int)
    ensures r == -1 || 0 <= r <= p
    ensures r >= 0 ==> MatchesAt(line, r)
    decreases if p < 0 then 0 else p + 1
  {
    if p < 0 then -1
    else if MatchesAt(line, p) then p
    else LastMatch(line, p - 1)
  }

  /** No position after the one `LastMatch` returns matches. */
  lemma {:induction false} LastMatchIsLast(line: string, p: int, q: int)
    requires LastMatch(line, p) < q <= p
    ensures !MatchesAt(line, q)
    decreases if p < 0 then 0 else p + 1
  {
    if q < p {
      LastMatchIsLast(line, p - 1, q);
    }
  }

  /** `re.search` of the chat pattern on one log line. */
  function ChatMatch(line: string): Option<ChatLine> {
    var p := LastMatch(line, |line| - |Marker|);
    if p < 0 then None else MatchTail(line[p + |Marker|..])
  }

  /** The marker at `p` is the last one on the line whose tail matches. */
  ghost predicate IsLastMatch(line: string, p: int) {
    MatchesAt(line, p) && forall q :: p < q ==> !MatchesAt(line, q)
  }

  /** A marker can only start where the whole marker fits. */
  lemma MatchesAtBound(line: string, q: int)
    requires MatchesAt(line, q)
    ensures 0 <= q <= |line| - |Marker|
  {
  }

  /** `ChatMatch` reports the groups of the last matching marker, and nothing when no marker matches. */
  lemma ChatMatchSpec(line: string)
    ensures ChatMatch(line).Some? ==> exists p :: IsLastMatch(line, p) && ChatMatch(line) == MatchTail(line[p + |Marker|..])
    ensures ChatMatch(line).None? ==> forall p :: !MatchesAt(line, p)
  {
    var p := LastMatch(line, |line| - |Marker|);
    forall q | p < q
      ensures !MatchesAt(line, q)
    {
      NoMatchAfterLast(line, q);
    }
    if p >= 0 {
      assert IsLastMatch(line, p);
    }
  }

  /** No marker after the one the search from the end of the line finds matches. */
  lemma NoMatchAfterLast(line: string, q: int)
    requires LastMatch(line, |line| - |Marker|) < q
    ensures !MatchesAt(line, q)
  {
    var top := |line| - |Marker|;
    if q <= top {
      LastMatchIsLast(line, top, q);
    } else if MatchesAt(line, q) {
      MatchesAtBound(line, q);
    }
  }

  /** How the server prints a chat message from an unsigned client. */
  function Render(player: string, message: string): string {
    Marker + RenderTail(player, message)
  }

  /** The text the server prints after the marker. */
  function RenderTail(player: string, message: string): string {
    " <" + player + ">" + (" " + message)
  }

  /** Where the pieces of a rendered tail sit. */
  lemma RenderTailShape(player: string, message: string)
    requires |player| > 0 && '>' !in player
    ensures var t := RenderTail(player, message);
      var c := |player| + 2;
      TailAt(t, 1, c) && t[2..c] == player && t[c + 1..] == " " + message
  {
    var head := " <" + player + ">";
    var t := head + (" " + message);
    var c := |player| + 2;
    assert t[..c + 1] == head;
    assert head[2..c] == player;
    assert forall i | 1 < i < c :: head[i] == player[i - 2];
    assert LeadingSpaces(t) == 1 by {
      assert t[0] == ' ' && t[1] == '<';
    }
  }

  /** The tail the server prints after the marker matches, and yields the name and message back. */
  lemma MatchTailRendered(player: string, message: string)
    requires |player| > 0 && '>' !in player && Strip(player) == player
    requires |message| > 0 && Strip(message) == message
    ensures MatchTail(RenderTail(player, message)) == Some(ChatLine(player, message))
  {
    var t := RenderTail(player, message);
    RenderTailShape(player, message);
    TailAtMatches(t, 1, |player| + 2);
    StripUnique(message, " " + message, 1);
  }

  /**
   * The parser reads back what the server printed, whatever precedes it on the
   * line, provided neither the name nor the message could be mistaken for a later
   * marker.
   */
  lemma ChatMatchRendered(prefix: string, player: string, message: string)
    requires |player| > 0 && '>' !in player && '[' !in player && Strip(player) == player
    requires |message| > 0 && Strip(message) == message && !Contains(message, Marker)
    ensures ChatMatch(prefix + Render(player, message)) == Some(ChatLine(player, message))
  {
    RenderedLineMatches(prefix + Render(player, message), prefix, player, message);
  }

  /** `ChatMatchRendered`, with the rendered line named. */
  lemma RenderedLineMatches(line: string, prefix: string, player: string, message: string)
    requires line == prefix + Render(player, message)
    requires |player| > 0 && '>' !in player && '[' !in player && Strip(player) == player
    requires |message| > 0 && Strip(message) == message && !Contains(message, Marker)
    ensures ChatMatch(line) == Some(ChatLine(player, message))
  {
    RenderedMatchesAt(line, prefix, player, message);
    RenderedLastMatch(line, prefix, player, message);
    ChatMatchFrom(line, |prefix|, ChatLine(player, message));
  }

  /** The marker right after the prefix is followed by a tail that matches, yielding the name and message. */
  lemma RenderedMatchesAt(line: string, prefix: string, player: string, message: string)
    requires line == prefix + Render(player, message)
    requires |player| > 0 && '>' !in player && '[' !in player && Strip(player) == player
    requires |message| > 0 && Strip(message) == message
    ensures MatchesAt(line, |prefix|)
    ensures MatchTail(line[|prefix| + |Marker|..]) == Some(ChatLine(player, message))
  {
    var x := RenderLineShape(prefix, player, message);
    MatchTailRendered(player, message);
    MatchesAtTail(line, |prefix|, RenderTail(player, message), ChatLine(player, message));
  }

  /** The search from the end of a rendered line stops at the marker right after the prefix. */
  lemma RenderedLastMatch(line: string, prefix: string, player: string, message: string)
    requires line == prefix + Render(player, message)
    requires |player| > 0 && '>' !in player && '[' !in player && Strip(player) == player
    requires |message| > 0 && Strip(message) == message && !Contains(message, Marker)
    ensures LastMatch(line, |line| - |Marker|) == |prefix|
  {
    var x := RenderLineShape(prefix, player, message);
    RenderedMatchesAt(line, prefix, player, message);
    LastMatchBeforeTail(line, x, message, |line| - |Marker|, |prefix|);
  }

  /** When the last matching marker is at `p`, `ChatMatch` reports what its tail yields. */
  lemma ChatMatchFrom(line: string, p: int, cl: ChatLine)
    requires 0 <= p && LastMatch(line, |line| - |Marker|) == p
    requires MatchTail(line[p + |Marker|..]) == Some(cl)
    ensures ChatMatch(line) == Some(cl)
  {
  }

  /** A marker at `p` followed by a tail that matches is a match at `p`, with that tail's groups. */
  lemma MatchesAtTail(line: string, p: int, tail: string, cl: ChatLine)
    requires 0 <= p && p + |Marker| <= |line| && line[p..p + |Marker|] == Marker
    requires line[p + |Marker|..] == tail && MatchTail(tail) == Some(cl)
    ensures MatchesAt(line, p) && MatchTail(line[p + |Marker|..]) == Some(cl)
  {
  }

  /** No marker starts at `q` after `p` when nothing after `p` in `x` is a `[` and `y` holds no marker. */
  lemma NoMarkerAfter(line: string, x: string, y: string, p: int, q: int)
    requires line == x + y && !Contains(y, Marker) && 0 <= p < q
    requires forall i | p < i < |x| :: x[i] != '['
    ensures !OccursAt(line, Marker, q)
  {
    if q < |x| {
      assert line[q] == x[q];
      NotOccursAt(line, Marker, q);
    } else {
      OccursInSuffix(x, y, Marker, q);
    }
  }

  /**
   * The search backwards from `from` stops at the marker at `p` when no marker
   * can start between them.
   */
  lemma {:induction false} LastMatchBeforeTail(line: string, x: string, y: string, from: int, p: int)
    requires line == x + y && !Contains(y, Marker) && 0 <= p <= from
    requires forall i | p < i < |x| :: x[i] != '['
    requires MatchesAt(line, p)
    ensures LastMatch(line, from) == p
    decreases from - p
  {
    if from > p {
      NoMarkerAfter(line, x, y, p, from);
      LastMatchBeforeTail(line, x, y, from - 1, p);
    }
  }

  /**
   * Where the pieces of a rendered line sit: the marker right after the prefix,
   * then the rendered tail, whose characters before the message are no `[`.
   */
  lemma RenderLineShape(prefix: string, player: string, message: string) returns (x: string)
    requires '[' !in player
    ensures var line := prefix + Render(player, message);
      var p := |prefix|;
      line[p..p + |Marker|] == Marker && line[p + |Marker|..] == RenderTail(player, message)
      && line == x + message && |x| > p
      && forall q | p < q < |x| :: x[q] != '['
  {
    var line := prefix + Render(player, message);
    var p := |prefix|;
    var rest := "Not Secure] <" + player + "> ";
    x := prefix + "[" + rest;
    assert Marker == "[" + "Not Secure]";
    assert line == x + message;
    assert forall q | p < q < |x| :: x[q] == rest[q - p - 1];
    assert '[' !in rest;
  }

  /**
   * A line the pattern matches passes the cheap pre-checks the callers make
   * first: it holds the marker, a `<` and a `>`. The pre-checks reject nothing
   * the pattern would accept.
   */
  lemma ChatMatchGuards(line: string)
    requires ChatMatch(line).Some?
    ensures Contains(line, Marker) && '<' in line && '>' in line
  {
    var p := LastMatch(line, |line| - |Marker|);
    assert MatchesAt(line, p);
    var t := line[p + |Marker|..];
    var a := LeadingSpaces(t);
    var c := IndexFrom(t, '>', a + 1);
    assert line[p + |Marker| + a] == t[a] == '<';
    assert line[p + |Marker| + c] == t[c] == '>';
  }

  /** The groups `ChatMatch` reports are already stripped. */
  lemma ChatMatchStripped(line: string)
    requires ChatMatch(line).Some?
    ensures Strip(ChatMatch(line).value.player) == ChatMatch(line).value.player
    ensures Strip(ChatMatch(line).value.message) == ChatMatch(line).value.message
  {
    var p := LastMatch(line, |line| - |Marker|);
    MatchTailStripped(line[p + |Marker|..]);
  }

  /** The groups `MatchTail` reports are already stripped. */
  lemma MatchTailStripped(t: string)
    requires MatchTail(t).Some?
    ensures Strip(MatchTail(t).value.player) == MatchTail(t).value.player
    ensures Strip(MatchTail(t).value.message) == MatchTail(t).value.message
  {
    var a := LeadingSpaces(t);
    var c := IndexFrom(t, '>', a + 1);
    assert MatchTail(t) == Some(TailGroups(t, a, c));
    TailGroupsStripped(t, a, c);
  }

  /** Both groups of a tail match are already stripped. */
  lemma TailGroupsStripped(t: string, a: int, c: int)
    requires 0 <= a < c < |t|
    ensures Strip(TailGroups(t, a, c).player) == TailGroups(t, a, c).player
    ensures Strip(TailGroups(t, a, c).message) == TailGroups(t, a, c).message
  {
    StripIdempotent(t[a + 1..c]);
    StripIdempotent(t[c + 1..]);
  }

  /** A string of digits never holds the marker. */
  lemma DigitsHoldNoMarker(s: string)
    requires AllDigits(s)
    ensures !Contains(s, Marker)
  {
    forall i | 0 <= i <= |s|
      ensures !OccursAt(s, Marker, i)
    {
      if i < |s| {
        NotOccursAt(s, Marker, i);
      }
    }
  }
}

=== FILE: chunk_deleter.dfy ===
/**
 * The chunk deleter plugin: administrators delete, back up and restore the
 * region and POI files that hold a chunk, one chunk or a rectangle of chunks
 * at a time, optionally behind a per-user confirmation.
 *
 * The file system is a `Disk`: the contents of the world's files, the contents
 * of the `chunk_backups` tree and the set of directories that exist. Paths are
 * sequences of components and `os.path.join` is concatenation. Removals that
 * raise are the paths in `broken`; timers are explicit `Timeout` events that
 * name the task they come from.
 */
module ChunkDeleter {
  import opened Wrappers
  import opened Text
  import opened ChunkPaths
  import opened ChunkSweep

  datatype CoordType = ChunkCoords | WorldCoords

  /** `allowed_dimensions`, `require_confirmation`, `backup_before_delete`, `confirmation_timeout`. */
  datatype Config = Config(
    allowedDimensions: seq<string>,
    requireConfirmation: bool,
    backupBeforeDelete: bool,
    confirmationTimeout: int)

  const Defaults := Config(["overworld", "nether", "end"], true, true, 180)

  /** The largest rectangle, in chunks, an area deletion accepts. */
  const MaxAreaChunks := 100

  /** Past this many entries the history is cut down to its newest `HistoryKeep`. */
  const HistoryLimit := 100
  const HistoryKeep := 50

  // ------------------------------------------------------------ server detection

  /** What a server jar's lower-cased name says about the server, if anything. */
  function JarHint(name: string): Option<ServerType> {
    var n := Lower(name);
    if Contains(n, "paper") || Contains(n, "purpur") || Contains(n, "spigot") || Contains(n, "bukkit") then Some(Plugin)
    else if Contains(n, "fabric") || Contains(n, "forge") then Some(Modded)
    else None
  }

  /** The first jar at or after `i` that says something, or `|jars|`. */
  function FirstHinted(jars: seq<string>, i: nat): (k: nat)
    requires i <= |jars|
    ensures i <= k <= |jars|
    ensures forall j | i <= j < k :: JarHint(jars[j]).None?
    ensures k < |jars| ==> JarHint(jars[k]).Some?
    decreases |jars| - i
  {
    if i < |jars| && JarHint(jars[i]).None? then FirstHinted(jars, i + 1) else i
  }

  /** The folders whose presence marks a plugin server, then those that mark a modded one. */
  predicate PluginFolders(dirs: set<Path>, workDir: Path) {
    workDir + ["world_nether"] in dirs || workDir + ["world_the_end"] in dirs
  }

  predicate ModdedFolders(dirs: set<Path>, workDir: Path) {
    workDir + ["world", "DIM-1"] in dirs || workDir + ["world", "DIM1"] in dirs
  }

  /**
   * `_detect_server_type`: the first jar (in the order the directory lists
   * them) whose name says something decides; otherwise the folders do;
   * otherwise the server is vanilla.
   */
  function DetectServerType(jars: seq<string>, dirs: set<Path>, workDir: Path): (t: ServerType)
    ensures t != Unknown
    ensures t == Vanilla <==>
      (forall i | 0 <= i < |jars| :: JarHint(jars[i]).None?) &&
      !PluginFolders(dirs, workDir) && !ModdedFolders(dirs, workDir)
    ensures (exists i | 0 <= i < |jars| :: JarHint(jars[i]).Some?) ==>
      exists i | 0 <= i < |jars| :: JarHint(jars[i]) == Some(t) && forall j | 0 <= j < i :: JarHint(jars[j]).None?
  {
    var k := FirstHinted(jars, 0);
    if k < |jars| then JarHint(jars[k]).value
    else if PluginFolders(dirs, workDir) then Plugin
    else if ModdedFolders(dirs, workDir) then Modded
    else Vanilla
  }

  // ------------------------------------------------------------ arguments

  /** `world`, `block` and `coord`, in any case, ask for world coordinates. */
  predicate IsCoordWord(s: string) {
    var l := Lower(s);
    l == "world" || l == "block" || l == "coord"
  }

  /** `_get_coord_type_from_parts`: looks at the fourth and fifth words only. */
  function CoordTypeOf(parts: seq<string>): (t: CoordType)
    ensures t == WorldCoords <==> (|parts| >= 4 && IsCoordWord(parts[3])) || (|parts| >= 5 && IsCoordWord(parts[4]))
  {
    if |parts| >= 4 && IsCoordWord(parts[3]) then WorldCoords
    else if |parts| >= 5 && IsCoordWord(parts[4]) then WorldCoords
    else ChunkCoords
  }

  function Convert(v: int, t: CoordType): int {
    if t == WorldCoords then ChunkOfWorld(v) else v
  }

  /** `_parse_coordinates` on each word: an integer, turned into a chunk coordinate when `t` says so. */
  function ParseCoords(words: seq<string>, t: CoordType): (r: Option<seq<int>>)
    ensures r.Some? <==> forall i | 0 <= i < |words| :: ParseInt(words[i]).Some?
    ensures r.Some? ==> |r.value| == |words|
    ensures r.Some? ==> forall i | 0 <= i < |words| :: r.value[i] == Convert(ParseInt(words[i]).value, t)
  {
    if |words| == 0 then Some([])
    else match ParseInt(words[0])
      case None => None
      case Some(v) =>
        match ParseCoords(words[1..], t)
        case None =>
          assert !ParseInt(words[1..][IndexWhere(words[1..])]).Some?;
          None
        case Some(rest) => Some([Convert(v, t)] + rest)
  }

  /** A word of `words` that does not parse, when there is one. */
  function IndexWhere(words: seq<string>): (i: nat)
    requires exists i | 0 <= i < |words| :: ParseInt(words[i]).None?
    ensures i < |words| && ParseInt(words[i]).None?
  {
    if ParseInt(words[0]).None? then 0
    else
      assert exists i | 0 <= i < |words[1..]| :: ParseInt(words[1..][i]).None? by {
        var i :| 0 <= i < |words| && ParseInt(words[i]).None?;
        assert words[1..][i - 1] == words[i];
      }
      1 + IndexWhere(words[1..])
  }

  /** The outcome of reading a command's coordinates, dimension and coordinate type. */
  datatype Args =
    | ParseError
    | UnknownDimension(word: string)
    | Parsed(coords: seq<int>, dimension: string, coordType: CoordType)

  /**
   * The argument parsing of the four handlers AS WRITTEN (`n` coordinates,
   * then an optional dimension and an optional coordinate type): the
   * coordinates are converted with the type `CoordTypeOf` found, and the
   * words after them can still switch the type to world coordinates, after the
   * conversion; a word where the dimension goes that is neither a dimension
   * nor a coordinate type is ignored.
   */
  function ReadArgsAsWritten(cfg: Config, parts: seq<string>, n: nat): (a: Args)
    requires n == 2 || n == 4
    requires |parts| >= n
    ensures !a.UnknownDimension?
    ensures a.Parsed? ==> |a.coords| == n
  {
    var early := CoordTypeOf(parts);
    match ParseCoords(parts[..n], early)
    case None => ParseError
    case Some(c) =>
      var slot := if |parts| > n then Lower(parts[n]) else "";
      var isDim := |parts| > n && slot in cfg.allowedDimensions;
      var dim := if isDim then slot else "overworld";
      var late := (|parts| > n && !isDim && IsCoordWord(parts[n])) || (|parts| > n + 1 && IsCoordWord(parts[n + 1]));
      Parsed(c, dim, if late then WorldCoords else early)
  }

  /** The coordinate type all the words ask for together. */
  function FinalCoordType(cfg: Config, parts: seq<string>, n: nat): (t: CoordType)
    ensures t == WorldCoords <==>
      CoordTypeOf(parts) == WorldCoords ||
      (|parts| > n && Lower(parts[n]) !in cfg.allowedDimensions && IsCoordWord(parts[n])) ||
      (|parts| > n + 1 && IsCoordWord(parts[n + 1]))
  {
    if CoordTypeOf(parts) == WorldCoords then WorldCoords
    else if |parts| > n && Lower(parts[n]) !in cfg.allowedDimensions && IsCoordWord(parts[n]) then WorldCoords
    else if |parts| > n + 1 && IsCoordWord(parts[n + 1]) then WorldCoords
    else ChunkCoords
  }

  /**
   * The corrected argument parsing, used by the Findings lemmas: the coordinate type is settled
   * before any coordinate is converted, and a word in the dimension's place
   * that is neither an allowed dimension nor a coordinate type is refused.
   */
  function ReadArgs(cfg: Config, parts: seq<string>, n: nat): (a: Args)
    requires n == 2 || n == 4
    requires |parts| >= n
    ensures a.ParseError? <==> exists i | 0 <= i < n :: ParseInt(parts[i]).None?
    ensures a.Parsed? ==>
      |a.coords| == n && a.coordType == FinalCoordType(cfg, parts, n) &&
      forall i | 0 <= i < n :: a.coords[i] == Convert(ParseInt(parts[i]).value, a.coordType)
    ensures a.Parsed? ==>
      a.dimension in cfg.allowedDimensions ||
      (a.dimension == "overworld" && (|parts| == n || IsCoordWord(parts[n])))
    ensures a.UnknownDimension? <==>
      (forall i | 0 <= i < n :: ParseInt(parts[i]).Some?) &&
      |parts| > n && Lower(parts[n]) !in cfg.allowedDimensions && !IsCoordWord(parts[n])
  {
    var t := FinalCoordType(cfg, parts, n);
    match ParseCoords(parts[..n], t)
    case None => ParseError
    case Some(c) =>
      if |parts| > n && Lower(parts[n]) !in cfg.allowedDimensions && !IsCoordWord(parts[n]) then
        UnknownDimension(Lower(parts[n]))
      else
        Parsed(c, if |parts| > n && Lower(parts[n]) in cfg.allowedDimensions then Lower(parts[n]) else "overworld", t)
  }

  // ------------------------------------------------------------ state

  /** The world's files, the backup tree's files (path to contents) and the directories that exist. */
  datatype Disk = Disk(world: map<Path, string>, backups: map<Path, string>, dirs: set<Path>)

  /** A deletion waiting for `delete_chunk confirm`. */
  datatype Operation =
    | Single(x: int, z: int, dimension: string, coordType: CoordType)
    | Area(x1: int, z1: int, x2: int, z2: int, dimension: string, count: int, coordType: CoordType)

  datatype OpKind = SingleOp | AreaOp

  /** One entry of `operation_history` (its time stamp and display text are not modelled). */
  datatype Record = Record(user: int, kind: OpKind, dimension: string, success: bool, deletedChunks: nat, deletedPoi: nat)

  /**
   * `workDir` is `[]` until a working directory is detected; `tasks` maps a
   * user to the id of their live confirmation timer, and `nextTimer` is the id
   * the next timer gets.
   */
  datatype State = State(
    config: Config,
    workDir: Path,
    serverType: ServerType,
    disk: Disk,
    pending: map<int, Operation>,
    tasks: map<int, nat>,
    nextTimer: nat,
    history: seq<Record>)

  /** What the config manager offers: working directory, start script, and the jars found in the directory. */
  datatype Site = Site(workingDir: Path, startScript: Path, jars: seq<string>)

  /**
   * `_ensure_server_detected`: a known working directory stays; otherwise the
   * configured one (or the start script's folder) is taken if it exists.
   */
  function EnsureDetected(st: State, site: Option<Site>): (r: (State, bool))
    ensures r.1 <==> |r.0.workDir| > 0
    ensures |st.workDir| > 0 ==> r.0 == st
    ensures r.0 == st || (|st.workDir| == 0 && r.0 == st.(workDir := r.0.workDir, serverType := r.0.serverType) &&
      r.0.workDir in st.disk.dirs && r.0.serverType != Unknown)
  {
    if |st.workDir| == 0 && site.Some? then
      var s := site.value;
      var wd := if |s.workingDir| > 0 then s.workingDir
        else if |s.startScript| > 0 then s.startScript[..|s.startScript| - 1]
        else [];
      if |wd| > 0 && wd in st.disk.dirs then
        (st.(workDir := wd, serverType := DetectServerType(s.jars, st.disk.dirs, wd)), true)
      else (st, false)
    else (st, |st.workDir| > 0)
  }

  // ------------------------------------------------------------ deleting

  /** Does any chunk of the rectangle have a region or POI file? */
  predicate AnyExisting(world: map<Path, string>, wp: Path, lox: int, hix: int, loz: int, hiz: int) {
    exists x, z | lox <= x <= hix && loz <= z <= hiz :: ChunkPath(wp, x, z) in world || PoiPath(wp, x, z) in world
  }

  /** `operation_history[-50:]` once the history is longer than 100 entries. */
  function TrimHistory(h: seq<Record>): (r: seq<Record>)
    ensures |r| <= HistoryLimit
    ensures |r| <= |h| && r == h[|h| - |r|..]
    ensures |h| <= HistoryLimit ==> r == h
    ensures |h| > HistoryLimit ==> |r| == HistoryKeep
  {
    if |h| > HistoryLimit then h[|h| - HistoryKeep..] else h
  }

  datatype Reply =
    | NotConfigured
    | Usage
    | BadArgs
    | BadDimension(dimension: string)
    | NoWorld(dimension: string)
    | NothingThere
    | TooLarge(count: int)
    | AskConfirm(op: Operation)
    | NothingPending
    | Deleted(counts: Counts)
    | AreaDeleted(counts: Counts)
    | Restored(chunk: bool, poi: bool)
    | BackedUp(chunk: bool, poi: bool)

  /** The state after a deletion changed the disk to what the tally holds. */
  function Apply(st: State, t: Tally): State {
    st.(disk := st.disk.(world := t.world, backups := t.backups))
  }

  /** `_execute_chunk_deletion`. */
  function ExecuteSingle(st: State, user: int, x: int, z: int, dim: string, broken: set<Path>): (r: (State, Reply))
    ensures r.0.pending == st.pending && r.0.tasks == st.tasks && r.0.nextTimer == st.nextTimer
    ensures r.0.config == st.config && r.0.workDir == st.workDir && r.0.serverType == st.serverType
    ensures r.0.disk.dirs == st.disk.dirs
    ensures r.1.Deleted? || r.1.NoWorld? || r.1.NothingThere?
    ensures (match WorldPath(st.workDir, st.serverType, dim)
      case None => false
      case Some(wp) => ChunkPath(wp, x, z) in st.disk.world || PoiPath(wp, x, z) in st.disk.world) ==> r.1.Deleted?
    ensures !r.1.Deleted? ==> r.0 == st.(history := st.history + [Record(user, SingleOp, dim, false, 0, 0)])
    ensures r.1.Deleted? ==> 0 < |r.0.history| <= HistoryLimit && r.0.history[|r.0.history| - 1].user == user
  {
    match WorldPath(st.workDir, st.serverType, dim)
    case None => (st.(history := st.history + [Record(user, SingleOp, dim, false, 0, 0)]), NoWorld(dim))
    case Some(wp) =>
      if ChunkPath(wp, x, z) !in st.disk.world && PoiPath(wp, x, z) !in st.disk.world then
        (st.(history := st.history + [Record(user, SingleOp, dim, false, 0, 0)]), NothingThere)
      else
        var t := Cell(Tally(st.disk.world, st.disk.backups, NoCounts), Job(st.workDir, wp, dim, st.config.backupBeforeDelete, broken), x, z);
        var c := t.counts;
        var rec := Record(user, SingleOp, dim, c.deletedChunks + c.deletedPoi > 0, c.deletedChunks, c.deletedPoi);
        (Apply(st, t).(history := TrimHistory(st.history + [rec])), Deleted(c))
  }

  /** `_execute_area_deletion`; its record is appended without trimming the history. */
  function ExecuteArea(st: State, user: int, x1: int, z1: int, x2: int, z2: int, dim: string, broken: set<Path>): (r: (State, Reply))
    ensures r.0.pending == st.pending && r.0.tasks == st.tasks && r.0.nextTimer == st.nextTimer
    ensures r.0.config == st.config && r.0.workDir == st.workDir && r.0.serverType == st.serverType
    ensures r.0.disk.dirs == st.disk.dirs
    ensures r.1.AreaDeleted? || r.1.NoWorld?
    ensures r.1.NoWorld? <==> WorldPath(st.workDir, st.serverType, dim).None?
    ensures |r.0.history| == |st.history| + 1 && r.0.history[..|st.history|] == st.history
    ensures r.1.NoWorld? ==> r.0.disk == st.disk
  {
    match WorldPath(st.workDir, st.serverType, dim)
    case None => (st.(history := st.history + [Record(user, AreaOp, dim, false, 0, 0)]), NoWorld(dim))
    case Some(wp) =>
      var job := Job(st.workDir, wp, dim, st.config.backupBeforeDelete, broken);
      var t := Rows(Tally(st.disk.world, st.disk.backups, NoCounts), job, Min(x1, x2), Max(x1, x2), Min(z1, z2), Max(z1, z2));
      var c := t.counts;
      var rec := Record(user, AreaOp, dim, c.deletedChunks > 0 || c.deletedPoi > 0, c.deletedChunks, c.deletedPoi);
      (Apply(st, t).(history := st.history + [rec]), AreaDeleted(c))
  }

  // ------------------------------------------------------------ confirmations

  /**
   * `_request_*_confirmation` with `_create_confirmation_timeout_task`: the
   * operation replaces any earlier one of the user, and a fresh timer replaces
   * (cancels) the earlier timer.
   */
  function Ask(st: State, user: int, op: Operation): (r: (State, Reply))
    ensures r.1 == AskConfirm(op)
    ensures r.0.pending == st.pending[user := op] && r.0.tasks == st.tasks[user := st.nextTimer]
    ensures r.0.nextTimer == st.nextTimer + 1
    ensures r.0 == st.(pending := r.0.pending, tasks := r.0.tasks, nextTimer := r.0.nextTimer)
  {
    (st.(pending := st.pending[user := op], tasks := st.tasks[user := st.nextTimer], nextTimer := st.nextTimer + 1), AskConfirm(op))
  }

  /** `_confirm_operation`: pop the user's operation, cancel its timer, carry it out. */
  function Confirm(st: State, user: int, broken: set<Path>): (r: (State, Reply))
    ensures user !in st.pending ==> r == (st, NothingPending)
    ensures user in st.pending ==> r.0.pending == st.pending - {user} && r.0.tasks == st.tasks - {user}
    ensures r.0.nextTimer == st.nextTimer && r.0.config == st.config
  {
    if user !in st.pending then (st, NothingPending)
    else
      var s := st.(pending := st.pending - {user}, tasks := st.tasks - {user});
      match st.pending[user]
      case Single(x, z, dim, _) => ExecuteSingle(s, user, x, z, dim, broken)
      case Area(x1, z1, x2, z2, dim, _, _) => ExecuteArea(s, user, x1, z1, x2, z2, dim, broken)
  }

  /**
   * `_handle_confirmation_timeout` for the timer `id` of `user`, once its
   * sleep is over. A cancelled timer never gets here, so only the live one acts.
   */
  function Timeout(st: State, user: int, id: nat): (r: State)
    ensures (user in st.tasks && st.tasks[user] == id && user in st.pending) ==>
      r == st.(pending := st.pending - {user}, tasks := st.tasks - {user})
    ensures !(user in st.tasks && st.tasks[user] == id && user in st.pending) ==> r == st
  {
    if user in st.tasks && st.tasks[user] == id && user in st.pending then
      st.(pending := st.pending - {user}, tasks := st.tasks - {user})
    else st
  }

  /** Server start, server stop and unloading drop every pending operation and cancel every timer. */
  function ClearPending(st: State): (r: State)
    ensures r.pending == map[] && r.tasks == map[]
    ensures r == st.(pending := map[], tasks := map[])
  {
    st.(pending := map[], tasks := map[])
  }

  // ------------------------------------------------------------ restoring and backing up

  /** `_execute_chunk_restoration`: copy each backup that exists back over its world file. */
  function ExecuteRestore(st: State, x: int, z: int, dim: string): (r: (State, Reply))
    ensures r.0 == st.(disk := r.0.disk)
    ensures r.0.disk.backups == st.disk.backups
    ensures r.1.Restored? || r.1 == NoWorld(dim)
  {
    match WorldPath(st.workDir, st.serverType, dim)
    case None => (st, NoWorld(dim))
    case Some(wp) =>
      var d := st.disk;
      var cb := BackupLookup(st.workDir, dim, RegionFile, x, z);
      var pb := BackupLookup(st.workDir, dim, PoiFile, x, z);
      var w1 := if cb in d.backups then d.world[ChunkPath(wp, x, z) := d.backups[cb]] else d.world;
      var s1 := if cb in d.backups then d.dirs + Ancestry(wp + ["region"]) else d.dirs;
      var w2 := if pb in d.backups then w1[PoiPath(wp, x, z) := d.backups[pb]] else w1;
      var s2 := if pb in d.backups then s1 + Ancestry(wp + ["poi"]) else s1;
      (st.(disk := Disk(w2, d.backups, s2)), Restored(cb in d.backups, pb in d.backups))
  }

  /** `_execute_chunk_backup`: copy whichever of the two files exists. */
  function ExecuteBackup(st: State, x: int, z: int, dim: string): (r: (State, Reply))
    ensures r.0 == st.(disk := r.0.disk)
    ensures r.0.disk.world == st.disk.world && r.0.disk.dirs == st.disk.dirs
    ensures r.1.BackedUp? || r.1 == NoWorld(dim) || r.1 == NothingThere
    ensures !r.1.BackedUp? ==> r.0 == st
  {
    match WorldPath(st.workDir, st.serverType, dim)
    case None => (st, NoWorld(dim))
    case Some(wp) =>
      var d := st.disk;
      var cp := ChunkPath(wp, x, z);
      var pp := PoiPath(wp, x, z);
      if cp !in d.world && pp !in d.world then (st, NothingThere)
      else
        var b := Copy(Copy(d.backups, d.world, st.workDir, dim, RegionFile, cp), d.world, st.workDir, dim, PoiFile, pp);
        (st.(disk := d.(backups := b)), BackedUp(cp in d.world, pp in d.world))
  }

  // ------------------------------------------------------------ commands

  /** The replies that refuse a command; none of them changes anything but the detected server. */
  predicate Refusal(r: Reply) {
    r.NotConfigured? || r.Usage? || r.BadArgs? || r.BadDimension? || r.NoWorld? || r.NothingThere? || r.TooLarge?
  }

  /** `parts[0].lower() == "confirm"`. */
  predicate IsConfirm(parts: seq<string>) {
    |parts| > 0 && Lower(parts[0]) == "confirm"
  }

  /** `handle_delete_chunk`: a confirmation, or a request for one chunk. */
  function DeleteChunk(st: State, user: int, text: string, site: Option<Site>, broken: set<Path>): (r: (State, Reply))
    ensures !EnsureDetected(st, site).1 ==> r == (EnsureDetected(st, site).0, NotConfigured)
    ensures EnsureDetected(st, site).1 && IsConfirm(Split(Strip(text))) ==> r == Confirm(EnsureDetected(st, site).0, user, broken)
    ensures !IsConfirm(Split(Strip(text))) ==> Refusal(r.1) || r.1.AskConfirm? || r.1.Deleted?
    ensures !IsConfirm(Split(Strip(text))) && Refusal(r.1) ==> r.0 == EnsureDetected(st, site).0
    ensures r.1.AskConfirm? ==>
      r.1.op.Single? && r.1.op.dimension in st.config.allowedDimensions &&
      r.0 == Ask(EnsureDetected(st, site).0, user, r.1.op).0
  {
    var (s, ok) := EnsureDetected(st, site);
    var parts := Split(Strip(text));
    if !ok then (s, NotConfigured)
    else if IsConfirm(parts) then Confirm(s, user, broken)
    else if |parts| < 2 then (s, Usage)
    else SingleRequest(s, user, parts, broken)
  }

  /** The checks of `handle_delete_chunk` after the usage check, in order. */
  function SingleRequest(s: State, user: int, parts: seq<string>, broken: set<Path>): (r: (State, Reply))
    requires |parts| >= 2
    ensures Refusal(r.1) || r.1.AskConfirm? || r.1.Deleted?
    ensures Refusal(r.1) ==> r.0 == s
    ensures r.1.AskConfirm? ==>
      r.1.op.Single? && r.1.op.dimension in s.config.allowedDimensions && r.0 == Ask(s, user, r.1.op).0
  {
    var a := ReadArgsAsWritten(s.config, parts, 2);
    if !a.Parsed? then (s, BadArgs)
    else if a.dimension !in s.config.allowedDimensions then (s, BadDimension(a.dimension))
    else SingleAt(s, user, a.coords[0], a.coords[1], a.dimension, a.coordType, broken)
  }

  /** The checks of `handle_delete_chunk` once the chunk and an allowed dimension are read. */
  function SingleAt(s: State, user: int, x: int, z: int, dim: string, t: CoordType, broken: set<Path>): (r: (State, Reply))
    requires dim in s.config.allowedDimensions
    ensures Refusal(r.1) || r.1.AskConfirm? || r.1.Deleted?
    ensures Refusal(r.1) ==> r.0 == s
    ensures r.1.AskConfirm? ==> r.1.op == Single(x, z, dim, t) && r.0 == Ask(s, user, r.1.op).0
  {
    match WorldPath(s.workDir, s.serverType, dim)
    case None => (s, NoWorld(dim))
    case Some(wp) =>
      if wp !in s.disk.dirs then (s, NoWorld(dim))
      else if ChunkPath(wp, x, z) !in s.disk.world && PoiPath(wp, x, z) !in s.disk.world then (s, NothingThere)
      else if s.config.requireConfirmation then Ask(s, user, Single(x, z, dim, t))
      else ExecuteSingle(s, user, x, z, dim, broken)
  }

  /** `handle_delete_chunk_area`. */
  function DeleteArea(st: State, user: int, text: string, site: Option<Site>, broken: set<Path>): (r: (State, Reply))
    ensures !EnsureDetected(st, site).1 ==> r == (EnsureDetected(st, site).0, NotConfigured)
    ensures Refusal(r.1) || r.1.AskConfirm? || r.1.AreaDeleted?
    ensures Refusal(r.1) ==> r.0 == EnsureDetected(st, site).0
    ensures r.1.TooLarge? ==> r.1.count > MaxAreaChunks
    ensures r.1.AskConfirm? ==>
      r.1.op.Area? && r.1.op.dimension in st.config.allowedDimensions &&
      r.1.op.count == ChunkCount(r.1.op.x1, r.1.op.z1, r.1.op.x2, r.1.op.z2) <= MaxAreaChunks &&
      r.0 == Ask(EnsureDetected(st, site).0, user, r.1.op).0
  {
    var (s, ok) := EnsureDetected(st, site);
    var parts := Split(Strip(text));
    if !ok then (s, NotConfigured)
    else if |parts| < 4 then (s, Usage)
    else AreaRequest(s, user, parts, broken)
  }

  /** The checks of `handle_delete_chunk_area` after the usage check, in order. */
  function AreaRequest(s: State, user: int, parts: seq<string>, broken: set<Path>): (r: (State, Reply))
    requires |parts| >= 4
    ensures Refusal(r.1) || r.1.AskConfirm? || r.1.AreaDeleted?
    ensures Refusal(r.1) ==> r.0 == s
    ensures r.1.TooLarge? ==> r.1.count > MaxAreaChunks
    ensures r.1.AskConfirm? ==>
      r.1.op.Area? && r.1.op.dimension in s.config.allowedDimensions &&
      r.1.op.count == ChunkCount(r.1.op.x1, r.1.op.z1, r.1.op.x2, r.1.op.z2) <= MaxAreaChunks &&
      r.0 == Ask(s, user, r.1.op).0
  {
    var a := ReadArgsAsWritten(s.config, parts, 4);
    if !a.Parsed? then (s, BadArgs)
    else
      var (c, dim, t) := (a.coords, a.dimension, a.coordType);
      if dim !in s.config.allowedDimensions then (s, BadDimension(dim))
      else match WorldPath(s.workDir, s.serverType, dim)
        case None => (s, NoWorld(dim))
        case Some(wp) =>
          var n := ChunkCount(c[0], c[1], c[2], c[3]);
          if wp !in s.disk.dirs then (s, NoWorld(dim))
          else if n > MaxAreaChunks then (s, TooLarge(n))
          else if !AnyExisting(s.disk.world, wp, Min(c[0], c[2]), Max(c[0], c[2]), Min(c[1], c[3]), Max(c[1], c[3])) then (s, NothingThere)
          else if s.config.requireConfirmation then Ask(s, user, Area(c[0], c[1], c[2], c[3], dim, n, t))
          else ExecuteArea(s, user, c[0], c[1], c[2], c[3], dim, broken)
  }

  /** `handle_restore_chunk`. */
  function RestoreChunk(st: State, text: string, site: Option<Site>): (r: (State, Reply))
    ensures Refusal(r.1) || r.1.Restored?
    ensures r.0 == EnsureDetected(st, site).0.(disk := r.0.disk)
    ensures r.0.disk.backups == st.disk.backups
  {
    var (s, ok) := EnsureDetected(st, site);
    var parts := Split(Strip(text));
    if !ok then (s, NotConfigured)
    else if |parts| < 2 then (s, Usage)
    else
      var a := ReadArgsAsWritten(s.config, parts, 2);
      if !a.Parsed? then (s, BadArgs)
      else ExecuteRestore(s, a.coords[0], a.coords[1], a.dimension)
  }

  /** `handle_backup_chunk`. */
  function BackupChunk(st: State, text: string, site: Option<Site>): (r: (State, Reply))
    ensures Refusal(r.1) || r.1.BackedUp?
    ensures r.0 == EnsureDetected(st, site).0.(disk := r.0.disk)
    ensures r.0.disk.world == st.disk.world
  {
    var (s, ok) := EnsureDetected(st, site);
    var parts := Split(Strip(text));
    if !ok then (s, NotConfigured)
    else if |parts| < 2 then (s, Usage)
    else
      var a := ReadArgsAsWritten(s.config, parts, 2);
      if !a.Parsed? then (s, BadArgs)
      else ExecuteBackup(s, a.coords[0], a.coords[1], a.dimension)
  }
}

=== FILE: chunk_deleter_props.dfy ===
/**
 * Properties of the chunk deleter: how the handlers read their arguments (and
 * the two places where the code's own reading goes wrong), what a single and
 * an area deletion do to the disk, the backup/restore round trips, and the
 * pending-confirmation state machine.
 */
module ChunkDeleterProps {
  import opened Wrappers
  import opened Text
  import opened ChunkPaths
  import opened ChunkSweep
  import opened ChunkDeleter

  // ------------------------------------------------------------ reading arguments

  lemma LowerKeeps(s: string)
    requires forall i | 0 <= i < |s| :: !('A' <= s[i] <= 'Z')
    ensures Lower(s) == s
  {
  }

  lemma SmallNumbers()
    ensures ParseInt("0") == Some(0) && ParseInt("1") == Some(1) && ParseInt("2") == Some(2)
    ensures ParseInt("160") == Some(160) && ParseInt("320") == Some(320) && ParseInt("9") == Some(9)
  {
    assert "160"[..2] == "16" && "16"[..1] == "1";
    assert "320"[..2] == "32" && "32"[..1] == "3";
  }

  lemma Words()
    ensures IsCoordWord("world") && !IsCoordWord("overworld") && !IsCoordWord("nethr")
    ensures Lower("overworld") == "overworld" && Lower("nethr") == "nethr"
    ensures !IsCoordWord("0") && !IsCoordWord("1") && !IsCoordWord("2") && !IsCoordWord("9") && !IsCoordWord("160") && !IsCoordWord("320")
  {
    LowerKeeps("world");
    LowerKeeps("overworld");
    LowerKeeps("nethr");
    LowerKeeps("0");
    LowerKeeps("1");
    LowerKeeps("2");
    LowerKeeps("9");
    LowerKeeps("160");
    LowerKeeps("320");
  }

  /** Two words that parse read as two coordinates of the given type. */
  lemma ParseTwo(a: string, b: string, x: int, y: int, t: CoordType)
    requires ParseInt(a) == Some(x) && ParseInt(b) == Some(y)
    ensures ParseCoords([a, b], t) == Some([Convert(x, t), Convert(y, t)])
  {
    assert [a, b][1..] == [b];
    assert [b][1..] == [];
    assert ParseCoords([b], t) == Some([Convert(y, t)] + []);
    assert [Convert(x, t)] + ([Convert(y, t)] + []) == [Convert(x, t), Convert(y, t)];
  }

  /** Four words that parse read as four coordinates of the given type. */
  lemma ParseFour(a: string, b: string, c: string, d: string, x: int, y: int, z: int, w: int, t: CoordType)
    requires ParseInt(a) == Some(x) && ParseInt(b) == Some(y) && ParseInt(c) == Some(z) && ParseInt(d) == Some(w)
    ensures ParseCoords([a, b, c, d], t) == Some([Convert(x, t), Convert(y, t), Convert(z, t), Convert(w, t)])
  {
    assert [a, b, c, d][1..] == [b, c, d];
    assert [b, c, d][1..] == [c, d];
    ParseTwo(c, d, z, w, t);
    assert ParseCoords([b, c, d], t) == Some([Convert(y, t)] + [Convert(z, t), Convert(w, t)]);
    assert [Convert(y, t)] + [Convert(z, t), Convert(w, t)] == [Convert(y, t), Convert(z, t), Convert(w, t)];
    assert [Convert(x, t)] + [Convert(y, t), Convert(z, t), Convert(w, t)] == [Convert(x, t), Convert(y, t), Convert(z, t), Convert(w, t)];
  }

  /** The words of `delete_chunk 160 320 world`, and what they parse to. */
  lemma LateWords(parts: seq<string>)
    requires parts == ["160", "320", "world"]
    ensures parts[..2] == ["160", "320"] && |parts| == 3
    ensures Lower(parts[2]) !in Defaults.allowedDimensions && IsCoordWord(parts[2])
    ensures CoordTypeOf(parts) == ChunkCoords && FinalCoordType(Defaults, parts, 2) == WorldCoords
  {
    Words();
    LowerKeeps("world");
  }

  /**
   * As written, `delete_chunk 160 320 world` converts nothing: the word
   * `world` is read as the coordinate type only after the coordinates were
   * taken as chunk coordinates, so chunk (160, 320) is targeted instead of the
   * chunk that holds block (160, 320).
   */
  lemma LateCoordTypeAsWritten()
    ensures ReadArgsAsWritten(Defaults, ["160", "320", "world"], 2) == Parsed([160, 320], "overworld", WorldCoords)
  {
    var parts := ["160", "320", "world"];
    LateWords(parts);
    SmallNumbers();
    ParseTwo("160", "320", 160, 320, ChunkCoords);
  }

  /** Read correctly, block (160, 320) is in chunk (10, 20). */
  lemma LateCoordTypeCorrected()
    ensures ReadArgs(Defaults, ["160", "320", "world"], 2) == Parsed([10, 20], "overworld", WorldCoords)
  {
    var parts := ["160", "320", "world"];
    LateWords(parts);
    SmallNumbers();
    ParseTwo("160", "320", 160, 320, WorldCoords);
  }

  /** The words of `delete_chunk_area 0 0 9 9 overworld world`, and what they parse to. */
  lemma AreaWords(parts: seq<string>)
    requires parts == ["0", "0", "9", "9", "overworld", "world"]
    ensures parts[..4] == ["0", "0", "9", "9"] && |parts| == 6
    ensures Lower(parts[4]) == "overworld" && "overworld" in Defaults.allowedDimensions
    ensures !IsCoordWord(parts[4]) && IsCoordWord(parts[5])
    ensures CoordTypeOf(parts) == ChunkCoords && FinalCoordType(Defaults, parts, 4) == WorldCoords
  {
    Words();
  }

  /**
   * As written, the documented area form with both a dimension and a
   * coordinate type, `delete_chunk_area 0 0 9 9 overworld world`, never
   * converts its coordinates: it asks for the 100 chunks (0, 0) to (9, 9)
   * instead of the one chunk that holds blocks (0, 0) to (9, 9).
   */
  lemma AreaCoordTypeAsWritten()
    ensures ReadArgsAsWritten(Defaults, ["0", "0", "9", "9", "overworld", "world"], 4) == Parsed([0, 0, 9, 9], "overworld", WorldCoords)
    ensures ChunkCount(0, 0, 9, 9) == 100
  {
    var parts := ["0", "0", "9", "9", "overworld", "world"];
    AreaWords(parts);
    SmallNumbers();
    ParseFour("0", "0", "9", "9", 0, 0, 9, 9, ChunkCoords);
  }

  /** Read correctly, blocks (0, 0) to (9, 9) all lie in chunk (0, 0). */
  lemma AreaCoordTypeCorrected()
    ensures ReadArgs(Defaults, ["0", "0", "9", "9", "overworld", "world"], 4) == Parsed([0, 0, 0, 0], "overworld", WorldCoords)
    ensures ChunkCount(0, 0, 0, 0) == 1
  {
    var parts := ["0", "0", "9", "9", "overworld", "world"];
    AreaWords(parts);
    SmallNumbers();
    ParseFour("0", "0", "9", "9", 0, 0, 9, 9, WorldCoords);
  }

  /** The words of `delete_chunk 1 2 nethr`, and what they parse to. */
  lemma TypoWords(parts: seq<string>)
    requires parts == ["1", "2", "nethr"]
    ensures parts[..2] == ["1", "2"] && |parts| == 3
    ensures Lower(parts[2]) == "nethr" && "nethr" !in Defaults.allowedDimensions && !IsCoordWord(parts[2])
    ensures CoordTypeOf(parts) == ChunkCoords && FinalCoordType(Defaults, parts, 2) == ChunkCoords
  {
    Words();
  }

  /**
   * As written, a mistyped dimension (`delete_chunk 1 2 nethr`) is dropped
   * without a word and the command is read as one for the overworld; the
   * "unsupported dimension" refusal can only fire when the overworld itself
   * is not allowed.
   */
  lemma TypoDimensionAsWritten()
    ensures ReadArgsAsWritten(Defaults, ["1", "2", "nethr"], 2) == Parsed([1, 2], "overworld", ChunkCoords)
  {
    var parts := ["1", "2", "nethr"];
    TypoWords(parts);
    SmallNumbers();
    ParseTwo("1", "2", 1, 2, ChunkCoords);
  }

  lemma TypoDimensionCorrected()
    ensures ReadArgs(Defaults, ["1", "2", "nethr"], 2) == UnknownDimension("nethr")
  {
    var parts := ["1", "2", "nethr"];
    TypoWords(parts);
    SmallNumbers();
    ParseTwo("1", "2", 1, 2, ChunkCoords);
  }

  /**
   * The code's reading leaves the coordinates as typed whenever the fourth
   * and fifth words do not ask for world coordinates, even when a later word
   * turns the type to world coordinates.
   */
  lemma AsWrittenConvertsEarlyOnly(cfg: Config, parts: seq<string>, n: nat)
    requires n == 2 || n == 4
    requires |parts| >= n
    requires ReadArgsAsWritten(cfg, parts, n).Parsed? && CoordTypeOf(parts) == ChunkCoords
    ensures forall i | 0 <= i < n :: ReadArgsAsWritten(cfg, parts, n).coords[i] == ParseInt(parts[i]).value
  {
    assert parts[..n] == parts[..n];
    forall i | 0 <= i < n
      ensures ReadArgsAsWritten(cfg, parts, n).coords[i] == ParseInt(parts[i]).value
    {
      assert parts[..n][i] == parts[i];
    }
  }

  /**
   * The corrected reading agrees with the code's wherever the code reads
   * correctly: no word after the coordinates switches the type late, and the
   * word in the dimension's place (if any) is a dimension or a coordinate type.
   */
  lemma CorrectionConservative(cfg: Config, parts: seq<string>, n: nat)
    requires n == 2 || n == 4
    requires |parts| >= n
    requires ReadArgsAsWritten(cfg, parts, n).Parsed? ==> ReadArgsAsWritten(cfg, parts, n).coordType == CoordTypeOf(parts)
    requires |parts| > n ==> Lower(parts[n]) in cfg.allowedDimensions || IsCoordWord(parts[n])
    ensures ReadArgs(cfg, parts, n) == ReadArgsAsWritten(cfg, parts, n)
  {
    var t := CoordTypeOf(parts);
    if ParseCoords(parts[..n], t).Some? {
      assert FinalCoordType(cfg, parts, n) == t;
    } else {
      assert exists i | 0 <= i < n :: ParseInt(parts[i]).None? by {
        var i :| 0 <= i < |parts[..n]| && !ParseInt(parts[..n][i]).Some?;
        assert parts[..n][i] == parts[i];
      }
    }
  }

  // ------------------------------------------------------------ deleting one chunk

  /**
   * A single deletion removes the chunk's region and POI file unless their
   * removal raises, changes no other world file, first copies each existing
   * file to the backup that restore looks up (when backups are on), and counts
   * what it removed.
   */
  lemma SingleDeletionEffect(st: State, user: int, x: int, z: int, dim: string, broken: set<Path>)
    requires WorldPath(st.workDir, st.serverType, dim).Some?
    ensures var wp := WorldPath(st.workDir, st.serverType, dim).value;
      var cp := ChunkPath(wp, x, z);
      var pp := PoiPath(wp, x, z);
      var r := ExecuteSingle(st, user, x, z, dim, broken);
      (r.1.Deleted? <==> cp in st.disk.world || pp in st.disk.world) &&
      (cp in r.0.disk.world <==> cp in st.disk.world && cp in broken) &&
      (pp in r.0.disk.world <==> pp in st.disk.world && pp in broken) &&
      (forall p | p != cp && p != pp :: p in r.0.disk.world <==> p in st.disk.world) &&
      (forall p | p in r.0.disk.world :: r.0.disk.world[p] == st.disk.world[p]) &&
      (st.config.backupBeforeDelete && cp in st.disk.world ==>
        r.0.disk.backups[BackupLookup(st.workDir, dim, RegionFile, x, z)] == st.disk.world[cp]) &&
      (st.config.backupBeforeDelete && pp in st.disk.world ==>
        r.0.disk.backups[BackupLookup(st.workDir, dim, PoiFile, x, z)] == st.disk.world[pp]) &&
      (r.1.Deleted? ==>
        r.1.counts.deletedChunks == (if cp in st.disk.world && cp !in broken then 1 else 0) &&
        r.1.counts.deletedPoi == (if pp in st.disk.world && pp !in broken then 1 else 0))
  {
    var wp := WorldPath(st.workDir, st.serverType, dim).value;
    var cp := ChunkPath(wp, x, z);
    var pp := PoiPath(wp, x, z);
    SameRegionFile(wp, x, z, x, z);
    BackupRoundTrip(st.workDir, wp, dim, x, z);
  }

  // ------------------------------------------------------------ deleting an area

  /** The job an area deletion in `dim` runs, over the disk as it stands. */
  function AreaJob(st: State, dim: string, broken: set<Path>): Job
    requires WorldPath(st.workDir, st.serverType, dim).Some?
  {
    Job(st.workDir, WorldPath(st.workDir, st.serverType, dim).value, dim, st.config.backupBeforeDelete, broken)
  }

  /** The tally the loop of an area deletion ends with. */
  function AreaTally(st: State, x1: int, z1: int, x2: int, z2: int, dim: string, broken: set<Path>): Tally
    requires WorldPath(st.workDir, st.serverType, dim).Some?
  {
    Rows(Tally(st.disk.world, st.disk.backups, NoCounts), AreaJob(st, dim, broken), Min(x1, x2), Max(x1, x2), Min(z1, z2), Max(z1, z2))
  }

  lemma AreaOutcome(st: State, user: int, x1: int, z1: int, x2: int, z2: int, dim: string, broken: set<Path>)
    requires WorldPath(st.workDir, st.serverType, dim).Some?
    ensures var r := ExecuteArea(st, user, x1, z1, x2, z2, dim, broken);
      var t := AreaTally(st, x1, z1, x2, z2, dim, broken);
      r.1 == AreaDeleted(t.counts) && r.0.disk.world == t.world && r.0.disk.backups == t.backups
  {
    var wp := WorldPath(st.workDir, st.serverType, dim).value;
    assert AreaJob(st, dim, broken) == Job(st.workDir, wp, dim, st.config.backupBeforeDelete, broken);
    var t := AreaTally(st, x1, z1, x2, z2, dim, broken);
    var r := ExecuteArea(st, user, x1, z1, x2, z2, dim, broken);
    assert r.1 == AreaDeleted(t.counts);
    assert r.0.disk.world == t.world;
  }

  /**
   * An area deletion clears every chunk of the rectangle: only a file whose
   * removal raised can remain, and then a failure was counted.
   */
  lemma AreaDeletionClears(st: State, user: int, x1: int, z1: int, x2: int, z2: int, dim: string, broken: set<Path>)
    requires WorldPath(st.workDir, st.serverType, dim).Some?
    ensures var wp := WorldPath(st.workDir, st.serverType, dim).value;
      var r := ExecuteArea(st, user, x1, z1, x2, z2, dim, broken);
      r.1.AreaDeleted? &&
      forall x, z | Min(x1, x2) <= x <= Max(x1, x2) && Min(z1, z2) <= z <= Max(z1, z2) ::
        (ChunkPath(wp, x, z) in r.0.disk.world ==> ChunkPath(wp, x, z) in broken && r.1.counts.failedChunks > 0) &&
        (PoiPath(wp, x, z) in r.0.disk.world ==> PoiPath(wp, x, z) in broken && r.1.counts.failedPoi > 0)
  {
    AreaOutcome(st, user, x1, z1, x2, z2, dim, broken);
    var job := AreaJob(st, dim, broken);
    var t := AreaTally(st, x1, z1, x2, z2, dim, broken);
    RowsClear(Tally(st.disk.world, st.disk.backups, NoCounts), job, Min(x1, x2), Max(x1, x2), Min(z1, z2), Max(z1, z2));
    forall x, z | Min(x1, x2) <= x <= Max(x1, x2) && Min(z1, z2) <= z <= Max(z1, z2)
      ensures var wp := WorldPath(st.workDir, st.serverType, dim).value;
        var r := ExecuteArea(st, user, x1, z1, x2, z2, dim, broken);
        (ChunkPath(wp, x, z) in r.0.disk.world ==> ChunkPath(wp, x, z) in broken && r.1.counts.failedChunks > 0) &&
        (PoiPath(wp, x, z) in r.0.disk.world ==> PoiPath(wp, x, z) in broken && r.1.counts.failedPoi > 0)
    {
      assert Gone(t, job, x, z);
      assert job.worldPath == WorldPath(st.workDir, st.serverType, dim).value && job.broken == broken;
    }
  }

  /**
   * An area deletion removes only region and POI files of chunks of the
   * rectangle and changes the contents of no file it keeps.
   */
  lemma AreaDeletionTouches(st: State, user: int, x1: int, z1: int, x2: int, z2: int, dim: string, broken: set<Path>)
    requires WorldPath(st.workDir, st.serverType, dim).Some?
    ensures var wp := WorldPath(st.workDir, st.serverType, dim).value;
      var out := ExecuteArea(st, user, x1, z1, x2, z2, dim, broken).0;
      (forall p | p in st.disk.world && p !in out.disk.world :: Targeted(wp, p, Min(x1, x2), Max(x1, x2), Min(z1, z2), Max(z1, z2))) &&
      (forall p | p in out.disk.world :: p in st.disk.world && out.disk.world[p] == st.disk.world[p])
  {
    AreaOutcome(st, user, x1, z1, x2, z2, dim, broken);
    var t0 := Tally(st.disk.world, st.disk.backups, NoCounts);
    RowsTouch(t0, AreaJob(st, dim, broken), Min(x1, x2), Max(x1, x2), Min(z1, z2), Max(z1, z2));
    RowsShrunk(t0, AreaJob(st, dim, broken), Min(x1, x2), Max(x1, x2), Min(z1, z2), Max(z1, z2));
  }

  /**
   * An area deletion counts at most one deletion or failure per chunk of the
   * rectangle for each kind of file, and no failure when no removal raises.
   */
  lemma AreaDeletionCounts(st: State, user: int, x1: int, z1: int, x2: int, z2: int, dim: string, broken: set<Path>)
    requires WorldPath(st.workDir, st.serverType, dim).Some?
    ensures var c := ExecuteArea(st, user, x1, z1, x2, z2, dim, broken).1.counts;
      c.deletedChunks + c.failedChunks <= ChunkCount(x1, z1, x2, z2) &&
      c.deletedPoi + c.failedPoi <= ChunkCount(x1, z1, x2, z2) &&
      (broken == {} ==> c.failedChunks == 0 && c.failedPoi == 0)
  {
    AreaOutcome(st, user, x1, z1, x2, z2, dim, broken);
    var lox, hix, loz, hiz := Min(x1, x2), Max(x1, x2), Min(z1, z2), Max(z1, z2);
    RowsCounts(Tally(st.disk.world, st.disk.backups, NoCounts), AreaJob(st, dim, broken), lox, hix, loz, hiz);
    assert ChunkCount(x1, z1, x2, z2) == (hix + 1 - lox) * (hiz + 1 - loz);
  }

  /** Without removal errors, no region or POI file of any chunk of the rectangle is left. */
  lemma AreaWithoutErrorsClears(st: State, user: int, x1: int, z1: int, x2: int, z2: int, dim: string, broken: set<Path>, x: int, z: int)
    requires WorldPath(st.workDir, st.serverType, dim).Some?
    requires ExecuteArea(st, user, x1, z1, x2, z2, dim, broken).1.counts.failedChunks == 0
    requires ExecuteArea(st, user, x1, z1, x2, z2, dim, broken).1.counts.failedPoi == 0
    requires Min(x1, x2) <= x <= Max(x1, x2) && Min(z1, z2) <= z <= Max(z1, z2)
    ensures var wp := WorldPath(st.workDir, st.serverType, dim).value;
      var out := ExecuteArea(st, user, x1, z1, x2, z2, dim, broken).0;
      ChunkPath(wp, x, z) !in out.disk.world && PoiPath(wp, x, z) !in out.disk.world
  {
    AreaDeletionClears(st, user, x1, z1, x2, z2, dim, broken);
  }

  /** The rectangle's size does not depend on which corners are named first. */
  lemma ChunkCountCorners(x1: int, z1: int, x2: int, z2: int)
    ensures ChunkCount(x1, z1, x2, z2) == ChunkCount(x2, z2, x1, z1) == ChunkCount(x1, z2, x2, z1)
  {
  }

  // ------------------------------------------------------------ backup and restore

  /** With backups on, restoring right after a deletion puts back what was deleted. */
  lemma DeleteThenRestore(st: State, user: int, x: int, z: int, dim: string, broken: set<Path>)
    requires WorldPath(st.workDir, st.serverType, dim).Some?
    requires st.config.backupBeforeDelete
    ensures var wp := WorldPath(st.workDir, st.serverType, dim).value;
      var cp := ChunkPath(wp, x, z);
      var pp := PoiPath(wp, x, z);
      var s1 := ExecuteSingle(st, user, x, z, dim, broken).0;
      var r := ExecuteRestore(s1, x, z, dim);
      r.1.Restored? &&
      (cp in st.disk.world ==> r.1.chunk && cp in r.0.disk.world && r.0.disk.world[cp] == st.disk.world[cp]) &&
      (pp in st.disk.world ==> r.1.poi && pp in r.0.disk.world && r.0.disk.world[pp] == st.disk.world[pp])
  {
    var wp := WorldPath(st.workDir, st.serverType, dim).value;
    SingleDeletionEffect(st, user, x, z, dim, broken);
    SameRegionFile(wp, x, z, x, z);
  }

  /** A manual backup, any single deletion, then a restore: the region file comes back as it was. */
  lemma BackupDeleteRestore(st: State, user: int, x: int, z: int, dim: string, broken: set<Path>)
    requires WorldPath(st.workDir, st.serverType, dim).Some?
    ensures var wp := WorldPath(st.workDir, st.serverType, dim).value;
      var cp := ChunkPath(wp, x, z);
      var s1 := ExecuteBackup(st, x, z, dim).0;
      var s2 := ExecuteSingle(s1, user, x, z, dim, broken).0;
      var r := ExecuteRestore(s2, x, z, dim);
      cp in st.disk.world ==> r.1.Restored? && r.1.chunk && r.0.disk.world[cp] == st.disk.world[cp]
  {
    var wp := WorldPath(st.workDir, st.serverType, dim).value;
    var cp := ChunkPath(wp, x, z);
    SameRegionFile(wp, x, z, x, z);
    BackupRoundTrip(st.workDir, wp, dim, x, z);
    var s1 := ExecuteBackup(st, x, z, dim).0;
    SingleDeletionEffect(s1, user, x, z, dim, broken);
  }

  // ------------------------------------------------------------ confirmations

  /**
   * Every pending operation has its live timer and every timer its pending
   * operation; timer ids are below the next one to be handed out; a pending
   * area deletion is within the size limit.
   */
  ghost predicate Valid(st: State) {
    st.pending.Keys == st.tasks.Keys &&
    (forall u | u in st.tasks :: st.tasks[u] < st.nextTimer) &&
    (forall u | u in st.pending && st.pending[u].Area? ::
      st.pending[u].count == ChunkCount(st.pending[u].x1, st.pending[u].z1, st.pending[u].x2, st.pending[u].z2) <= MaxAreaChunks)
  }

  lemma DetectKeeps(st: State, site: Option<Site>)
    requires Valid(st)
    ensures Valid(EnsureDetected(st, site).0)
  {
  }

  lemma AskKeeps(st: State, user: int, op: Operation)
    requires Valid(st)
    requires op.Area? ==> op.count == ChunkCount(op.x1, op.z1, op.x2, op.z2) <= MaxAreaChunks
    ensures Valid(Ask(st, user, op).0)
  {
  }

  lemma ConfirmKeeps(st: State, user: int, broken: set<Path>)
    requires Valid(st)
    ensures Valid(Confirm(st, user, broken).0)
  {
  }

  lemma TimeoutKeeps(st: State, user: int, id: nat)
    requires Valid(st)
    ensures Valid(Timeout(st, user, id))
  {
  }

  lemma ClearKeeps(st: State)
    ensures Valid(ClearPending(st))
  {
  }

  lemma SingleRequestKeeps(s: State, user: int, parts: seq<string>, broken: set<Path>)
    requires |parts| >= 2 && Valid(s)
    ensures Valid(SingleRequest(s, user, parts, broken).0)
  {
  }

  lemma AreaRequestKeeps(s: State, user: int, parts: seq<string>, broken: set<Path>)
    requires |parts| >= 4 && Valid(s)
    ensures Valid(AreaRequest(s, user, parts, broken).0)
  {
    var r := AreaRequest(s, user, parts, broken);
    if r.1.AskConfirm? {
      AskKeeps(s, user, r.1.op);
    }
  }

  /** `delete_chunk`, in any form, keeps the confirmation bookkeeping consistent. */
  lemma DeleteChunkKeeps(st: State, user: int, text: string, site: Option<Site>, broken: set<Path>)
    requires Valid(st)
    ensures Valid(DeleteChunk(st, user, text, site, broken).0)
  {
    var s := EnsureDetected(st, site).0;
    DetectKeeps(st, site);
    var parts := Split(Strip(text));
    if EnsureDetected(st, site).1 && IsConfirm(parts) {
      ConfirmKeeps(s, user, broken);
    } else if EnsureDetected(st, site).1 && |parts| >= 2 {
      SingleRequestKeeps(s, user, parts, broken);
    }
  }

  /** `delete_chunk_area` keeps the confirmation bookkeeping consistent. */
  lemma DeleteAreaKeeps(st: State, user: int, text: string, site: Option<Site>, broken: set<Path>)
    requires Valid(st)
    ensures Valid(DeleteArea(st, user, text, site, broken).0)
  {
    var s := EnsureDetected(st, site).0;
    DetectKeeps(st, site);
    var parts := Split(Strip(text));
    if EnsureDetected(st, site).1 && |parts| >= 4 {
      AreaRequestKeeps(s, user, parts, broken);
    }
  }

  /** Restoring and backing up leave the pending operations alone. */
  lemma RestoreBackupKeep(st: State, text: string, site: Option<Site>)
    requires Valid(st)
    ensures Valid(RestoreChunk(st, text, site).0)
    ensures Valid(BackupChunk(st, text, site).0)
  {
    DetectKeeps(st, site);
  }

  /** Confirming pops the operation: a second confirmation finds nothing pending. */
  lemma ConfirmTwice(st: State, user: int, broken: set<Path>)
    ensures Confirm(Confirm(st, user, broken).0, user, broken) == (Confirm(st, user, broken).0, NothingPending)
  {
  }

  /**
   * A new request replaces the user's pending operation and re-arms the
   * timer: the replaced timer, when it fires, does nothing, while the new one
   * drops the new operation.
   */
  lemma ReplacedTimerIsStale(st: State, user: int, op: Operation)
    requires Valid(st) && user in st.tasks
    ensures var s := Ask(st, user, op).0;
      s.pending[user] == op &&
      Timeout(s, user, st.tasks[user]) == s &&
      Timeout(s, user, st.nextTimer) == s.(pending := s.pending - {user}, tasks := s.tasks - {user})
  {
  }

  /** After a confirmation no timer of the user can drop anything. */
  lemma ConfirmDisarms(st: State, user: int, broken: set<Path>, id: nat)
    ensures var s := Confirm(st, user, broken).0;
      Timeout(s, user, id) == s
  {
  }

  /** A confirmed area deletion never deletes more than the size limit allows. */
  lemma ConfirmedAreaBounded(st: State, user: int, broken: set<Path>)
    requires Valid(st) && user in st.pending && st.pending[user].Area?
    requires WorldPath(st.workDir, st.serverType, st.pending[user].dimension).Some?
    ensures Confirm(st, user, broken).1.AreaDeleted?
    ensures Confirm(st, user, broken).1.counts.deletedChunks <= MaxAreaChunks
    ensures Confirm(st, user, broken).1.counts.deletedPoi <= MaxAreaChunks
  {
    var op := st.pending[user];
    var s := st.(pending := st.pending - {user}, tasks := st.tasks - {user});
    AreaDeletionCounts(s, user, op.x1, op.z1, op.x2, op.z2, op.dimension, broken);
  }
}

=== FILE: chunk_paths.dfy ===
/**
 * Where the chunk deleter finds things: world coordinates to chunk
 * coordinates to region files (floor division by 16, then by 32), the region
 * and POI file of a chunk, the world folder of a dimension on each kind of
 * server, and the names of backups.
 *
 * Paths are sequences of components; `os.path.join` is concatenation and
 * `os.path.basename` is the last component.
 */
module ChunkPaths {
  import opened Wrappers
  import opened Text

  /** A file-system path as its components. */
  type Path = seq<string>

  /** What `_detect_server_type` decides; `Unknown` is the value before any detection. */
  datatype ServerType = Plugin | Modded | Vanilla | Unknown

  /** The `file_type` of a backup: the region file (`chunk`) or the POI file (`poi`). */
  datatype FileKind = RegionFile | PoiFile

  // ------------------------------------------------------------ coordinates

  /** `int(w // 16)`: the chunk that holds world coordinate `w`; negative values round down. */
  function ChunkOfWorld(w: int): (c: int)
    ensures 16 * c <= w < 16 * c + 16
  {
    w / 16
  }

  /** `c // 32`: the region file that holds chunk coordinate `c`. */
  function RegionOf(c: int): (r: int)
    ensures 32 * r <= c < 32 * r + 32
  {
    c / 32
  }

  function Abs(a: int): nat {
    if a < 0 then -a else a
  }

  function Min(a: int, b: int): int {
    if a <= b then a else b
  }

  function Max(a: int, b: int): int {
    if a <= b then b else a
  }

  /** The number of chunks in the rectangle with corners (x1, z1) and (x2, z2), both included. */
  function ChunkCount(x1: int, z1: int, x2: int, z2: int): (n: int)
    ensures n == (Abs(x2 - x1) + 1) * (Abs(z2 - z1) + 1)
    ensures n >= 1
  {
    var a := Max(x1, x2) - Min(x1, x2) + 1;
    var b := Max(z1, z2) - Min(z1, z2) + 1;
    assert a >= 1 && b >= 1;
    assert a * b >= b;
    a * b
  }

  // ------------------------------------------------------------ paths

  /** `r.X.Z.mca`, the name shared by a region file and its POI file. */
  function RegionName(rx: int, rz: int): string {
    "r." + IntToString(rx) + "." + IntToString(rz) + ".mca"
  }

  /** `<world>/region/r.X.Z.mca` for the chunk (x, z). */
  function ChunkPath(world: Path, x: int, z: int): Path {
    world + ["region", RegionName(RegionOf(x), RegionOf(z))]
  }

  /** `<world>/poi/r.X.Z.mca` for the chunk (x, z). */
  function PoiPath(world: Path, x: int, z: int): Path {
    world + ["poi", RegionName(RegionOf(x), RegionOf(z))]
  }

  function KindName(k: FileKind): string {
    if k == RegionFile then "chunk" else "poi"
  }

  /** `<work dir>/chunk_backups/<dimension>/<file type>`. */
  function BackupDir(workDir: Path, dim: string, k: FileKind): Path {
    workDir + ["chunk_backups", dim, KindName(k)]
  }

  /** Where `_backup_chunk_file` writes the copy of `file`: the file's own name with `.backup` added. */
  function BackupOf(workDir: Path, dim: string, k: FileKind, file: Path): Path
    requires |file| > 0
  {
    BackupDir(workDir, dim, k) + [file[|file| - 1] + ".backup"]
  }

  /** Where `_get_backup_file_path` looks for the copy made for chunk (x, z). */
  function BackupLookup(workDir: Path, dim: string, k: FileKind, x: int, z: int): Path {
    BackupDir(workDir, dim, k) + [RegionName(RegionOf(x), RegionOf(z)) + ".backup"]
  }

  /** The folder of a dimension under the working directory, by server type. */
  function WorldRelative(t: ServerType, dim: string): Option<Path> {
    if t == Unknown then None
    else if dim == "overworld" then Some(["world"])
    else if dim == "nether" then Some(if t == Plugin then ["world_nether", "DIM-1"] else ["world", "DIM-1"])
    else if dim == "end" then Some(if t == Plugin then ["world_the_end", "DIM1"] else ["world", "DIM1"])
    else None
  }

  /** The three names a world folder can start with; none of them is `chunk_backups`. */
  predicate WorldFolder(name: string) {
    name == "world" || name == "world_nether" || name == "world_the_end"
  }

  /** `_get_world_path`: no path before a working directory is known, nor for an unknown type or dimension. */
  function WorldPath(workDir: Path, t: ServerType, dim: string): (r: Option<Path>)
    ensures r.Some? <==> |workDir| > 0 && t != Unknown && (dim == "overworld" || dim == "nether" || dim == "end")
    ensures r.Some? ==> |r.value| > |workDir| && r.value[..|workDir|] == workDir && WorldFolder(r.value[|workDir|])
  {
    if |workDir| == 0 then None
    else match WorldRelative(t, dim)
      case None => None
      case Some(rel) => Some(workDir + rel)
  }

  /** Every directory `os.makedirs(p)` leaves in place: `p` and its ancestors. */
  function Ancestry(p: Path): set<Path> {
    set i | 1 <= i <= |p| :: p[..i]
  }

  // ------------------------------------------------------------ properties

  /** Floor division rounds toward minus infinity: the blocks -16 .. -1 are chunk -1. */
  lemma NegativeRoundsDown()
    ensures ChunkOfWorld(-1) == -1 && ChunkOfWorld(-16) == -1 && ChunkOfWorld(-17) == -2
    ensures RegionOf(-1) == -1 && RegionOf(-32) == -1 && RegionOf(-33) == -2
  {
  }

  /** The two steps together are one floor division by 512, the width of a region in blocks. */
  lemma RegionOfWorld(w: int)
    ensures RegionOf(ChunkOfWorld(w)) == w / 512
  {
    var c := ChunkOfWorld(w);
    var r := RegionOf(c);
    assert 16 * (32 * r) <= 16 * c;
    assert 16 * c + 16 <= 16 * (32 * r + 32);
    assert 512 * r <= w < 512 * r + 512;
  }

  /** A printed integer has no dot in it. */
  lemma NoDotInInt(i: int)
    ensures '.' !in IntToString(i)
  {
  }

  /** `r.A.B.mca` splits back into `A` and `B` when `A` has no dot. */
  lemma {:induction false} DottedNameInjective(sa: string, sb: string, sc: string, sd: string)
    requires '.' !in sa && '.' !in sc
    requires "r." + sa + "." + sb + ".mca" == "r." + sc + "." + sd + ".mca"
    ensures sa == sc && sb == sd
  {
    var n := "r." + sa + "." + sb + ".mca";
    assert n[2..] == sa + "." + (sb + ".mca");
    assert n[2..] == sc + "." + (sd + ".mca");
    SeparatedKeyInjective(sa, sb + ".mca", sc, sd + ".mca", '.');
    assert sb == (sb + ".mca")[..|sb|];
    assert sd == (sd + ".mca")[..|sd|];
  }

  /** Region file names `r.X.Z.mca` name one region each. */
  lemma RegionNameInjective(a: int, b: int, c: int, d: int)
    requires RegionName(a, b) == RegionName(c, d)
    ensures a == c && b == d
  {
    NoDotInInt(a);
    NoDotInInt(c);
    DottedNameInjective(IntToString(a), IntToString(b), IntToString(c), IntToString(d));
    IntToStringInjective(a, c);
    IntToStringInjective(b, d);
  }

  /**
   * Two chunks share a region file (and a POI file) exactly when they lie in
   * the same 32 x 32 region; a chunk's region file and POI file have the same
   * name but are different files.
   */
  lemma SameRegionFile(wp: Path, x: int, z: int, x2: int, z2: int)
    ensures ChunkPath(wp, x, z) == ChunkPath(wp, x2, z2) <==> RegionOf(x) == RegionOf(x2) && RegionOf(z) == RegionOf(z2)
    ensures PoiPath(wp, x, z) == PoiPath(wp, x2, z2) <==> RegionOf(x) == RegionOf(x2) && RegionOf(z) == RegionOf(z2)
    ensures ChunkPath(wp, x, z) != PoiPath(wp, x2, z2)
    ensures ChunkPath(wp, x, z)[|wp| + 1] == PoiPath(wp, x, z)[|wp| + 1]
  {
    if ChunkPath(wp, x, z) == ChunkPath(wp, x2, z2) {
      assert ChunkPath(wp, x, z)[|wp| + 1] == RegionName(RegionOf(x), RegionOf(z));
      assert ChunkPath(wp, x2, z2)[|wp| + 1] == RegionName(RegionOf(x2), RegionOf(z2));
      RegionNameInjective(RegionOf(x), RegionOf(z), RegionOf(x2), RegionOf(z2));
    }
    if PoiPath(wp, x, z) == PoiPath(wp, x2, z2) {
      assert PoiPath(wp, x, z)[|wp| + 1] == RegionName(RegionOf(x), RegionOf(z));
      assert PoiPath(wp, x2, z2)[|wp| + 1] == RegionName(RegionOf(x2), RegionOf(z2));
      RegionNameInjective(RegionOf(x), RegionOf(z), RegionOf(x2), RegionOf(z2));
    }
    assert ChunkPath(wp, x, z)[|wp|] == "region" != "poi" == PoiPath(wp, x2, z2)[|wp|];
  }

  /**
   * The backup `_backup_chunk_file` writes for a chunk's region (or POI) file
   * is the file `_get_backup_file_path` looks up for that chunk, and the two
   * kinds of backup never share a path.
   */
  lemma BackupRoundTrip(workDir: Path, wp: Path, dim: string, x: int, z: int)
    ensures BackupOf(workDir, dim, RegionFile, ChunkPath(wp, x, z)) == BackupLookup(workDir, dim, RegionFile, x, z)
    ensures BackupOf(workDir, dim, PoiFile, PoiPath(wp, x, z)) == BackupLookup(workDir, dim, PoiFile, x, z)
    ensures BackupLookup(workDir, dim, RegionFile, x, z) != BackupLookup(workDir, dim, PoiFile, x, z)
  {
    var cp := ChunkPath(wp, x, z);
    assert cp[|cp| - 1] == RegionName(RegionOf(x), RegionOf(z));
    var pp := PoiPath(wp, x, z);
    assert pp[|pp| - 1] == RegionName(RegionOf(x), RegionOf(z));
    assert BackupLookup(workDir, dim, RegionFile, x, z)[|workDir| + 2] == "chunk";
    assert BackupLookup(workDir, dim, PoiFile, x, z)[|workDir| + 2] == "poi";
  }

  /**
   * The backup tree and the world folders are disjoint: no backup path is the
   * region or POI file of any chunk of any world under the same working
   * directory. This is what lets the model keep them in two maps.
   */
  lemma BackupOutsideWorld(workDir: Path, t: ServerType, dim: string, dim2: string, k: FileKind, file: Path, x: int, z: int)
    requires WorldPath(workDir, t, dim).Some? && |file| > 0
    ensures BackupOf(workDir, dim2, k, file) != ChunkPath(WorldPath(workDir, t, dim).value, x, z)
    ensures BackupOf(workDir, dim2, k, file) != PoiPath(WorldPath(workDir, t, dim).value, x, z)
  {
    var wp := WorldPath(workDir, t, dim).value;
    var b := BackupOf(workDir, dim2, k, file);
    assert b[|workDir|] == "chunk_backups";
    assert ChunkPath(wp, x, z)[|workDir|] == wp[|workDir|];
    assert PoiPath(wp, x, z)[|workDir|] == wp[|workDir|];
  }
}

=== FILE: chunk_sweep.dfy ===
/**
 * The loop of an area deletion over an abstract disk. `Cell` is the body of
 * the loop for one chunk (and the whole of a single-chunk deletion), `Row` and
 * `Rows` are the inner and outer loops, and `SweepArea` is the loop itself.
 */
module ChunkSweep {
  import opened ChunkPaths

  /** The counters of a deletion: files deleted, backed up, and whose removal raised. */
  datatype Counts = Counts(
    deletedChunks: nat, deletedPoi: nat,
    backedChunks: nat, backedPoi: nat,
    failedChunks: nat, failedPoi: nat)

  const NoCounts := Counts(0, 0, 0, 0, 0, 0)

  /** The two trees a deletion changes, and its counters so far. */
  datatype Tally = Tally(world: map<Path, string>, backups: map<Path, string>, counts: Counts)

  /** What a deletion needs besides the tally: where, whether to back up, and which removals raise. */
  datatype Job = Job(workDir: Path, worldPath: Path, dimension: string, backup: bool, broken: set<Path>)

  /** `_backup_chunk_file` on `file` when it exists: its contents copied to its backup path. */
  function Copy(backups: map<Path, string>, world: map<Path, string>, workDir: Path, dim: string, k: FileKind, file: Path): (b: map<Path, string>)
    requires |file| > 0
    ensures file in world ==> b == backups[BackupOf(workDir, dim, k, file) := world[file]]
    ensures file !in world ==> b == backups
  {
    if file in world then backups[BackupOf(workDir, dim, k, file) := world[file]] else backups
  }

  /**
   * The body of the area loop for chunk (x, z), which is also the whole of a
   * single-chunk deletion: back up what exists (when enabled), then remove the
   * region file and the POI file unless their removal raises.
   */
  function Cell(t: Tally, job: Job, x: int, z: int): (r: Tally)
    ensures r.world.Keys <= t.world.Keys && forall p | p in r.world :: r.world[p] == t.world[p]
    ensures ChunkPath(job.worldPath, x, z) in r.world ==> ChunkPath(job.worldPath, x, z) in job.broken && r.counts.failedChunks > 0
    ensures PoiPath(job.worldPath, x, z) in r.world ==> PoiPath(job.worldPath, x, z) in job.broken && r.counts.failedPoi > 0
    ensures forall p | p in t.world && p !in r.world :: p == ChunkPath(job.worldPath, x, z) || p == PoiPath(job.worldPath, x, z)
    ensures r.counts.deletedChunks + r.counts.failedChunks <= t.counts.deletedChunks + t.counts.failedChunks + 1
    ensures r.counts.deletedPoi + r.counts.failedPoi <= t.counts.deletedPoi + t.counts.failedPoi + 1
    ensures r.counts.backedChunks <= t.counts.backedChunks + 1 && r.counts.backedPoi <= t.counts.backedPoi + 1
    ensures t.counts.deletedChunks <= r.counts.deletedChunks && t.counts.deletedPoi <= r.counts.deletedPoi
    ensures t.counts.failedChunks <= r.counts.failedChunks && t.counts.failedPoi <= r.counts.failedPoi
    ensures t.counts.backedChunks <= r.counts.backedChunks && t.counts.backedPoi <= r.counts.backedPoi
    ensures !job.backup ==> r.backups == t.backups && r.counts.backedChunks == t.counts.backedChunks && r.counts.backedPoi == t.counts.backedPoi
    ensures ChunkPath(job.worldPath, x, z) !in job.broken ==> r.counts.failedChunks == t.counts.failedChunks
    ensures PoiPath(job.worldPath, x, z) !in job.broken ==> r.counts.failedPoi == t.counts.failedPoi
  {
    var cp := ChunkPath(job.worldPath, x, z);
    var pp := PoiPath(job.worldPath, x, z);
    var c := t.counts;
    var b1 := if job.backup then Copy(t.backups, t.world, job.workDir, job.dimension, RegionFile, cp) else t.backups;
    var b2 := if job.backup then Copy(b1, t.world, job.workDir, job.dimension, PoiFile, pp) else b1;
    var delC := cp in t.world && cp !in job.broken;
    var w1 := if delC then t.world - {cp} else t.world;
    var delP := pp in w1 && pp !in job.broken;
    var w2 := if delP then w1 - {pp} else w1;
    Tally(w2, b2, Counts(
      c.deletedChunks + (if delC then 1 else 0),
      c.deletedPoi + (if delP then 1 else 0),
      c.backedChunks + (if job.backup && cp in t.world then 1 else 0),
      c.backedPoi + (if job.backup && pp in t.world then 1 else 0),
      c.failedChunks + (if cp in t.world && cp in job.broken then 1 else 0),
      c.failedPoi + (if pp in w1 && pp in job.broken then 1 else 0)))
  }

  /** The inner loop: chunks (x, z) .. (x, hiz). */
  function Row(t: Tally, job: Job, x: int, z: int, hiz: int): Tally
    decreases hiz + 1 - z
  {
    if z > hiz then t else Row(Cell(t, job, x, z), job, x, z + 1, hiz)
  }

  /** The outer loop: rows x .. hix, each over loz .. hiz. */
  function Rows(t: Tally, job: Job, x: int, hix: int, loz: int, hiz: int): Tally
    decreases hix + 1 - x
  {
    if x > hix then t else Rows(Row(t, job, x, loz, hiz), job, x + 1, hix, loz, hiz)
  }

  /** `b` is what the loop made of `a`: files only removed, contents untouched, counters only grown. */
  predicate Shrunk(a: Tally, b: Tally) {
    b.world.Keys <= a.world.Keys && (forall p | p in b.world :: b.world[p] == a.world[p]) &&
    a.counts.deletedChunks <= b.counts.deletedChunks && a.counts.deletedPoi <= b.counts.deletedPoi &&
    a.counts.failedChunks <= b.counts.failedChunks && a.counts.failedPoi <= b.counts.failedPoi &&
    a.counts.backedChunks <= b.counts.backedChunks && a.counts.backedPoi <= b.counts.backedPoi
  }

  /** The files of chunk (x, z) are gone, except those whose removal raised (and was counted). */
  predicate Gone(t: Tally, job: Job, x: int, z: int) {
    (ChunkPath(job.worldPath, x, z) in t.world ==> ChunkPath(job.worldPath, x, z) in job.broken && t.counts.failedChunks > 0) &&
    (PoiPath(job.worldPath, x, z) in t.world ==> PoiPath(job.worldPath, x, z) in job.broken && t.counts.failedPoi > 0)
  }

  /** `p` is the region or POI file of a chunk of the rectangle. */
  ghost predicate Targeted(wp: Path, p: Path, lox: int, hix: int, loz: int, hiz: int) {
    exists x, z | lox <= x <= hix && loz <= z <= hiz :: p == ChunkPath(wp, x, z) || p == PoiPath(wp, x, z)
  }

  /** From `a` to `b` each counter grew by at most `n`, and by nothing when it cannot grow at all. */
  predicate Within(a: Tally, b: Tally, job: Job, n: int) {
    b.counts.deletedChunks + b.counts.failedChunks <= a.counts.deletedChunks + a.counts.failedChunks + n &&
    b.counts.deletedPoi + b.counts.failedPoi <= a.counts.deletedPoi + a.counts.failedPoi + n &&
    b.counts.backedChunks <= a.counts.backedChunks + n &&
    b.counts.backedPoi <= a.counts.backedPoi + n &&
    (job.broken == {} ==> b.counts.failedChunks == a.counts.failedChunks && b.counts.failedPoi == a.counts.failedPoi) &&
    (!job.backup ==> b.backups == a.backups)
  }

  lemma ShrunkTrans(a: Tally, b: Tally, c: Tally)
    requires Shrunk(a, b) && Shrunk(b, c)
    ensures Shrunk(a, c)
  {
  }

  lemma WithinTrans(a: Tally, b: Tally, c: Tally, job: Job, m: int, n: int)
    requires Within(a, b, job, m) && Within(b, c, job, n)
    ensures Within(a, c, job, m + n)
  {
  }

  /** One chunk only removes files, never lowers a counter and adds at most one to each. */
  lemma CellSteps(t: Tally, job: Job, x: int, z: int)
    ensures Shrunk(t, Cell(t, job, x, z)) && Within(t, Cell(t, job, x, z), job, 1)
  {
  }

  /** A row only removes files and never lowers a counter. */
  lemma {:induction false} RowShrunk(t: Tally, job: Job, x: int, z: int, hiz: int)
    requires z <= hiz + 1
    ensures Shrunk(t, Row(t, job, x, z, hiz))
    decreases hiz + 1 - z
  {
    if z <= hiz {
      var t1 := Cell(t, job, x, z);
      CellSteps(t, job, x, z);
      RowShrunk(t1, job, x, z + 1, hiz);
      ShrunkTrans(t, t1, Row(t1, job, x, z + 1, hiz));
    }
  }

  /** A row adds at most one per chunk to each counter, and nothing it cannot. */
  lemma {:induction false} RowCounts(t: Tally, job: Job, x: int, z: int, hiz: int)
    requires z <= hiz + 1
    ensures Within(t, Row(t, job, x, z, hiz), job, hiz + 1 - z)
    decreases hiz + 1 - z
  {
    if z <= hiz {
      var t1 := Cell(t, job, x, z);
      CellSteps(t, job, x, z);
      RowCounts(t1, job, x, z + 1, hiz);
      WithinTrans(t, t1, Row(t1, job, x, z + 1, hiz), job, 1, hiz - z);
    }
  }

  /** A row clears every chunk of the row. */
  lemma {:induction false} RowGone(t: Tally, job: Job, x: int, z: int, hiz: int)
    requires z <= hiz + 1
    ensures forall z' | z <= z' <= hiz :: Gone(Row(t, job, x, z, hiz), job, x, z')
    decreases hiz + 1 - z
  {
    if z <= hiz {
      var t1 := Cell(t, job, x, z);
      var r := Row(t1, job, x, z + 1, hiz);
      assert r == Row(t, job, x, z, hiz);
      RowGone(t1, job, x, z + 1, hiz);
      RowShrunk(t1, job, x, z + 1, hiz);
      GoneStays(t1, r, job, x, z);
    }
  }

  /** A row removes nothing but files of the row's chunks. */
  lemma {:induction false} RowTouch(t: Tally, job: Job, x: int, z: int, hiz: int)
    requires z <= hiz + 1
    ensures forall p | p in t.world && p !in Row(t, job, x, z, hiz).world :: Targeted(job.worldPath, p, x, x, z, hiz)
    decreases hiz + 1 - z
  {
    if z <= hiz {
      var t1 := Cell(t, job, x, z);
      var r := Row(t1, job, x, z + 1, hiz);
      assert r == Row(t, job, x, z, hiz);
      RowTouch(t1, job, x, z + 1, hiz);
      forall p | p in t.world && p !in r.world
        ensures Targeted(job.worldPath, p, x, x, z, hiz)
      {
        if p in t1.world {
          var x', z' :| x <= x' <= x && z + 1 <= z' <= hiz && (p == ChunkPath(job.worldPath, x', z') || p == PoiPath(job.worldPath, x', z'));
        } else {
          assert p == ChunkPath(job.worldPath, x, z) || p == PoiPath(job.worldPath, x, z);
        }
      }
    }
  }

  /** What a row of the loop does: every chunk of the row is cleared, nothing outside it is touched. */
  lemma RowEffect(t: Tally, job: Job, x: int, z: int, hiz: int)
    requires z <= hiz + 1
    ensures Shrunk(t, Row(t, job, x, z, hiz))
    ensures forall z' | z <= z' <= hiz :: Gone(Row(t, job, x, z, hiz), job, x, z')
    ensures forall p | p in t.world && p !in Row(t, job, x, z, hiz).world :: Targeted(job.worldPath, p, x, x, z, hiz)
  {
    RowShrunk(t, job, x, z, hiz);
    RowGone(t, job, x, z, hiz);
    RowTouch(t, job, x, z, hiz);
  }

  /** One chunk of a row, cleared by the row. */
  lemma RowClears(t: Tally, job: Job, x: int, loz: int, hiz: int, z: int)
    requires loz <= z <= hiz
    ensures Gone(Row(t, job, x, loz, hiz), job, x, z)
  {
    RowGone(t, job, x, loz, hiz);
  }

  /** Once cleared, a chunk stays cleared while the loop goes on. */
  lemma GoneStays(a: Tally, b: Tally, job: Job, x: int, z: int)
    requires Gone(a, job, x, z) && Shrunk(a, b)
    ensures Gone(b, job, x, z)
  {
  }

  /** The whole loop only removes files and never lowers a counter. */
  lemma {:induction false} RowsShrunk(t: Tally, job: Job, x: int, hix: int, loz: int, hiz: int)
    requires x <= hix + 1 && loz <= hiz + 1
    ensures Shrunk(t, Rows(t, job, x, hix, loz, hiz))
    decreases hix + 1 - x
  {
    if x <= hix {
      var t1 := Row(t, job, x, loz, hiz);
      RowShrunk(t, job, x, loz, hiz);
      RowsShrunk(t1, job, x + 1, hix, loz, hiz);
      ShrunkTrans(t, t1, Rows(t1, job, x + 1, hix, loz, hiz));
    }
  }

  /** `k` rows of `w` chunks, counted row by row. */
  function Cells(k: nat, w: int): int {
    if k == 0 then 0 else w + Cells(k - 1, w)
  }

  lemma {:induction false} CellsProduct(k: nat, w: int)
    ensures Cells(k, w) == k * w
  {
    if k > 0 {
      CellsProduct(k - 1, w);
      assert k * w == w + (k - 1) * w;
    }
  }

  /** The rows from `x` on add at most one per chunk to each counter, counted row by row. */
  lemma {:induction false} RowsWithin(t: Tally, job: Job, x: int, hix: int, loz: int, hiz: int)
    requires x <= hix + 1 && loz <= hiz + 1
    ensures Within(t, Rows(t, job, x, hix, loz, hiz), job, Cells(hix + 1 - x, hiz + 1 - loz))
    decreases hix + 1 - x
  {
    if x <= hix {
      var t1 := Row(t, job, x, loz, hiz);
      RowCounts(t, job, x, loz, hiz);
      RowsWithin(t1, job, x + 1, hix, loz, hiz);
      WithinTrans(t, t1, Rows(t1, job, x + 1, hix, loz, hiz), job, hiz + 1 - loz, Cells(hix - x, hiz + 1 - loz));
    }
  }

  /** Over the whole loop each chunk adds at most one to each counter, and nothing it cannot. */
  lemma RowsCounts(t: Tally, job: Job, x: int, hix: int, loz: int, hiz: int)
    requires x <= hix + 1 && loz <= hiz + 1
    ensures Within(t, Rows(t, job, x, hix, loz, hiz), job, (hix + 1 - x) * (hiz + 1 - loz))
  {
    RowsWithin(t, job, x, hix, loz, hiz);
    CellsProduct(hix + 1 - x, hiz + 1 - loz);
  }

  /** After the whole loop every chunk of the rectangle is cleared. */
  lemma {:induction false} RowsClear(t: Tally, job: Job, x: int, hix: int, loz: int, hiz: int)
    requires x <= hix + 1 && loz <= hiz + 1
    ensures forall x', z' | x <= x' <= hix && loz <= z' <= hiz :: Gone(Rows(t, job, x, hix, loz, hiz), job, x', z')
    decreases hix + 1 - x
  {
    if x <= hix {
      var t1 := Row(t, job, x, loz, hiz);
      var r := Rows(t1, job, x + 1, hix, loz, hiz);
      assert r == Rows(t, job, x, hix, loz, hiz);
      RowsShrunk(t1, job, x + 1, hix, loz, hiz);
      RowsClear(t1, job, x + 1, hix, loz, hiz);
      forall x', z' | x <= x' <= hix && loz <= z' <= hiz
        ensures Gone(r, job, x', z')
      {
        if x' == x {
          RowClears(t, job, x, loz, hiz, z');
          GoneStays(t1, r, job, x, z');
        }
      }
    }
  }

  /** The whole loop removes nothing but region and POI files of chunks of the rectangle. */
  lemma {:induction false} RowsTouch(t: Tally, job: Job, x: int, hix: int, loz: int, hiz: int)
    requires x <= hix + 1 && loz <= hiz + 1
    ensures forall p | p in t.world && p !in Rows(t, job, x, hix, loz, hiz).world :: Targeted(job.worldPath, p, x, hix, loz, hiz)
    decreases hix + 1 - x
  {
    if x <= hix {
      var t1 := Row(t, job, x, loz, hiz);
      var r := Rows(t1, job, x + 1, hix, loz, hiz);
      RowTouch(t, job, x, loz, hiz);
      RowsTouch(t1, job, x + 1, hix, loz, hiz);
      forall p | p in t.world && p !in r.world
        ensures Targeted(job.worldPath, p, x, hix, loz, hiz)
      {
        if p in t1.world {
          var x', z' :| x + 1 <= x' <= hix && loz <= z' <= hiz && (p == ChunkPath(job.worldPath, x', z') || p == PoiPath(job.worldPath, x', z'));
        } else {
          var x', z' :| x <= x' <= x && loz <= z' <= hiz && (p == ChunkPath(job.worldPath, x', z') || p == PoiPath(job.worldPath, x', z'));
        }
      }
    }
  }

  /** The inner loop of `_execute_area_deletion`, over the chunks (x, z) .. (x, hiz). */
  method SweepRow(t0: Tally, job: Job, x: int, z0: int, hiz: int) returns (t: Tally)
    ensures t == Row(t0, job, x, z0, hiz)
  {
    t := t0;
    var z := z0;
    while z <= hiz
      invariant Row(t, job, x, z, hiz) == Row(t0, job, x, z0, hiz)
      decreases hiz + 1 - z
    {
      t := Cell(t, job, x, z);
      z := z + 1;
    }
  }

  /** The outer loop of `_execute_area_deletion`, over the rows lox .. hix. */
  method SweepRows(t0: Tally, job: Job, lox: int, hix: int, loz: int, hiz: int) returns (t: Tally)
    ensures t == Rows(t0, job, lox, hix, loz, hiz)
  {
    t := t0;
    var x := lox;
    while x <= hix
      invariant Rows(t, job, x, hix, loz, hiz) == Rows(t0, job, lox, hix, loz, hiz)
      decreases hix + 1 - x
    {
      t := SweepRow(t, job, x, loz, hiz);
      x := x + 1;
    }
  }

  /**
   * The area loop of `_execute_area_deletion`: every chunk of the rectangle is
   * cleared, nothing else is removed, and each counter grows by at most the
   * number of chunks.
   */
  method SweepArea(t0: Tally, job: Job, lox: int, hix: int, loz: int, hiz: int) returns (t: Tally)
    requires lox <= hix && loz <= hiz
    ensures t == Rows(t0, job, lox, hix, loz, hiz)
    ensures forall x, z | lox <= x <= hix && loz <= z <= hiz :: Gone(t, job, x, z)
    ensures forall p | p in t0.world && p !in t.world :: Targeted(job.worldPath, p, lox, hix, loz, hiz)
    ensures t.counts.deletedChunks + t.counts.failedChunks <= t0.counts.deletedChunks + t0.counts.failedChunks + (hix + 1 - lox) * (hiz + 1 - loz)
    ensures t.counts.deletedPoi + t.counts.failedPoi <= t0.counts.deletedPoi + t0.counts.failedPoi + (hix + 1 - lox) * (hiz + 1 - loz)
  {
    t := SweepRows(t0, job, lox, hix, loz, hiz);
    AreaFacts(t0, job, lox, hix, loz, hiz);
  }

  /** The facts about the whole loop that `SweepArea` promises. */
  lemma AreaFacts(t0: Tally, job: Job, lox: int, hix: int, loz: int, hiz: int)
    requires lox <= hix && loz <= hiz
    ensures var t := Rows(t0, job, lox, hix, loz, hiz);
      (forall x, z | lox <= x <= hix && loz <= z <= hiz :: Gone(t, job, x, z)) &&
      (forall p | p in t0.world && p !in t.world :: Targeted(job.worldPath, p, lox, hix, loz, hiz)) &&
      t.counts.deletedChunks + t.counts.failedChunks <= t0.counts.deletedChunks + t0.counts.failedChunks + (hix + 1 - lox) * (hiz + 1 - loz) &&
      t.counts.deletedPoi + t.counts.failedPoi <= t0.counts.deletedPoi + t0.counts.failedPoi + (hix + 1 - lox) * (hiz + 1 - loz)
  {
    RowsCounts(t0, job, lox, hix, loz, hiz);
    RowsShrunk(t0, job, lox, hix, loz, hiz);
    RowsClear(t0, job, lox, hix, loz, hiz);
    RowsTouch(t0, job, lox, hix, loz, hiz);
  }
}

=== FILE: log_cache.dfy ===
/**
 * The log poll both log-watching plugins share: walk the last lines of the
 * server log from newest to oldest, skip every line whose key is already in the
 * processed set, hand the others to the plugin's line handler, remember a line
 * only when the handler reports it handled, then halve the processed set once it
 * outgrows its limit.
 *
 * A line's key is its MD5 digest (or the line itself when hashing fails); the
 * digest is taken as injective, so the key of a line is modelled as the line.
 */
module LogCache {

  /** The processed set is halved once it holds more than this many keys. */
  const Limit := 200

  /** The elements of a sequence. */
  function Elems<T>(q: seq<T>): set<T> {
    set x | x in q
  }

  /** No element occurs twice. */
  predicate Distinct<T(==)>(q: seq<T>) {
    forall i, j | 0 <= i < j < |q| :: q[i] != q[j]
  }

  /** `order` lists the elements of `s`, each exactly once (what `list(s)` yields). */
  predicate Enumerates<T(==)>(order: seq<T>, s: set<T>) {
    Distinct(order) && Elems(order) == s
  }

  /** A sequence without repetitions has as many elements as it is long. */
  lemma {:induction false} DistinctCard<T>(q: seq<T>)
    requires Distinct(q)
    ensures |Elems(q)| == |q|
  {
    if |q| > 0 {
      var t := q[1..];
      assert Distinct(t) by {
        forall i, j | 0 <= i < j < |t|
          ensures t[i] != t[j]
        {
          assert t[i] == q[i + 1] && t[j] == q[j + 1];
        }
      }
      DistinctCard(t);
      assert Elems(q) == Elems(t) + {q[0]} by {
        assert q == [q[0]] + t;
      }
      assert q[0] !in Elems(t) by {
        forall k | 0 <= k < |t|
          ensures t[k] != q[0]
        {
          assert t[k] == q[k + 1];
        }
      }
    }
  }

  /** A sequence has at most as many elements as it is long. */
  lemma {:induction false} ElemsCard<T>(q: seq<T>)
    ensures |Elems(q)| <= |q|
  {
    if |q| > 0 {
      ElemsCard(q[1..]);
      assert Elems(q) == {q[0]} + Elems(q[1..]);
    }
  }

  /** A suffix of a sequence without repetitions shares no element with the prefix before it. */
  lemma SplitElems<T>(q: seq<T>, n: int)
    requires Distinct(q) && 0 <= n <= |q|
    ensures Elems(q) - Elems(q[..n]) == Elems(q[n..])
    ensures Distinct(q[n..])
  {
    assert q == q[..n] + q[n..];
    forall x | x in Elems(q[n..])
      ensures x !in Elems(q[..n])
    {
      var j :| 0 <= j < |q[n..]| && q[n..][j] == x;
      assert q[n + j] == x;
      forall i | 0 <= i < n
        ensures q[..n][i] != x
      {
        assert q[..n][i] == q[i];
      }
    }
    forall i, j | 0 <= i < j < |q[n..]|
      ensures q[n..][i] != q[n..][j]
    {
      assert q[n..][i] == q[n + i] && q[n..][j] == q[n + j];
    }
  }

  /**
   * `_cleanup_processed_logs_cache`: above the limit, discard the first half
   * (rounded down) of the set in its iteration order `order`; otherwise keep it.
   */
  function Trim<T(==)>(s: set<T>, order: seq<T>): (r: set<T>)
    requires Enumerates(order, s)
    ensures r <= s
    ensures |s| <= Limit ==> r == s
    ensures |s| > Limit ==> |r| == |s| - |s| / 2
    ensures |s| > Limit ==> forall k | 0 <= k < |order| :: order[k] in r <==> k >= |s| / 2
  {
    if |s| > Limit then
      var n := |s| / 2;
      DistinctCard(order);
      SplitElems(order, n);
      DistinctCard(order[n..]);
      assert forall k | 0 <= k < |order| :: order[k] in Elems(order[..n]) <==> k < n by {
        forall k | 0 <= k < |order|
          ensures order[k] in Elems(order[..n]) <==> k < n
        {
          if k < n {
            assert order[..n][k] == order[k];
          } else {
            assert order[n..][k - n] == order[k];
          }
        }
      }
      s - Elems(order[..n])
    else s
  }

  /** The keys a poll has accumulated, the plugin's state, and the lines handled, in order. */
  datatype Scanned<S> = Scanned(state: S, processed: set<string>, handled: seq<string>)

  /** One line of the poll: skipped when already processed, remembered only when handled. */
  function Visit<S>(acc: Scanned<S>, line: string, step: (S, string) -> (S, bool)): Scanned<S> {
    if line in acc.processed then acc
    else
      var (st, ok) := step(acc.state, line);
      if ok then Scanned(st, acc.processed + {line}, acc.handled + [line])
      else Scanned(st, acc.processed, acc.handled)
  }

  /** The poll over `logs`, newest line (the last) first. */
  function Scan<S>(logs: seq<string>, acc: Scanned<S>, step: (S, string) -> (S, bool)): Scanned<S>
    decreases |logs|
  {
    if |logs| == 0 then acc
    else Scan(logs[..|logs| - 1], Visit(acc, logs[|logs| - 1], step), step)
  }

  /**
   * The processed set is the set found at the start plus the lines handled; every
   * handled line came from `lines`, was new at the start, and was handled once.
   */
  ghost predicate Ledger<S>(acc: Scanned<S>, seen: set<string>, lines: seq<string>) {
    acc.processed == seen + Elems(acc.handled)
    && Distinct(acc.handled)
    && forall k | 0 <= k < |acc.handled| :: acc.handled[k] !in seen && acc.handled[k] in lines
  }

  /** A visit of a line from `lines` keeps the ledger. */
  lemma VisitKeepsLedger<S>(acc: Scanned<S>, line: string, step: (S, string) -> (S, bool), seen: set<string>, lines: seq<string>)
    requires Ledger(acc, seen, lines) && line in lines
    ensures Ledger(Visit(acc, line, step), seen, lines)
  {
    if line !in acc.processed {
      var (st, ok) := step(acc.state, line);
      if ok {
        var h := acc.handled + [line];
        assert Elems(h) == Elems(acc.handled) + {line};
        forall i, j | 0 <= i < j < |h|
          ensures h[i] != h[j]
        {
          if j == |acc.handled| {
            assert h[i] == acc.handled[i] && acc.handled[i] in Elems(acc.handled);
          }
        }
      }
    }
  }

  /** The whole poll keeps the ledger: no line already processed, or handled once, is handled again. */
  lemma {:induction false} ScanKeepsLedger<S>(logs: seq<string>, acc: Scanned<S>, step: (S, string) -> (S, bool), seen: set<string>, lines: seq<string>)
    requires Ledger(acc, seen, lines)
    requires forall k | 0 <= k < |logs| :: logs[k] in lines
    ensures Ledger(Scan(logs, acc, step), seen, lines)
    decreases |logs|
  {
    if |logs| > 0 {
      var last := logs[|logs| - 1];
      VisitKeepsLedger(acc, last, step, seen, lines);
      var front := logs[..|logs| - 1];
      assert forall k | 0 <= k < |front| :: front[k] == logs[k];
      ScanKeepsLedger(front, Visit(acc, last, step), step, seen, lines);
    }
  }

  /**
   * `_check_server_logs` after its preliminary sweep: the newest-first loop
   * followed by the trim. `order` is the iteration order of the processed set
   * when it is trimmed.
   */
  method Poll<S>(logs: seq<string>, seen: set<string>, st0: S, step: (S, string) -> (S, bool), order: seq<string>)
    returns (processed: set<string>, st: S, handled: seq<string>)
    requires Enumerates(order, Scan(logs, Scanned(st0, seen, []), step).processed)
    ensures Distinct(handled)
    ensures forall k | 0 <= k < |handled| :: handled[k] !in seen && handled[k] in logs
    ensures var all := seen + Elems(handled);
      processed <= all && (|all| <= Limit ==> processed == all)
      && (|all| > Limit ==> |processed| == |all| - |all| / 2)
    ensures Scanned(st, seen + Elems(handled), handled) == Scan(logs, Scanned(st0, seen, []), step)
    ensures processed == Trim(seen + Elems(handled), order)
  {
    var acc := Scanned(st0, seen, []);
    var i := |logs|;
    assert logs[..i] == logs;
    while i > 0
      invariant 0 <= i <= |logs|
      invariant Scan(logs[..i], acc, step) == Scan(logs, Scanned(st0, seen, []), step)
      invariant Ledger(acc, seen, logs)
    {
      assert logs[..i][..i - 1] == logs[..i - 1];
      VisitKeepsLedger(acc, logs[i - 1], step, seen, logs);
      acc := Visit(acc, logs[i - 1], step);
      i := i - 1;
    }
    assert logs[..0] == [];
    processed := Trim(acc.processed, order);
    st := acc.state;
    handled := acc.handled;
  }
}

=== FILE: mc_qq_sync.dfy ===
/**
 * The MC–QQ chat sync plugin. Chat lines the Minecraft server prints are
 * forwarded to QQ groups: every chat message on the automatic path, messages
 * starting with `qq ` on the manual one. QQ users send text into the game with
 * the `mc` command, and admins switch the three features on and off and edit
 * their group lists with `sync_config`.
 *
 * Time is `now`, in whole seconds. Messages to QQ and the `say` command to the
 * server are represented by what would be sent; the binding plugin's data is
 * handed in (absent when that plugin is not loaded).
 */
module McQqSync {
  import opened Wrappers
  import opened Text
  import opened Chat
  import opened LogCache
  import Binding

  /** One of the three features: whether it is on, and the QQ groups it serves. */
  datatype Feature = Feature(enabled: bool, groups: seq<int>)

  /**
   * `features` (automatic MC→QQ, manual MC→QQ, QQ→MC) and the two blacklists:
   * player names and QQ user ids.
   */
  datatype Config = Config(auto: Feature, manual: Feature, toMc: Feature, players: seq<string>, users: seq<int>)

  /** The configuration the plugin writes when it finds none. */
  const Defaults := Config(Feature(false, [123456789]), Feature(true, [123456789]), Feature(true, [123456789]), [], [])

  /** Seconds a forwarded message's key stays in the dedup cache. */
  const CacheTimeout := 5

  /** The configuration and the dedup cache: key to the time it was forwarded. */
  datatype State = State(config: Config, cache: map<string, int>)

  datatype Route = Auto | Manual

  /** A chat message to forward to QQ, on one route. */
  datatype Forward = Forward(route: Route, player: string, message: string)

  function FeatureOf(cfg: Config, route: Route): Feature {
    match route
    case Auto => cfg.auto
    case Manual => cfg.manual
  }

  /** A feature that would deliver to at least one group. */
  predicate Serves(f: Feature) {
    f.enabled && |f.groups| > 0
  }

  // ------------------------------------------------------------ MC to QQ

  /** The manual-path command word, with its space. */
  const QqPrefix := "qq "

  /** A message the automatic path never forwards: a command. */
  predicate IsCommand(message: string) {
    StartsWith(message, "/") || StartsWith(message, "mc ")
  }

  /**
   * `_process_player_message` up to the cache: the line must carry the marker
   * and match the chat pattern; a blacklisted player is dropped; a `qq `
   * message takes the manual path with the rest of the message, stripped; any
   * other message that is not a command takes the automatic path. A path that
   * is switched off or has no groups forwards nothing.
   */
  function Classify(cfg: Config, line: string): (r: Option<Forward>)
    ensures r.Some? ==>
      ChatMatch(line).Some? && r.value.player == ChatMatch(line).value.player &&
      r.value.player !in cfg.players && Serves(FeatureOf(cfg, r.value.route))
    ensures r.Some? && r.value.route == Manual ==>
      |r.value.message| > 0 && StartsWith(ChatMatch(line).value.message, QqPrefix) &&
      r.value.message == Strip(ChatMatch(line).value.message[3..])
    ensures r.Some? && r.value.route == Auto ==>
      r.value.message == ChatMatch(line).value.message &&
      !StartsWith(r.value.message, QqPrefix) && !IsCommand(r.value.message)
  {
    if !Contains(line, Marker) then None
    else match ChatMatch(line)
      case None => None
      case Some(m) =>
        if m.player in cfg.players then None
        else if StartsWith(m.message, QqPrefix) then
          var payload := Strip(m.message[3..]);
          if |payload| == 0 || !cfg.manual.enabled || |cfg.manual.groups| == 0 then None
          else Some(Forward(Manual, m.player, payload))
        else if IsCommand(m.message) then None
        else if !cfg.auto.enabled || |cfg.auto.groups| == 0 then None
        else Some(Forward(Auto, m.player, m.message))
  }

  /** `f"{player}:qq:{msg}"` on the manual path, `f"{player}:{msg}"` on the automatic one. */
  function CacheKey(f: Forward): string {
    match f.route
    case Manual => f.player + ":qq:" + f.message
    case Auto => f.player + ":" + f.message
  }

  /** The cache key a line would be forwarded under, `""` when it is not forwarded at all. */
  function KeyOf(cfg: Config, line: string): string {
    match Classify(cfg, line)
    case None => ""
    case Some(f) => CacheKey(f)
  }

  /**
   * `_process_player_message`: a classified message whose key is not cached is
   * forwarded and its key cached at `now`; anything else changes nothing.
   */
  function ProcessMessage(st: State, line: string, now: int): (r: (State, Option<Forward>))
    ensures r.1.Some? <==> Classify(st.config, line).Some? && KeyOf(st.config, line) !in st.cache
    ensures r.1.Some? ==> r.1 == Classify(st.config, line) && r.0 == st.(cache := st.cache[KeyOf(st.config, line) := now])
    ensures r.1.None? ==> r.0 == st
  {
    match Classify(st.config, line)
    case None => (st, None)
    case Some(f) =>
      if CacheKey(f) in st.cache then (st, None)
      else (st.(cache := st.cache[CacheKey(f) := now]), Some(f))
  }

  /** The line handler the poll runs: a line counts as processed when it was forwarded. */
  function Handle(st: State, line: string, now: int): (State, bool) {
    var r := ProcessMessage(st, line, now);
    (r.0, r.1.Some?)
  }

  /** `_cleanup_expired_cache`: drop every key forwarded more than five seconds ago. */
  function Expire(st: State, now: int): (r: State)
    ensures r.config == st.config
    ensures r.cache.Keys <= st.cache.Keys
    ensures forall k | k in st.cache :: k in r.cache <==> now - st.cache[k] <= CacheTimeout
    ensures forall k | k in r.cache :: r.cache[k] == st.cache[k]
  {
    st.(cache := map k | k in st.cache && now - st.cache[k] <= CacheTimeout :: st.cache[k])
  }

  /** `_log_polling_loop` reads the log only while one of the two MC→QQ features is on. */
  predicate Polls(cfg: Config) {
    cfg.auto.enabled || cfg.manual.enabled
  }

  /**
   * What a poll has forwarded so far: every handled line was classified, under
   * a key that the swept cache did not hold and the cache holds now, and no two
   * handled lines share a key.
   */
  ghost predicate Forwards(cfg: Config, cache0: map<string, int>, acc: Scanned<State>) {
    acc.state.config == cfg &&
    cache0.Keys <= acc.state.cache.Keys &&
    (forall k | 0 <= k < |acc.handled| ::
      Classify(cfg, acc.handled[k]).Some? && KeyOf(cfg, acc.handled[k]) in acc.state.cache && KeyOf(cfg, acc.handled[k]) !in cache0) &&
    (forall i, j | 0 <= i < j < |acc.handled| :: KeyOf(cfg, acc.handled[i]) != KeyOf(cfg, acc.handled[j]))
  }

  /** What handling one line does to the cache. */
  lemma HandleFacts(st: State, line: string, now: int)
    ensures var (out, ok) := Handle(st, line, now);
      out.config == st.config && st.cache.Keys <= out.cache.Keys &&
      (ok ==> Classify(st.config, line).Some? && KeyOf(st.config, line) !in st.cache && KeyOf(st.config, line) in out.cache) &&
      (!ok ==> out == st)
  {
  }

  lemma VisitForwards(cfg: Config, cache0: map<string, int>, acc: Scanned<State>, line: string, now: int)
    requires Forwards(cfg, cache0, acc)
    ensures Forwards(cfg, cache0, Visit(acc, line, (s: State, l: string) => Handle(s, l, now)))
  {
    var step := (s: State, l: string) => Handle(s, l, now);
    if line !in acc.processed {
      var (st, ok) := Handle(acc.state, line, now);
      HandleFacts(acc.state, line, now);
      assert step(acc.state, line) == (st, ok);
      if ok {
        HandledForwards(cfg, cache0, acc, line, st);
      }
    }
  }

  /** Adding a line whose key was new keeps every key distinct. */
  lemma HandledForwards(cfg: Config, cache0: map<string, int>, acc: Scanned<State>, line: string, st: State)
    requires Forwards(cfg, cache0, acc)
    requires st.config == cfg && acc.state.cache.Keys <= st.cache.Keys
    requires Classify(cfg, line).Some? && KeyOf(cfg, line) !in acc.state.cache && KeyOf(cfg, line) in st.cache
    ensures Forwards(cfg, cache0, Scanned(st, acc.processed + {line}, acc.handled + [line]))
  {
    var h := acc.handled + [line];
    forall i, j | 0 <= i < j < |h|
      ensures KeyOf(cfg, h[i]) != KeyOf(cfg, h[j])
    {
      if j == |acc.handled| {
        assert h[i] == acc.handled[i];
      } else {
        assert h[i] == acc.handled[i] && h[j] == acc.handled[j];
      }
    }
    forall k | 0 <= k < |h|
      ensures Classify(cfg, h[k]).Some? && KeyOf(cfg, h[k]) in st.cache && KeyOf(cfg, h[k]) !in cache0
    {
      if k < |acc.handled| {
        assert h[k] == acc.handled[k];
      }
    }
  }

  lemma {:induction false} ScanForwards(cfg: Config, cache0: map<string, int>, logs: seq<string>, acc: Scanned<State>, now: int)
    requires Forwards(cfg, cache0, acc)
    ensures Forwards(cfg, cache0, Scan(logs, acc, (s: State, l: string) => Handle(s, l, now)))
    decreases |logs|
  {
    if |logs| > 0 {
      var step := (s: State, l: string) => Handle(s, l, now);
      VisitForwards(cfg, cache0, acc, logs[|logs| - 1], now);
      ScanForwards(cfg, cache0, logs[..|logs| - 1], Visit(acc, logs[|logs| - 1], step), now);
    }
  }

  /**
   * `_check_server_logs`: the cache sweep, then (for a non-empty log) the
   * newest-first poll with `_process_player_message` and the trim of the
   * processed set. `order` is that set's iteration order when it is trimmed.
   */
  method CheckLogs(st: State, seen: set<string>, logs: seq<string>, now: int, order: seq<string>)
    returns (out: State, processed: set<string>, handled: seq<string>)
    requires |logs| > 0 ==>
      Enumerates(order, Scan(logs, Scanned(Expire(st, now), seen, []), (s: State, l: string) => Handle(s, l, now)).processed)
    ensures |logs| == 0 ==> out == Expire(st, now) && processed == seen && handled == []
    ensures out.config == st.config
    ensures forall k | 0 <= k < |handled| :: handled[k] in logs && handled[k] !in seen
    ensures forall k | 0 <= k < |handled| ::
      Classify(st.config, handled[k]).Some? && KeyOf(st.config, handled[k]) !in Expire(st, now).cache
    ensures forall i, j | 0 <= i < j < |handled| :: KeyOf(st.config, handled[i]) != KeyOf(st.config, handled[j])
    ensures |logs| > 0 ==> var all := seen + Elems(handled);
      processed <= all && (|all| <= Limit ==> processed == all) &&
      (|all| > Limit ==> |processed| == |all| - |all| / 2)
    ensures |logs| > 0 ==> Enumerates(order, seen + Elems(handled)) && processed == Trim(seen + Elems(handled), order)
    ensures |logs| > 0 ==> out == Scan(logs, Scanned(Expire(st, now), seen, []), (s: State, l: string) => Handle(s, l, now)).state
  {
    var st1 := Expire(st, now);
    if |logs| == 0 {
      return st1, seen, [];
    }
    var step := (s: State, l: string) => Handle(s, l, now);
    ScanForwards(st.config, st1.cache, logs, Scanned(st1, seen, []), now);
    processed, out, handled := Poll(logs, seen, st1, step, order);
  }

  /**
   * The processed set the poll should leave: the halved set, plus every key
   * of the current log window it held. A line still in the window is then
   * never taken for new.
   */
  function KeepWindow(all: set<string>, order: seq<string>, logs: seq<string>): (r: set<string>)
    requires Enumerates(order, all)
    ensures r <= all
    ensures forall l | l in logs && l in all :: l in r
    ensures |all| <= Limit ==> r == all
    ensures |all| > Limit ==> |r| <= |all| - |all| / 2 + |logs|
  {
    var t := Trim(all, order);
    var w := all * Elems(logs);
    ElemsCard(logs);
    assert |w| <= |Elems(logs)| by {
      assert Elems(logs) == w + (Elems(logs) - w);
      assert w * (Elems(logs) - w) == {};
    }
    t + w
  }

  /** `CheckLogs` with the trim that keeps the current window. */
  method CheckLogsKeepingWindow(st: State, seen: set<string>, logs: seq<string>, now: int, order: seq<string>)
    returns (out: State, processed: set<string>, handled: seq<string>)
    requires |logs| > 0 ==>
      Enumerates(order, Scan(logs, Scanned(Expire(st, now), seen, []), (s: State, l: string) => Handle(s, l, now)).processed)
    ensures |logs| == 0 ==> out == Expire(st, now) && processed == seen && handled == []
    ensures out.config == st.config
    ensures forall k | 0 <= k < |handled| :: handled[k] in logs && handled[k] !in seen
    ensures forall k | 0 <= k < |handled| ::
      Classify(st.config, handled[k]).Some? && KeyOf(st.config, handled[k]) !in Expire(st, now).cache
    ensures forall i, j | 0 <= i < j < |handled| :: KeyOf(st.config, handled[i]) != KeyOf(st.config, handled[j])
    ensures |logs| > 0 ==> var all := seen + Elems(handled);
      processed <= all && (forall l | l in logs && l in all :: l in processed) &&
      (|all| <= Limit ==> processed == all) &&
      (|all| > Limit ==> |processed| <= |all| - |all| / 2 + |logs|)
  {
    var st1 := Expire(st, now);
    if |logs| == 0 {
      return st1, seen, [];
    }
    var step := (s: State, l: string) => Handle(s, l, now);
    ScanForwards(st.config, st1.cache, logs, Scanned(st1, seen, []), now);
    var trimmed;
    trimmed, out, handled := Poll(logs, seen, st1, step, order);
    processed := KeepWindow(seen + Elems(handled), order, logs);
  }

  // ------------------------------------------------------------ QQ to MC

  /** Python's truthiness of the game id: absent or empty counts as unbound. */
  predicate HasGameId(g: Option<string>) {
    g.Some? && |g.value| > 0
  }

  /**
   * `_get_game_id_by_qq`: the game id of the QQ id's first binding, when the
   * binding plugin is loaded and the QQ id has a binding.
   */
  function GameIdByQq(bindings: Option<map<string, seq<Binding.Bound>>>, qq: string): (r: Option<string>)
    ensures r.Some? <==> bindings.Some? && qq in bindings.value && |bindings.value[qq]| > 0
    ensures r.Some? ==> r.value == bindings.value[qq][0].game
  {
    match bindings
    case None => None
    case Some(b) => if qq in b && |b[qq]| > 0 then Some(b[qq][0].game) else None
  }

  /** What `handle_mc_command` answers. */
  datatype McReply = McDisabled | GroupNotAllowed | NotBound | Forbidden | EmptyText | SentToMc(text: string)

  /** `f"《{sender}》{message}"`, the text the server is told to `say`. */
  function McText(sender: string, message: string): string {
    "《" + sender + "》" + message
  }

  /** The sender shown for a QQ user without a game id. */
  function QqSender(user: int): string {
    "QQ " + IntToString(user)
  }

  /**
   * `handle_mc_command`: refused, in this order, when the feature is off, the
   * group is not served, the user has no game id (checked only when the
   * binding plugin is loaded), the user is blacklisted, or the text is blank;
   * otherwise the stripped text goes to the server under the user's game id,
   * or under `QQ <id>` when there is none.
   */
  function HandleMc(cfg: Config, bindings: Option<map<string, seq<Binding.Bound>>>, user: int, group: int, text: string): (r: McReply)
    ensures r == McDisabled <==> !cfg.toMc.enabled
    ensures r == GroupNotAllowed <==> cfg.toMc.enabled && group !in cfg.toMc.groups
    ensures r == NotBound <==> (cfg.toMc.enabled && group in cfg.toMc.groups &&
      bindings.Some? && !HasGameId(GameIdByQq(bindings, IntToString(user))))
    ensures r == Forbidden <==> (cfg.toMc.enabled && group in cfg.toMc.groups &&
      (bindings.Some? ==> HasGameId(GameIdByQq(bindings, IntToString(user)))) && user in cfg.users)
    ensures r.SentToMc? ==> |Strip(text)| > 0 && user !in cfg.users
    ensures r.SentToMc? && HasGameId(GameIdByQq(bindings, IntToString(user))) ==>
      r.text == McText(GameIdByQq(bindings, IntToString(user)).value, Strip(text))
    ensures r.SentToMc? && !HasGameId(GameIdByQq(bindings, IntToString(user))) ==>
      r.text == McText(QqSender(user), Strip(text))
  {
    var gid := GameIdByQq(bindings, IntToString(user));
    if !cfg.toMc.enabled then McDisabled
    else if group !in cfg.toMc.groups then GroupNotAllowed
    else if bindings.Some? && !HasGameId(gid) then NotBound
    else if user in cfg.users then Forbidden
    else if |Strip(text)| == 0 then EmptyText
    else if HasGameId(gid) then SentToMc(McText(gid.value, Strip(text)))
    else SentToMc(McText(QqSender(user), Strip(text)))
  }

  /** Reads a `say` text back into its sender and message. */
  function ParseMcText(s: string): (r: Option<(string, string)>)
    ensures r.Some? ==> s == McText(r.value.0, r.value.1) && '》' !in r.value.0
  {
    if |s| > 0 && s[0] == '《' then
      var i := IndexFrom(s, '》', 1);
      if i < |s| then
        var sender := s[1..i];
        assert '》' !in sender by {
          forall k | 0 <= k < |sender|
            ensures sender[k] != '》'
          {
            assert sender[k] == s[1 + k];
          }
        }
        assert s == McText(sender, s[i + 1..]);
        Some((sender, s[i + 1..]))
      else None
    else None
  }

  // ------------------------------------------------------------ sync_config

  /** The three features, by the names `sync_config` uses. */
  datatype Mode = AutoMc | ManualMc | ManualQq

  /** A mode word, compared lower-cased. */
  function ModeOf(w: string): (r: Option<Mode>)
    ensures r == Some(AutoMc) <==> Lower(w) == "auto_mc"
    ensures r == Some(ManualMc) <==> Lower(w) == "manual_mc"
    ensures r == Some(ManualQq) <==> Lower(w) == "manual_qq"
  {
    var l := Lower(w);
    if l == "auto_mc" then Some(AutoMc)
    else if l == "manual_mc" then Some(ManualMc)
    else if l == "manual_qq" then Some(ManualQq)
    else None
  }

  function FeatureAt(cfg: Config, m: Mode): Feature {
    match m
    case AutoMc => cfg.auto
    case ManualMc => cfg.manual
    case ManualQq => cfg.toMc
  }

  /** `cfg` with the feature of `m` replaced by `f`. */
  function WithFeature(cfg: Config, m: Mode, f: Feature): (r: Config)
    ensures FeatureAt(r, m) == f
    ensures forall m' | m' != m :: FeatureAt(r, m') == FeatureAt(cfg, m')
    ensures r.players == cfg.players && r.users == cfg.users
  {
    match m
    case AutoMc => cfg.(auto := f)
    case ManualMc => cfg.(manual := f)
    case ManualQq => cfg.(toMc := f)
  }

  /** `addgroup`: append the group unless it is listed already. */
  function AddGroup(gs: seq<int>, g: int): (r: seq<int>)
    ensures g in r
    ensures g in gs ==> r == gs
    ensures g !in gs ==> r == gs + [g]
  {
    if g in gs then gs else gs + [g]
  }

  /** The index of the first `g` in `gs`, `|gs|` when it is absent. */
  function FirstIndex(gs: seq<int>, g: int): (i: nat)
    ensures i <= |gs|
    ensures forall k | 0 <= k < i :: gs[k] != g
    ensures i < |gs| ==> gs[i] == g
  {
    if |gs| == 0 then 0
    else if gs[0] == g then 0
    else 1 + FirstIndex(gs[1..], g)
  }

  /** `removegroup`: `list.remove`, which drops the first occurrence only. */
  function RemoveGroup(gs: seq<int>, g: int): (r: seq<int>)
    ensures g !in gs ==> r == gs
    ensures g in gs ==> |r| == |gs| - 1 && multiset(r) == multiset(gs) - multiset{g}
    ensures g in gs ==> exists i | 0 <= i < |gs| :: gs[i] == g && g !in gs[..i] && r == gs[..i] + gs[i + 1..]
  {
    var i := FirstIndex(gs, g);
    if i == |gs| then gs
    else
      assert gs == gs[..i] + [g] + gs[i + 1..];
      assert g !in gs[..i];
      gs[..i] + gs[i + 1..]
  }

  /** What `sync_config` answers. */
  datatype ConfigReply =
    | Info
    | Usage
    | BadMode
    | BadGroupId
    | Switched(mode: Mode, on: bool)
    | Added(mode: Mode, group: int)
    | AlreadyListed(mode: Mode, group: int)
    | Removed(mode: Mode, group: int)
    | NotListed(mode: Mode, group: int)
    | UnknownCommand

  /**
   * What a `sync_config` reply says about the configuration it leaves: only a
   * switch or a group edit changes it, and then only the named feature, and the
   * blacklists never change.
   */
  predicate Edits(cfg: Config, r: (Config, ConfigReply)) {
    r.0.players == cfg.players && r.0.users == cfg.users &&
    (!(r.1.Switched? || r.1.Added? || r.1.Removed?) ==> r.0 == cfg) &&
    ((r.1.Switched? || r.1.Added? || r.1.Removed?) ==>
      forall m | m != r.1.mode :: FeatureAt(r.0, m) == FeatureAt(cfg, m)) &&
    (r.1.Switched? ==> FeatureAt(r.0, r.1.mode) == FeatureAt(cfg, r.1.mode).(enabled := r.1.on)) &&
    (r.1.Added? ==>
      r.1.group !in FeatureAt(cfg, r.1.mode).groups &&
      FeatureAt(r.0, r.1.mode) == FeatureAt(cfg, r.1.mode).(groups := FeatureAt(cfg, r.1.mode).groups + [r.1.group])) &&
    (r.1.Removed? ==>
      r.1.group in FeatureAt(cfg, r.1.mode).groups &&
      FeatureAt(r.0, r.1.mode) == FeatureAt(cfg, r.1.mode).(groups := RemoveGroup(FeatureAt(cfg, r.1.mode).groups, r.1.group))) &&
    (r.1.AlreadyListed? ==> r.1.group in FeatureAt(cfg, r.1.mode).groups) &&
    (r.1.NotListed? ==> r.1.group !in FeatureAt(cfg, r.1.mode).groups)
  }

  /** `enable` and `disable`. */
  function Switch(cfg: Config, args: seq<string>, on: bool): (r: (Config, ConfigReply))
    requires |args| > 0
    ensures Edits(cfg, r)
    ensures r.1.Switched? || r.1 == Usage || r.1 == BadMode
    ensures r.1.Switched? <==> |args| >= 2 && ModeOf(args[1]).Some?
    ensures r.1.Switched? ==> |args| >= 2 && ModeOf(args[1]) == Some(r.1.mode) && r.1.on == on
  {
    if |args| < 2 then (cfg, Usage)
    else match ModeOf(args[1])
      case None => (cfg, BadMode)
      case Some(m) => (WithFeature(cfg, m, FeatureAt(cfg, m).(enabled := on)), Switched(m, on))
  }

  /** `addgroup` and `removegroup`: the group id is read before the mode is checked. */
  function EditGroups(cfg: Config, args: seq<string>, add: bool): (r: (Config, ConfigReply))
    requires |args| > 0
    ensures Edits(cfg, r)
    ensures r.1 == BadGroupId <==> |args| >= 3 && ParseInt(args[2]).None?
    ensures r.1 == BadMode <==> |args| >= 3 && ParseInt(args[2]).Some? && ModeOf(args[1]).None?
    ensures add ==> r.1.Added? || r.1.AlreadyListed? || r.1 == Usage || r.1 == BadGroupId || r.1 == BadMode
    ensures !add ==> r.1.Removed? || r.1.NotListed? || r.1 == Usage || r.1 == BadGroupId || r.1 == BadMode
    ensures r.1.Added? || r.1.AlreadyListed? || r.1.Removed? || r.1.NotListed? ==>
      |args| >= 3 && ModeOf(args[1]) == Some(r.1.mode) && ParseInt(args[2]) == Some(r.1.group)
  {
    if |args| < 3 then (cfg, Usage)
    else match ParseInt(args[2])
      case None => (cfg, BadGroupId)
      case Some(g) =>
        match ModeOf(args[1])
        case None => (cfg, BadMode)
        case Some(m) =>
          var gs := FeatureAt(cfg, m).groups;
          if add && g !in gs then (WithFeature(cfg, m, FeatureAt(cfg, m).(groups := AddGroup(gs, g))), Added(m, g))
          else if add then (cfg, AlreadyListed(m, g))
          else if g in gs then (WithFeature(cfg, m, FeatureAt(cfg, m).(groups := RemoveGroup(gs, g))), Removed(m, g))
          else (cfg, NotListed(m, g))
  }

  /** `handle_sync_config_command`, dispatching on the lower-cased first word. */
  function SyncConfig(cfg: Config, text: string): (r: (Config, ConfigReply))
    ensures Edits(cfg, r)
    ensures r.1 == Info <==> |Split(Strip(text))| == 0 || Lower(Split(Strip(text))[0]) == "show"
  {
    var args := Split(Strip(text));
    if |args| == 0 then (cfg, Info)
    else
      var command := Lower(args[0]);
      if command == "show" then (cfg, Info)
      else if command == "enable" then Switch(cfg, args, true)
      else if command == "disable" then Switch(cfg, args, false)
      else if command == "addgroup" then EditGroups(cfg, args, true)
      else if command == "removegroup" then EditGroups(cfg, args, false)
      else (cfg, UnknownCommand)
  }
}

=== FILE: mc_qq_sync_props.dfy ===
/**
 * Properties of the MC–QQ sync plugin: which chat lines are forwarded and how,
 * the dedup cache, the `say` text of the `mc` command, the group edits of
 * `sync_config`, and what the halving of the processed set does to lines still
 * in the log window.
 */
module McQqSyncProps {
  import opened Wrappers
  import opened Text
  import opened Chat
  import opened LogCache
  import opened McQqSync
  import Binding
  import BindingProps

  // ------------------------------------------------------------ chat lines

  /** The name group stops at the first `>`, so a matched player name never holds one. */
  lemma TailPlayerNoAngle(t: string)
    requires MatchTail(t).Some?
    ensures '>' !in MatchTail(t).value.player
  {
    var a := LeadingSpaces(t);
    var name := t[a + 1..IndexFrom(t, '>', a + 1)];
    SliceAvoids(t, '>', a + 1);
    if '>' in Strip(name) {
      StripKeeps(name, '>');
    }
  }

  /** The slice from `i` up to the next `c` holds no `c`. */
  lemma SliceAvoids(s: string, c: char, i: int)
    requires 0 <= i <= |s|
    ensures c !in s[i..IndexFrom(s, c, i)]
  {
    var j := IndexFrom(s, c, i);
    forall k | 0 <= k < j - i
      ensures s[i..j][k] != c
    {
      assert s[i..j][k] == s[i + k];
    }
  }

  /** A forwarded line carries the marker, and its player name holds no `>`. */
  lemma ForwardedLineShape(cfg: Config, line: string)
    requires Classify(cfg, line).Some?
    ensures Contains(line, Marker)
    ensures '>' !in Classify(cfg, line).value.player
  {
    ChatMatchGuards(line);
    ChatMatchSpec(line);
    var p :| IsLastMatch(line, p) && ChatMatch(line) == MatchTail(line[p + |Marker|..]);
    TailPlayerNoAngle(line[p + |Marker|..]);
  }

  /**
   * The manual path's empty-payload refusal never fires: the message is
   * stripped, so a message starting with `qq ` has something after it.
   */
  lemma PayloadNonEmpty(m: string)
    requires Strip(m) == m && StartsWith(m, QqPrefix)
    ensures |Strip(m[3..])| > 0
  {
    assert m[..3] == QqPrefix;
    assert IsSpace(m[2]);
    assert |m| > 3;
    var rest := m[3..];
    assert rest[|rest| - 1] == m[|m| - 1];
    assert !AllSpace(rest);
  }

  lemma ManualPayloadNonEmpty(line: string)
    requires ChatMatch(line).Some? && StartsWith(ChatMatch(line).value.message, QqPrefix)
    ensures |Strip(ChatMatch(line).value.message[3..])| > 0
  {
    ChatMatchStripped(line);
    PayloadNonEmpty(ChatMatch(line).value.message);
  }

  /**
   * The server's own rendering of a chat message is forwarded as expected: a
   * `qq ` message on the manual path with the rest of the message, any other
   * message that is not a command on the automatic path, unchanged.
   */
  lemma ClassifyRendered(cfg: Config, prefix: string, player: string, message: string)
    requires |player| > 0 && '>' !in player && '[' !in player && Strip(player) == player
    requires |message| > 0 && Strip(message) == message && !Contains(message, Marker)
    requires player !in cfg.players
    ensures StartsWith(message, QqPrefix) && Serves(cfg.manual) ==>
      Classify(cfg, prefix + Render(player, message)) == Some(Forward(Manual, player, Strip(message[3..])))
    ensures !StartsWith(message, QqPrefix) && !IsCommand(message) && Serves(cfg.auto) ==>
      Classify(cfg, prefix + Render(player, message)) == Some(Forward(Auto, player, message))
    ensures IsCommand(message) && !StartsWith(message, QqPrefix) ==>
      Classify(cfg, prefix + Render(player, message)) == None
  {
    ChatMatchRendered(prefix, player, message);
    ClassifyMatched(cfg, prefix + Render(player, message), ChatLine(player, message));
  }

  /** How a matched line with a stripped message of an unlisted player is forwarded. */
  lemma ClassifyMatched(cfg: Config, line: string, m: ChatLine)
    requires ChatMatch(line) == Some(m) && Strip(m.message) == m.message && m.player !in cfg.players
    ensures StartsWith(m.message, QqPrefix) && Serves(cfg.manual) ==>
      Classify(cfg, line) == Some(Forward(Manual, m.player, Strip(m.message[3..])))
    ensures !StartsWith(m.message, QqPrefix) && !IsCommand(m.message) && Serves(cfg.auto) ==>
      Classify(cfg, line) == Some(Forward(Auto, m.player, m.message))
    ensures IsCommand(m.message) && !StartsWith(m.message, QqPrefix) ==> Classify(cfg, line) == None
  {
    ChatMatchGuards(line);
    if StartsWith(m.message, QqPrefix) {
      PayloadNonEmpty(m.message);
    }
  }

  /** While both MC→QQ features are off the poll does not run, and it would forward nothing anyway. */
  lemma IdleWhenBothOff(cfg: Config, line: string)
    requires !Polls(cfg)
    ensures Classify(cfg, line) == None
  {
  }

  // ------------------------------------------------------------ the dedup cache

  /** Within one route, a cache key names one player and one message (names hold no `:`). */
  lemma CacheKeyInjective(f: Forward, g: Forward)
    requires f.route == g.route && ':' !in f.player && ':' !in g.player
    requires CacheKey(f) == CacheKey(g)
    ensures f == g
  {
    match f.route
    case Auto =>
      assert CacheKey(f) == f.player + [':'] + f.message;
      assert CacheKey(g) == g.player + [':'] + g.message;
      SeparatedKeyInjective(f.player, f.message, g.player, g.message, ':');
    case Manual =>
      assert CacheKey(f) == f.player + [':'] + ("qq:" + f.message);
      assert CacheKey(g) == g.player + [':'] + ("qq:" + g.message);
      SeparatedKeyInjective(f.player, "qq:" + f.message, g.player, "qq:" + g.message, ':');
      assert f.message == ("qq:" + f.message)[3..];
  }

  /** A line whose key was forwarded at most five seconds ago is not forwarded again. */
  lemma LiveKeyBlocks(st: State, line: string, now: int)
    requires KeyOf(st.config, line) in st.cache && now - st.cache[KeyOf(st.config, line)] <= CacheTimeout
    ensures ProcessMessage(Expire(st, now), line, now) == (Expire(st, now), None)
  {
  }

  /** Once the key is more than five seconds old (or was never cached), the line is forwarded again. */
  lemma ExpiredKeyForwards(st: State, line: string, now: int)
    requires Classify(st.config, line).Some?
    requires KeyOf(st.config, line) in st.cache ==> now - st.cache[KeyOf(st.config, line)] > CacheTimeout
    ensures ProcessMessage(Expire(st, now), line, now).1 == Classify(st.config, line)
  {
  }

  // ------------------------------------------------------------ the processed set and the log window

  /** A poll over a window of one line. */
  lemma ScanOne(line: string, acc: Scanned<State>, now: int)
    ensures Scan([line], acc, (s: State, l: string) => Handle(s, l, now)) == Visit(acc, line, (s: State, l: string) => Handle(s, l, now))
  {
    assert [line][..0] == [];
  }

  /**
   * As written: once the processed set outgrows its limit, the half that is
   * discarded can hold a line that is still in the log window; once that
   * line's cache key is more than five seconds old, the next poll forwards
   * the line again.
   */
  lemma TrimmedWindowLineForwardedAgain(st: State, all: set<string>, order: seq<string>, line: string, now: int)
    requires Enumerates(order, all) && |all| > Limit && |order| > 0 && order[0] == line
    requires Classify(st.config, line).Some?
    requires KeyOf(st.config, line) in st.cache ==> now - st.cache[KeyOf(st.config, line)] > CacheTimeout
    ensures line in all && line !in Trim(all, order)
    ensures Scan([line], Scanned(Expire(st, now), Trim(all, order), []), (s: State, l: string) => Handle(s, l, now)).handled == [line]
  {
    assert order[0] in Elems(order);
    ScanOne(line, Scanned(Expire(st, now), Trim(all, order), []), now);
    ExpiredKeyForwards(st, line, now);
  }

  /**
   * With the corrected trim, a line of the window that was already processed
   * is never handled again by any later poll over any window, as long as no
   * trim intervenes.
   */
  lemma KeptWindowNotForwardedAgain(st: State, all: set<string>, order: seq<string>, logs: seq<string>, logs2: seq<string>, line: string, now: int)
    requires Enumerates(order, all) && line in logs && line in all
    ensures line !in Elems(Scan(logs2, Scanned(st, KeepWindow(all, order, logs), []), (s: State, l: string) => Handle(s, l, now)).handled)
  {
    var seen := KeepWindow(all, order, logs);
    var step := (s: State, l: string) => Handle(s, l, now);
    assert Ledger(Scanned(st, seen, []), seen, logs2);
    ScanKeepsLedger(logs2, Scanned(st, seen, []), step, seen, logs2);
  }

  // ------------------------------------------------------------ the mc command

  lemma QqSenderNoBracket(user: int)
    ensures '》' !in QqSender(user)
  {
    var s := IntToString(user);
    forall k | 0 <= k < |s|
      ensures s[k] != '》'
    {
    }
  }

  /** The `say` text reads back as its sender and message when the sender holds no `》`. */
  lemma McTextRoundTrip(sender: string, message: string)
    requires '》' !in sender
    ensures ParseMcText(McText(sender, message)) == Some((sender, message))
  {
    var s := McText(sender, message);
    assert s == ['《'] + (sender + ['》'] + message);
    var r := ParseMcText(s);
    assert r.Some? by {
      assert s[1 + |sender|] == '》';
      assert forall k | 1 <= k < 1 + |sender| :: s[k] == sender[k - 1];
    }
    assert ['《'] + (r.value.0 + ['》'] + r.value.1) == ['《'] + (sender + ['》'] + message);
    assert r.value.0 + ['》'] + r.value.1 == sender + ['》'] + message by {
      assert (['《'] + (r.value.0 + ['》'] + r.value.1))[1..] == r.value.0 + ['》'] + r.value.1;
      assert (['《'] + (sender + ['》'] + message))[1..] == sender + ['》'] + message;
    }
    SeparatedKeyInjective(r.value.0, r.value.1, sender, message, '》');
  }

  /**
   * The game id the sync plugin sends under is a player the binding plugin
   * itself finds bound to that same QQ id: in a state the binding plugin
   * keeps, the two lookups agree.
   */
  lemma GameIdIsOwnBinding(st: Binding.State, qq: string)
    requires BindingProps.Valid(st)
    requires GameIdByQq(Some(st.bindings), qq).Some?
    ensures var g := GameIdByQq(Some(st.bindings), qq).value;
      Binding.FindBinding(st.keys, st.bindings, g) == Some(Binding.Bound(g, qq))
  {
    var g := GameIdByQq(Some(st.bindings), qq).value;
    assert st.bindings[qq][0].game == g;
    assert qq in Elems(st.keys);
    var k :| 0 <= k < |st.keys| && st.keys[k] == qq;
    var r := Binding.FindBinding(st.keys, st.bindings, g);
    assert r.Some?;
    var q, i :| q in st.bindings && 0 <= i < |st.bindings[q]| && st.bindings[q][i] == r.value;
    assert q == qq && i == 0;
  }

  /**
   * Every text sent to the server names its sender: the user's game id when
   * the binding plugin is loaded (an unbound user never gets this far), the
   * `QQ <id>` fallback only when it is not; the message is the stripped text.
   */
  lemma SentTextNamesSender(cfg: Config, bindings: Option<map<string, seq<Binding.Bound>>>, user: int, group: int, text: string)
    requires HandleMc(cfg, bindings, user, group, text).SentToMc?
    requires bindings.Some? ==> '》' !in GameIdByQq(bindings, IntToString(user)).value
    ensures bindings.Some? ==>
      ParseMcText(HandleMc(cfg, bindings, user, group, text).text) == Some((GameIdByQq(bindings, IntToString(user)).value, Strip(text)))
    ensures bindings.None? ==>
      ParseMcText(HandleMc(cfg, bindings, user, group, text).text) == Some((QqSender(user), Strip(text)))
  {
    if bindings.Some? {
      McTextRoundTrip(GameIdByQq(bindings, IntToString(user)).value, Strip(text));
    } else {
      QqSenderNoBracket(user);
      McTextRoundTrip(QqSender(user), Strip(text));
    }
  }

  // ------------------------------------------------------------ sync_config

  /** Every feature lists each group once. */
  predicate GroupsDistinct(cfg: Config) {
    Distinct(cfg.auto.groups) && Distinct(cfg.manual.groups) && Distinct(cfg.toMc.groups)
  }

  lemma FeatureAtDistinct(cfg: Config)
    ensures GroupsDistinct(cfg) <==> forall m :: Distinct(FeatureAt(cfg, m).groups)
  {
    assert FeatureAt(cfg, AutoMc) == cfg.auto && FeatureAt(cfg, ManualMc) == cfg.manual && FeatureAt(cfg, ManualQq) == cfg.toMc;
  }

  /** Removing the first `g` of a list that holds each group once leaves no `g`. */
  lemma RemoveGroupGone(gs: seq<int>, g: int)
    requires Distinct(gs)
    ensures g !in RemoveGroup(gs, g)
    ensures Distinct(RemoveGroup(gs, g))
  {
    if g in gs {
      var r := RemoveGroup(gs, g);
      assert multiset(r)[g] == 0 by {
        var i := FirstIndex(gs, g);
        assert gs == gs[..i] + [g] + gs[i + 1..];
        assert multiset(gs)[g] == 1 by {
          assert forall k | 0 <= k < |gs| && k != i :: gs[k] != g;
          MultiplicityOne(gs, i);
        }
      }
      DistinctSub(gs, r);
    }
  }

  /** The multiplicity of the element at `i` of a sequence with no repetitions is one. */
  lemma {:induction false} MultiplicityOne(gs: seq<int>, i: nat)
    requires i < |gs| && Distinct(gs)
    ensures multiset(gs)[gs[i]] == 1
    decreases |gs|
  {
    assert gs == [gs[0]] + gs[1..];
    HeadNotInTail(gs);
    if i > 0 {
      DistinctTail(gs);
      MultiplicityOne(gs[1..], i - 1);
      assert gs[1..][i - 1] == gs[i];
    }
  }

  lemma HeadNotInTail(gs: seq<int>)
    requires |gs| > 0 && Distinct(gs)
    ensures gs[0] !in gs[1..]
  {
    forall k | 0 <= k < |gs[1..]|
      ensures gs[1..][k] != gs[0]
    {
      assert gs[1..][k] == gs[k + 1];
    }
  }

  lemma DistinctTail(gs: seq<int>)
    requires |gs| > 0 && Distinct(gs)
    ensures Distinct(gs[1..])
  {
    var t := gs[1..];
    forall a, b | 0 <= a < b < |t|
      ensures t[a] != t[b]
    {
      assert t[a] == gs[a + 1] && t[b] == gs[b + 1];
    }
  }

  /** A sequence whose multiset is below that of a sequence without repetitions has none either. */
  lemma DistinctSub(gs: seq<int>, r: seq<int>)
    requires Distinct(gs) && multiset(r) <= multiset(gs)
    ensures Distinct(r)
  {
    forall i, j | 0 <= i < j < |r|
      ensures r[i] != r[j]
    {
      DistinctPair(gs, r, i, j);
    }
  }

  lemma DistinctPair(gs: seq<int>, r: seq<int>, i: int, j: int)
    requires Distinct(gs) && multiset(r) <= multiset(gs)
    requires 0 <= i < j < |r|
    ensures r[i] != r[j]
  {
    if r[i] == r[j] {
      TwiceCounted(r, i, j);
      assert r[i] in multiset(gs);
      var k :| 0 <= k < |gs| && gs[k] == r[i];
      MultiplicityOne(gs, k);
    }
  }

  /** An element found at two places is counted at least twice. */
  lemma TwiceCounted(r: seq<int>, i: int, j: int)
    requires 0 <= i < j < |r| && r[i] == r[j]
    ensures multiset(r)[r[i]] >= 2
  {
    var x := r[i];
    assert r == r[..i] + [x] + r[i + 1..j] + [x] + r[j + 1..];
  }

  /** `addgroup` of a listed group and `removegroup` of an unlisted one change nothing. */
  lemma GroupEditsIdempotent(gs: seq<int>, g: int)
    ensures AddGroup(AddGroup(gs, g), g) == AddGroup(gs, g)
    ensures Distinct(gs) ==> RemoveGroup(RemoveGroup(gs, g), g) == RemoveGroup(gs, g)
  {
    if Distinct(gs) {
      RemoveGroupGone(gs, g);
    }
  }

  /** Removing a group that was just added gives back the list it was added to. */
  lemma AddThenRemove(gs: seq<int>, g: int)
    requires g !in gs
    ensures RemoveGroup(AddGroup(gs, g), g) == gs
  {
    var a := gs + [g];
    assert FirstIndex(a, g) == |gs|;
    assert a[..|gs|] == gs;
  }

  /** Every `sync_config` command keeps each group list free of repetitions. */
  lemma SyncConfigKeepsDistinct(cfg: Config, text: string)
    requires GroupsDistinct(cfg)
    ensures GroupsDistinct(SyncConfig(cfg, text).0)
  {
    var r := SyncConfig(cfg, text);
    FeatureAtDistinct(cfg);
    FeatureAtDistinct(r.0);
    if r.1.Added? {
      var gs := FeatureAt(cfg, r.1.mode).groups;
      assert Distinct(gs + [r.1.group]) by {
        forall i, j | 0 <= i < j < |gs + [r.1.group]|
          ensures (gs + [r.1.group])[i] != (gs + [r.1.group])[j]
        {
          assert (gs + [r.1.group])[i] == gs[i];
        }
      }
    } else if r.1.Removed? {
      RemoveGroupGone(FeatureAt(cfg, r.1.mode).groups, r.1.group);
    }
  }

  /** A feature put back unchanged leaves the configuration as it was. */
  lemma WithOwnFeature(cfg: Config, m: Mode)
    ensures WithFeature(cfg, m, FeatureAt(cfg, m)) == cfg
  {
  }

  lemma SwitchIdempotent(cfg: Config, args: seq<string>, on: bool)
    requires |args| > 0
    ensures Switch(Switch(cfg, args, on).0, args, on).0 == Switch(cfg, args, on).0
  {
    if |args| >= 2 && ModeOf(args[1]).Some? {
      var m := ModeOf(args[1]).value;
      var c := Switch(cfg, args, on).0;
      assert FeatureAt(c, m).(enabled := on) == FeatureAt(c, m);
      WithOwnFeature(c, m);
    }
  }

  lemma EditIdempotent(cfg: Config, args: seq<string>, add: bool)
    requires |args| > 0 && GroupsDistinct(cfg)
    ensures EditGroups(EditGroups(cfg, args, add).0, args, add).0 == EditGroups(cfg, args, add).0
  {
    var r := EditGroups(cfg, args, add);
    FeatureAtDistinct(cfg);
    if r.1.Removed? {
      RemoveGroupGone(FeatureAt(cfg, r.1.mode).groups, r.1.group);
    }
  }

  /** Giving the same `sync_config` command twice has the effect of giving it once. */
  lemma SyncConfigIdempotent(cfg: Config, text: string)
    requires GroupsDistinct(cfg)
    ensures SyncConfig(SyncConfig(cfg, text).0, text).0 == SyncConfig(cfg, text).0
  {
    var args := Split(Strip(text));
    if |args| > 0 {
      var command := Lower(args[0]);
      if command == "enable" || command == "disable" {
        SwitchIdempotent(cfg, args, command == "enable");
      } else if command == "addgroup" || command == "removegroup" {
        EditIdempotent(cfg, args, command == "addgroup");
      }
    }
  }
}

=== FILE: player_coords.dfy ===
/**
 * The player coordinate plugin: finding a player's `.dat` files under the
 * world's `playerdata` folder, reading the position and dimension from the
 * preferred file, rewriting both in every file, resolving the world folder
 * from the server configuration, and the `getpos` / `setpos` commands.
 *
 * A player file is reduced to the two NBT tags the plugin touches: the `Pos`
 * list and the `Dimension` string, each possibly absent. Coordinates are
 * reals (Python floats without rounding).
 */
module PlayerCoords {
  import opened Wrappers
  import opened Text
  import ChunkPaths

  type Path = ChunkPaths.Path

  datatype Pos = Pos(x: real, y: real, z: real)

  /** The tags of a player's NBT file the plugin reads and writes. */
  datatype PlayerFile = PlayerFile(pos: Option<Pos>, dimension: Option<string>)

  /** One entry of `usercache.json`. */
  datatype CacheEntry = CacheEntry(name: string, uuid: string)

  /**
   * What the plugin can see of the disk: directories, player files nbtlib can
   * load, readable `usercache.json` files, and everything else that exists
   * (start scripts, files nbtlib cannot load).
   */
  datatype Disk = Disk(
    dirs: set<Path>,
    players: map<Path, PlayerFile>,
    usercaches: map<Path, seq<CacheEntry>>,
    others: set<Path>)

  /** What `get_player_pos` returns: the position and the dimension id. */
  datatype Reading = Reading(pos: Pos, dimension: string)

  const Overworld := "minecraft:overworld"

  /** `os.path.exists`. */
  predicate Exists(d: Disk, p: Path) {
    p in d.dirs || p in d.players || p in d.usercaches || p in d.others
  }

  /** `os.path.dirname`: the path without its last component. */
  function Parent(p: Path): (r: Path)
    ensures |p| > 0 ==> r + [p[|p| - 1]] == p
  {
    if |p| == 0 then [] else p[..|p| - 1]
  }

  // ------------------------------------------------------------ finding the files

  /** `uuid_with_dash`: a 32-character identifier cut 8-4-4-4-12 and joined by dashes. */
  function Dashed(id: string): (r: string)
    requires |id| == 32
    ensures |r| == 36
    ensures r[8] == '-' && r[13] == '-' && r[18] == '-' && r[23] == '-'
    ensures r[..8] == id[..8] && r[9..13] == id[8..12] && r[14..18] == id[12..16]
    ensures r[19..23] == id[16..20] && r[24..] == id[20..]
  {
    id[..8] + "-" + id[8..12] + "-" + id[12..16] + "-" + id[16..20] + "-" + id[20..]
  }

  /** Is `id` tried in its dashed form as well? */
  predicate Undashed(id: string) {
    |id| == 32 && '-' !in id
  }

  function DatFile(pd: Path, stem: string): Path {
    pd + [stem + ".dat"]
  }

  function OldFile(pd: Path, stem: string): Path {
    pd + [stem + ".dat_old"]
  }

  /** The `.dat` and then the `.dat_old` file of one stem, those that exist. */
  function StemFiles(d: Disk, pd: Path, stem: string): (r: seq<Path>)
    ensures |r| <= 2
    ensures forall p <- r :: Exists(d, p) && (p == DatFile(pd, stem) || p == OldFile(pd, stem))
    ensures Exists(d, DatFile(pd, stem)) ==> DatFile(pd, stem) in r
    ensures Exists(d, OldFile(pd, stem)) ==> OldFile(pd, stem) in r
  {
    (if Exists(d, DatFile(pd, stem)) then [DatFile(pd, stem)] else [])
      + (if Exists(d, OldFile(pd, stem)) then [OldFile(pd, stem)] else [])
  }

  /** Index of the first entry at or after `i` whose name matches `id` ignoring case, or `|es|`. */
  function NamedFrom(es: seq<CacheEntry>, id: string, i: nat): (k: nat)
    requires i <= |es|
    ensures i <= k <= |es|
    ensures forall j | i <= j < k :: Lower(es[j].name) != Lower(id)
    ensures k < |es| ==> Lower(es[k].name) == Lower(id)
    decreases |es| - i
  {
    if i < |es| && Lower(es[i].name) != Lower(id) then NamedFrom(es, id, i + 1) else i
  }

  /** `usercache.json` sits next to the world folder. */
  function UsercachePath(world: Path): Path {
    Parent(world) + ["usercache.json"]
  }

  /** The uuid of the first usercache entry named `id` (any case); the loop stops at that entry. */
  function CachedUuid(d: Disk, world: Path, id: string): (r: Option<string>)
    ensures r.Some? ==> UsercachePath(world) in d.usercaches
    ensures r.Some? ==>
      var es := d.usercaches[UsercachePath(world)];
      var k := NamedFrom(es, id, 0);
      k < |es| && es[k].uuid == r.value
  {
    var cp := UsercachePath(world);
    if cp in d.usercaches then
      var es := d.usercaches[cp];
      var k := NamedFrom(es, id, 0);
      if k < |es| then Some(es[k].uuid) else None
    else None
  }

  /** The files tried before the usercache: the identifier itself, then its dashed form. */
  function DirectFiles(d: Disk, pd: Path, id: string): (r: seq<Path>)
    ensures |r| <= 4
  {
    StemFiles(d, pd, id) + (if Undashed(id) then StemFiles(d, pd, Dashed(id)) else [])
  }

  /**
   * `_find_player_dat_files`: nothing without a `playerdata` folder; otherwise
   * the direct files, and only when there are none, the files of the uuid the
   * usercache gives for that name.
   */
  function Candidates(d: Disk, world: Path, id: string): (r: seq<Path>)
    ensures |r| <= 4
    ensures forall p <- r :: Exists(d, p)
    ensures |r| > 0 ==> Exists(d, world + ["playerdata"])
  {
    var pd := world + ["playerdata"];
    if !Exists(d, pd) then []
    else
      var found := DirectFiles(d, pd, id);
      if |found| > 0 then found
      else match CachedUuid(d, world, id)
        case Some(u) => StemFiles(d, pd, u)
        case None => []
  }

  /** A `.dat` file, as opposed to a `.dat_old` one. */
  predicate IsDat(p: Path) {
    |p| > 0 && EndsWith(p[|p| - 1], ".dat") && !EndsWith(p[|p| - 1], ".dat_old")
  }

  /** Index of the first `.dat` file at or after `i`, or `|files|`. */
  function DatFrom(files: seq<Path>, i: nat): (k: nat)
    requires i <= |files|
    ensures i <= k <= |files|
    ensures forall j | i <= j < k :: !IsDat(files[j])
    ensures k < |files| ==> IsDat(files[k])
    decreases |files| - i
  {
    if i < |files| && !IsDat(files[i]) then DatFrom(files, i + 1) else i
  }

  /** The file `get_player_pos` reads: the first `.dat`, else the first candidate. */
  function ChooseFile(files: seq<Path>): (r: Option<Path>)
    ensures r.Some? <==> |files| > 0
    ensures r.Some? ==> r.value in files
    ensures forall i | 0 <= i < |files| && IsDat(files[i]) :: r.Some? && IsDat(r.value) && r.value in files[..i + 1]
    ensures (forall i | 0 <= i < |files| :: !IsDat(files[i])) && |files| > 0 ==> r == Some(files[0])
  {
    var k := DatFrom(files, 0);
    if k < |files| then
      assert forall i | 0 <= i < |files| && IsDat(files[i]) :: k <= i && files[k] == files[..i + 1][k];
      Some(files[k])
    else if |files| > 0 then Some(files[0])
    else None
  }

  // ------------------------------------------------------------ reading and writing

  /** The position and dimension in one file; no `Pos` tag means nothing to report. */
  function ReadFile(f: PlayerFile): (r: Option<Reading>)
    ensures r.Some? <==> f.pos.Some?
    ensures f.dimension.None? && r.Some? ==> r.value.dimension == Overworld
  {
    match f.pos
    case Some(p) => Some(Reading(p, f.dimension.GetOr(Overworld)))
    case None => None
  }

  /** `get_player_pos`; a chosen path nbtlib cannot load gives nothing (the exception path). */
  function GetPlayerPos(d: Disk, world: Path, id: string): (r: Option<Reading>)
    ensures r.Some? ==> ChooseFile(Candidates(d, world, id)).Some?
    ensures r.Some? <==>
      (var c := ChooseFile(Candidates(d, world, id));
       c.Some? && c.value in d.players && d.players[c.value].pos.Some?)
  {
    match ChooseFile(Candidates(d, world, id))
    case Some(p) => if p in d.players then ReadFile(d.players[p]) else None
    case None => None
  }

  /** The bounds `set_player_pos` and `handle_setpos` enforce. */
  predicate InRange(p: Pos) {
    -30000000.0 <= p.x <= 30000000.0 && -64.0 <= p.y <= 320.0 && -30000000.0 <= p.z <= 30000000.0
  }

  /** One file after the loop body: `Pos` replaced only if present, `Dimension` set when one is given. */
  function Rewritten(f: PlayerFile, p: Pos, dim: string): (r: PlayerFile)
    ensures r.pos.Some? <==> f.pos.Some?
    ensures r.pos.Some? ==> r.pos == Some(p)
    ensures dim != "" ==> r.dimension == Some(dim)
    ensures dim == "" ==> r.dimension == f.dimension
  {
    PlayerFile(if f.pos.Some? then Some(p) else None, if dim != "" then Some(dim) else f.dimension)
  }

  /** A file whose load and save succeed: loadable, and not among the files that fail. */
  predicate Writable(players: map<Path, PlayerFile>, broken: set<Path>, q: Path) {
    q in players && q !in broken
  }

  /**
   * The loop of `set_player_pos` over `files`; `broken` are the files whose
   * load or save raises. Returns the files afterwards and `success_count`.
   */
  function RewriteAll(players: map<Path, PlayerFile>, files: seq<Path>, broken: set<Path>, p: Pos, dim: string)
    : (r: (map<Path, PlayerFile>, nat))
    ensures r.0.Keys == players.Keys
    ensures r.1 <= |files|
    ensures r.1 > 0 <==> exists i | 0 <= i < |files| :: Writable(players, broken, files[i])
    ensures forall q | q in players ::
      r.0[q] == if q in files && q !in broken then Rewritten(players[q], p, dim) else players[q]
    decreases |files|
  {
    if |files| == 0 then (players, 0)
    else
      var q := files[0];
      var ok := Writable(players, broken, q);
      var next := if ok then players[q := Rewritten(players[q], p, dim)] else players;
      var rest := RewriteAll(next, files[1..], broken, p, dim);
      assert forall i | 1 <= i < |files| :: files[i] == files[1..][i - 1];
      assert forall k | 0 <= k < |files| - 1 :: files[1..][k] == files[k + 1];
      assert forall x | x in players :: x in files <==> x == q || x in files[1..];
      (rest.0, rest.1 + if ok then 1 else 0)
  }

  /**
   * `set_player_pos`: out-of-range coordinates are refused before any file is
   * looked at; otherwise every candidate is rewritten, and the answer is
   * whether at least one rewrite succeeded.
   */
  function SetPlayerPos(d: Disk, world: Path, id: string, p: Pos, dim: string, broken: set<Path>)
    : (r: (Disk, bool))
    ensures !InRange(p) ==> r == (d, false)
    ensures r.1 <==> (InRange(p) &&
      var files := Candidates(d, world, id);
      exists i | 0 <= i < |files| :: Writable(d.players, broken, files[i]))
    ensures r.0.dirs == d.dirs && r.0.usercaches == d.usercaches && r.0.others == d.others
    ensures r.0.players.Keys == d.players.Keys
    ensures forall q | q in d.players ::
      r.0.players[q] == if InRange(p) && q in Candidates(d, world, id) && q !in broken
        then Rewritten(d.players[q], p, dim) else d.players[q]
  {
    if !InRange(p) then (d, false)
    else
      var files := Candidates(d, world, id);
      if |files| == 0 then (d, false)
      else
        var w := RewriteAll(d.players, files, broken, p, dim);
        (d.(players := w.0), w.1 > 0)
  }

  // ------------------------------------------------------------ the world folder

  /** What the config manager offers: the configured working directory and start script. */
  datatype Site = Site(workingDir: Path, startScript: Path)

  /**
   * `_get_working_directory`: a configured directory is used if it exists and
   * is otherwise a failure; without one, the folder of an existing start
   * script is used. `[]` is the empty string, the failure value.
   */
  function WorkingDirectory(d: Disk, site: Option<Site>): (r: Path)
    ensures site.None? ==> r == []
    ensures site.Some? && |site.value.workingDir| > 0 ==>
      r == (if Exists(d, site.value.workingDir) then site.value.workingDir else [])
    ensures site.Some? && |site.value.workingDir| == 0 && |r| > 0 ==>
      Exists(d, site.value.startScript) && |site.value.startScript| > 0 &&
      r + [site.value.startScript[|site.value.startScript| - 1]] == site.value.startScript
  {
    match site
    case None => []
    case Some(s) =>
      if |s.workingDir| > 0 then
        if Exists(d, s.workingDir) then s.workingDir else []
      else if |s.startScript| > 0 && Exists(d, s.startScript) then Parent(s.startScript)
      else []
  }

  /**
   * `_init_modifier`: a known world folder stays; otherwise the working
   * directory itself if it holds `playerdata`, else its `world` folder if that
   * does, else none.
   */
  function InitModifier(world: Option<Path>, d: Disk, site: Option<Site>): (r: Option<Path>)
    ensures world.Some? ==> r == world
    ensures world.None? && r.Some? ==> Exists(d, r.value + ["playerdata"])
    ensures world.None? && r.Some? ==>
      var wd := WorkingDirectory(d, site);
      |wd| > 0 && (r.value == wd || r.value == wd + ["world"])
  {
    if world.Some? then world
    else
      var wd := WorkingDirectory(d, site);
      if |wd| == 0 then None
      else if Exists(d, wd + ["playerdata"]) then Some(wd)
      else if Exists(d, wd + ["world", "playerdata"]) then
        assert wd + ["world"] + ["playerdata"] == wd + ["world", "playerdata"];
        Some(wd + ["world"])
      else None
  }

  // ------------------------------------------------------------ commands

  /** What the plugin keeps between commands: the world folder once resolved (the modifier). */
  datatype State = State(world: Option<Path>)

  /** The config manager a command receives: its paths and whether the sender is an admin. */
  datatype Manager = Manager(site: Site, isAdmin: bool)

  function SiteOf(cm: Option<Manager>): Option<Site> {
    match cm
    case Some(m) => Some(m.site)
    case None => None
  }

  /** `on_config_reload` (and `on_unload`): the modifier is dropped and resolved again on the next command. */
  function Reload(st: State): (r: State)
    ensures r.world.None?
    ensures forall d, cm :: InitModifier(r.world, d, SiteOf(cm)) == InitModifier(None, d, SiteOf(cm))
  {
    State(None)
  }

  /** The name shown next to a dimension id: the three known ids get a Chinese name, any other is shown as it is. */
  function DimensionName(dim: string): (r: string)
    ensures r != dim <==> dim in {Overworld, "minecraft:nether", "minecraft:the_end"}
  {
    if dim == Overworld then "主世界"
    else if dim == "minecraft:nether" then "地狱"
    else if dim == "minecraft:the_end" then "末地"
    else dim
  }

  /** Powers of ten, for the fraction digits of a decimal. */
  function Pow10(n: nat): (r: nat)
    ensures r > 0
  {
    if n == 0 then 1 else 10 * Pow10(n - 1)
  }

  /**
   * `float(s)` for plain decimals: an optional sign, digits, and an optional
   * `.` with more digits, at least one digit in all.
   */
  function ParseNumber(s: string): (r: Option<real>)
    ensures r.Some? ==> |s| > 0
  {
    var signed := |s| > 0 && (s[0] == '-' || s[0] == '+');
    var body := if signed then s[1..] else s;
    var dot := IndexOfChar(body, '.');
    var whole := body[..dot];
    var frac := if dot < |body| then body[dot + 1..] else "";
    if |whole| + |frac| > 0 && AllDigits(whole) && AllDigits(frac) then
      var v := DigitsValue(whole) as real + DigitsValue(frac) as real / Pow10(|frac|) as real;
      Some(if signed && s[0] == '-' then -v else v)
    else None
  }

  /** What `setpos` makes of its words. */
  datatype SetposArgs = TooFewWords | NotNumbers | Args(player: string, pos: Pos, dimension: string)

  /**
   * The argument part of `handle_setpos`: at least four words, three of them
   * numbers; the fifth word, if any, is the dimension, taken as it is.
   */
  function ReadSetpos(parts: seq<string>): (r: SetposArgs)
    ensures r.TooFewWords? <==> |parts| < 4
    ensures r.Args? <==> |parts| >= 4 && ParseNumber(parts[1]).Some? && ParseNumber(parts[2]).Some? && ParseNumber(parts[3]).Some?
    ensures r.Args? ==> r.player == parts[0] && r.pos == Pos(ParseNumber(parts[1]).value, ParseNumber(parts[2]).value, ParseNumber(parts[3]).value)
    ensures r.Args? ==> r.dimension == if |parts| > 4 then parts[4] else Overworld
  {
    if |parts| < 4 then TooFewWords
    else
      match (ParseNumber(parts[1]), ParseNumber(parts[2]), ParseNumber(parts[3]))
      case (Some(x), Some(y), Some(z)) => Args(parts[0], Pos(x, y, z), if |parts| > 4 then parts[4] else Overworld)
      case _ => NotNumbers
  }

  /** The replies of both commands. */
  datatype Reply =
    | NotReady
    | Forbidden
    | Usage
    | BadNumbers
    | OutOfRange(pos: Pos)
    | Located(player: string, reading: Reading, shown: string)
    | NoData(player: string)
    | Moved(player: string, pos: Pos, dimension: string, shown: string)
    | MoveFailed(player: string)

  /** `handle_getpos`: resolve the world folder, take the first word as the player, and report. */
  function HandleGetpos(st: State, d: Disk, cm: Option<Manager>, text: string): (r: (State, Reply))
    ensures r.0.world == InitModifier(st.world, d, SiteOf(cm))
    ensures r.1 == NotReady <==> r.0.world.None?
    ensures r.1 == Usage <==> r.0.world.Some? && |Split(Strip(text))| == 0
    ensures r.1.Located? || r.1.NoData? <==> r.0.world.Some? && |Split(Strip(text))| > 0
    ensures r.1.Located? ==>
      r.1.player == Split(Strip(text))[0] && GetPlayerPos(d, r.0.world.value, r.1.player) == Some(r.1.reading) &&
      r.1.shown == DimensionName(r.1.reading.dimension)
    ensures r.1.NoData? ==> r.1.player == Split(Strip(text))[0] && GetPlayerPos(d, r.0.world.value, r.1.player).None?
  {
    var world := InitModifier(st.world, d, SiteOf(cm));
    var st' := State(world);
    if world.None? then (st', NotReady)
    else
      var parts := Split(Strip(text));
      if |parts| == 0 then (st', Usage)
      else match GetPlayerPos(d, world.value, parts[0])
        case Some(rd) => (st', Located(parts[0], rd, DimensionName(rd.dimension)))
        case None => (st', NoData(parts[0]))
  }

  /** The RCON command `_kick_player` sends. */
  function KickCommand(player: string): string {
    "kick " + player + " 坐标已修改，请重新登录"
  }

  /**
   * `handle_setpos`: resolve the world folder, check the sender, read the
   * words, check the range, kick the player when RCON is connected (the
   * answer is ignored), rewrite the files and report. Returns the state, the
   * disk, the reply and the RCON commands sent.
   */
  function HandleSetpos(st: State, d: Disk, cm: Option<Manager>, rconUp: bool, broken: set<Path>, text: string)
    : (r: (State, Disk, Reply, seq<string>))
    ensures r.0.world == InitModifier(st.world, d, SiteOf(cm))
    ensures r.2 == NotReady <==> r.0.world.None?
    ensures r.2 == Forbidden <==> r.0.world.Some? && cm.Some? && !cm.value.isAdmin
    ensures r.2 == Usage <==>
      r.0.world.Some? && !(cm.Some? && !cm.value.isAdmin) && ReadSetpos(Split(Strip(text))).TooFewWords?
    ensures r.2 == BadNumbers <==>
      r.0.world.Some? && !(cm.Some? && !cm.value.isAdmin) && ReadSetpos(Split(Strip(text))).NotNumbers?
    ensures r.2.OutOfRange? ==> !InRange(r.2.pos)
    ensures !(r.2.Moved? || r.2.MoveFailed?) ==> r.1 == d && r.3 == []
    ensures r.2.Moved? || r.2.MoveFailed? ==>
      var a := ReadSetpos(Split(Strip(text)));
      a.Args? && InRange(a.pos) && r.0.world.Some? && r.2.player == a.player &&
      r.3 == (if rconUp then [KickCommand(a.player)] else []) &&
      SetPlayerPos(d, r.0.world.value, a.player, a.pos, a.dimension, broken) == (r.1, r.2.Moved?)
    ensures r.2.Moved? ==> r.2.shown == DimensionName(r.2.dimension) && InRange(r.2.pos)
  {
    var world := InitModifier(st.world, d, SiteOf(cm));
    var st' := State(world);
    if world.None? then (st', d, NotReady, [])
    else if cm.Some? && !cm.value.isAdmin then (st', d, Forbidden, [])
    else match ReadSetpos(Split(Strip(text)))
      case TooFewWords => (st', d, Usage, [])
      case NotNumbers => (st', d, BadNumbers, [])
      case Args(player, p, dim) =>
        if !InRange(p) then (st', d, OutOfRange(p), [])
        else
          var kicks := if rconUp then [KickCommand(player)] else [];
          var w := SetPlayerPos(d, world.value, player, p, dim, broken);
          if w.1 then (st', w.0, Moved(player, p, dim, DimensionName(dim)), kicks)
          else (st', w.0, MoveFailed(player), kicks)
  }
}

=== FILE: player_coords_props.dfy ===
/**
 * Properties of the player coordinate plugin: the dashed uuid form gives the
 * identifier back, candidates are distinct and come in the promised order,
 * the usercache is only a fallback, a write is read back, writing twice is
 * writing once, and `setpos` reads back the numbers it was given.
 */
module PlayerCoordsProps {
  import opened Wrappers
  import opened Text
  import opened PlayerCoords

  // ------------------------------------------------------------ uuid dashes

  /** `s.replace("-", "")`. */
  function Undash(s: string): (r: string)
    ensures '-' !in r
  {
    if |s| == 0 then [] else (if s[0] == '-' then [] else [s[0]]) + Undash(s[1..])
  }

  lemma {:induction false} UndashAppend(a: string, b: string)
    ensures Undash(a + b) == Undash(a) + Undash(b)
  {
    if |a| > 0 {
      assert (a + b)[1..] == a[1..] + b;
      UndashAppend(a[1..], b);
    } else {
      assert a + b == b;
    }
  }

  lemma {:induction false} UndashPlain(s: string)
    requires '-' !in s
    ensures Undash(s) == s
  {
    if |s| > 0 {
      assert s[0] != '-';
      UndashPlain(s[1..]);
      assert s == [s[0]] + s[1..];
    }
  }

  /** A dash between two pieces disappears and the pieces stay. */
  lemma UndashSep(x: string, y: string)
    ensures Undash(x + "-" + y) == Undash(x) + Undash(y)
  {
    var dash := "-";
    assert Undash(dash) == [] + Undash(dash[1..]);
    assert dash[1..] == [];
    UndashAppend(x, dash);
    UndashAppend(x + dash, y);
  }

  /** Removing the dashes from the dashed form gives back the 32-character identifier. */
  lemma DashedRoundTrip(id: string)
    requires Undashed(id)
    ensures Undash(Dashed(id)) == id
  {
    var a, b, c, e, f := id[..8], id[8..12], id[12..16], id[16..20], id[20..];
    assert '-' !in a && '-' !in b && '-' !in c && '-' !in e && '-' !in f;
    UndashFive(a, b, c, e, f);
    assert a + b + c + e + f == id;
  }

  /** Five dash-free pieces joined by dashes lose exactly the dashes. */
  lemma UndashFive(a: string, b: string, c: string, e: string, f: string)
    requires '-' !in a && '-' !in b && '-' !in c && '-' !in e && '-' !in f
    ensures Undash(a + "-" + b + "-" + c + "-" + e + "-" + f) == a + b + c + e + f
  {
    UndashPlain(a);
    UndashThen(a, b);
    UndashThen(a + "-" + b, c);
    UndashThen(a + "-" + b + "-" + c, e);
    UndashThen(a + "-" + b + "-" + c + "-" + e, f);
  }

  /** A dash and then a dash-free piece after `s`: the dash goes, the piece stays. */
  lemma UndashThen(s: string, x: string)
    requires '-' !in x
    ensures Undash(s + "-" + x) == Undash(s) + x
  {
    UndashSep(s, x);
    UndashPlain(x);
  }

  // ------------------------------------------------------------ candidates

  /** The last component of a path under `pd`. */
  lemma FileNames(pd: Path, stem: string)
    ensures DatFile(pd, stem)[|pd|] == stem + ".dat" && |DatFile(pd, stem)| == |pd| + 1
    ensures OldFile(pd, stem)[|pd|] == stem + ".dat_old" && |OldFile(pd, stem)| == |pd| + 1
  {
  }

  /** The files of one stem are distinct. */
  lemma StemFilesDistinct(d: Disk, pd: Path, stem: string)
    ensures var r := StemFiles(d, pd, stem); forall i, j | 0 <= i < j < |r| :: r[i] != r[j]
  {
    FileNames(pd, stem);
    assert |stem + ".dat"| != |stem + ".dat_old"|;
  }

  /** No file of the identifier is a file of its dashed form. */
  lemma DashedFilesDiffer(d: Disk, pd: Path, id: string)
    requires Undashed(id)
    ensures forall p <- StemFiles(d, pd, id), q <- StemFiles(d, pd, Dashed(id)) :: p != q
  {
    var u := Dashed(id);
    FileNames(pd, id);
    FileNames(pd, u);
    assert (id + ".dat_old")[8] == id[8] != '-' == (u + ".dat")[8];
    assert |id + ".dat"| == 36 && |id + ".dat_old"| == 40 && |u + ".dat"| == 40 && |u + ".dat_old"| == 44;
    forall p <- StemFiles(d, pd, id), q <- StemFiles(d, pd, u)
      ensures p != q
    {
      assert p[|pd|] != q[|pd|];
    }
  }

  lemma {:induction false} AppendDistinct(a: seq<Path>, b: seq<Path>)
    requires forall i, j | 0 <= i < j < |a| :: a[i] != a[j]
    requires forall i, j | 0 <= i < j < |b| :: b[i] != b[j]
    requires forall p <- a, q <- b :: p != q
    ensures var r := a + b; forall i, j | 0 <= i < j < |r| :: r[i] != r[j]
  {
    var r := a + b;
    forall i, j | 0 <= i < j < |r|
      ensures r[i] != r[j]
    {
      if j < |a| {
        assert r[i] == a[i] && r[j] == a[j];
      } else if i >= |a| {
        assert r[i] == b[i - |a|] && r[j] == b[j - |a|];
      } else {
        assert r[i] == a[i] && r[i] in a && r[j] == b[j - |a|] && r[j] in b;
      }
    }
  }

  /** `_find_player_dat_files` never lists a file twice. */
  lemma CandidatesDistinct(d: Disk, world: Path, id: string)
    ensures var r := Candidates(d, world, id); forall i, j | 0 <= i < j < |r| :: r[i] != r[j]
  {
    var pd := world + ["playerdata"];
    StemFilesDistinct(d, pd, id);
    if Undashed(id) {
      StemFilesDistinct(d, pd, Dashed(id));
      DashedFilesDiffer(d, pd, id);
      AppendDistinct(StemFiles(d, pd, id), StemFiles(d, pd, Dashed(id)));
    } else {
      assert DirectFiles(d, pd, id) == StemFiles(d, pd, id) + [];
    }
    match CachedUuid(d, world, id)
    case Some(u) => StemFilesDistinct(d, pd, u);
    case None =>
  }

  /** A file named after the identifier or its dashed form. */
  predicate Direct(pd: Path, id: string, p: Path) {
    p == DatFile(pd, id) || p == OldFile(pd, id)
      || (Undashed(id) && (p == DatFile(pd, Dashed(id)) || p == OldFile(pd, Dashed(id))))
  }

  lemma DirectFilesAre(d: Disk, pd: Path, id: string)
    ensures forall p <- DirectFiles(d, pd, id) :: Direct(pd, id, p) && Exists(d, p)
    ensures forall p | Direct(pd, id, p) && Exists(d, p) :: p in DirectFiles(d, pd, id)
  {
  }

  /**
   * When any file named after the identifier (or its dashed form) exists, the
   * candidates are exactly those files: the usercache is not read.
   */
  lemma DirectWins(d: Disk, world: Path, id: string, p0: Path)
    requires Exists(d, world + ["playerdata"])
    requires Direct(world + ["playerdata"], id, p0) && Exists(d, p0)
    ensures forall p <- Candidates(d, world, id) :: Direct(world + ["playerdata"], id, p)
    ensures forall p | Direct(world + ["playerdata"], id, p) && Exists(d, p) :: p in Candidates(d, world, id)
  {
    DirectFilesAre(d, world + ["playerdata"], id);
  }

  /**
   * When no such file exists, the candidates are the existing files of the
   * uuid of the first usercache entry whose name matches in any case, and
   * nothing when no entry matches.
   */
  lemma UsercacheFallback(d: Disk, world: Path, id: string)
    requires Exists(d, world + ["playerdata"])
    requires forall p | Direct(world + ["playerdata"], id, p) :: !Exists(d, p)
    ensures var cp := UsercachePath(world);
      var es := if cp in d.usercaches then d.usercaches[cp] else [];
      var k := NamedFrom(es, id, 0);
      Candidates(d, world, id) == if k < |es| then StemFiles(d, world + ["playerdata"], es[k].uuid) else []
  {
    var pd := world + ["playerdata"];
    DirectFilesAre(d, pd, id);
    assert Direct(pd, id, DatFile(pd, id)) && Direct(pd, id, OldFile(pd, id));
    assert StemFiles(d, pd, id) == [];
    if Undashed(id) {
      assert Direct(pd, id, DatFile(pd, Dashed(id))) && Direct(pd, id, OldFile(pd, Dashed(id)));
      assert StemFiles(d, pd, Dashed(id)) == [];
    }
    assert DirectFiles(d, pd, id) == [];
  }

  /** The identifier's own `.dat` file, when it exists, is the first candidate. */
  lemma OwnDatFirst(d: Disk, world: Path, id: string)
    requires Exists(d, world + ["playerdata"]) && Exists(d, DatFile(world + ["playerdata"], id))
    ensures Candidates(d, world, id)[0] == DatFile(world + ["playerdata"], id)
  {
  }

  /** Every existing dashed file comes after every existing file of the plain identifier. */
  lemma PlainBeforeDashed(d: Disk, world: Path, id: string, i: int, j: int)
    requires Undashed(id) && 0 <= i < |Candidates(d, world, id)| && 0 <= j < |Candidates(d, world, id)|
    requires var pd := world + ["playerdata"]; var r := Candidates(d, world, id);
      (r[i] == DatFile(pd, Dashed(id)) || r[i] == OldFile(pd, Dashed(id))) && (r[j] == DatFile(pd, id) || r[j] == OldFile(pd, id))
    ensures j < i
  {
    var pd := world + ["playerdata"];
    var r := Candidates(d, world, id);
    DirectFilesAre(d, pd, id);
    assert |r| > 0;
    var a := StemFiles(d, pd, id);
    assert r == a + StemFiles(d, pd, Dashed(id));
    DashedFilesDiffer(d, pd, id);
    FileNames(pd, id);
    FileNames(pd, Dashed(id));
    assert |id + ".dat"| == 36 && |id + ".dat_old"| == 40 && |Dashed(id) + ".dat"| == 40;
    assert (id + ".dat_old")[8] == id[8] != '-' == (Dashed(id) + ".dat")[8];
    assert forall k | 0 <= k < |a| :: r[k] == a[k] && r[k] in a;
    assert forall k | |a| <= k < |r| :: r[k] in StemFiles(d, pd, Dashed(id));
  }

  // ------------------------------------------------------------ choosing and reading

  lemma DatFileIsDat(pd: Path, stem: string)
    ensures IsDat(DatFile(pd, stem))
    ensures !IsDat(OldFile(pd, stem))
  {
    var n, o := stem + ".dat", stem + ".dat_old";
    assert n[|n| - 4..] == ".dat";
    assert o[|o| - 1] == 'd' != 't';
    assert o[|o| - 4..][3] == 'd' && ".dat"[3] == 't';
    if |n| >= 8 {
      assert n[|n| - 8..][7] == 't' && ".dat_old"[7] == 'd';
    }
  }

  /**
   * `getpos` reads the identifier's own `.dat` when it exists (not a
   * `.dat_old` written later), and reports the overworld when it has no
   * dimension tag.
   */
  lemma ReadsOwnDat(d: Disk, world: Path, id: string)
    requires Exists(d, world + ["playerdata"])
    requires DatFile(world + ["playerdata"], id) in d.players
    ensures GetPlayerPos(d, world, id) == ReadFile(d.players[DatFile(world + ["playerdata"], id)])
    ensures var f := d.players[DatFile(world + ["playerdata"], id)];
      f.pos.Some? && f.dimension.None? ==> GetPlayerPos(d, world, id) == Some(Reading(f.pos.value, Overworld))
  {
    var pd := world + ["playerdata"];
    OwnDatFirst(d, world, id);
    DatFileIsDat(pd, id);
    var r := Candidates(d, world, id);
    assert r[..1] == [r[0]];
  }

  /** With only the `.dat_old` file of the identifier present, that file is read. */
  lemma ReadsOldWhenAlone(d: Disk, world: Path, id: string)
    requires !Undashed(id) && Exists(d, world + ["playerdata"])
    requires !Exists(d, DatFile(world + ["playerdata"], id))
    requires OldFile(world + ["playerdata"], id) in d.players
    ensures GetPlayerPos(d, world, id) == ReadFile(d.players[OldFile(world + ["playerdata"], id)])
  {
    var pd := world + ["playerdata"];
    assert Candidates(d, world, id) == [OldFile(pd, id)];
  }

  // ------------------------------------------------------------ writing

  lemma RewrittenIdempotent(f: PlayerFile, p: Pos, dim: string)
    ensures Rewritten(Rewritten(f, p, dim), p, dim) == Rewritten(f, p, dim)
  {
  }

  /** A disk with the same paths offers the same candidates. */
  lemma CandidatesByPaths(d: Disk, e: Disk, world: Path, id: string)
    requires e.dirs == d.dirs && e.usercaches == d.usercaches && e.others == d.others
    requires e.players.Keys == d.players.Keys
    ensures Candidates(e, world, id) == Candidates(d, world, id)
  {
    assert forall p :: Exists(e, p) == Exists(d, p) by {
      forall p
        ensures Exists(e, p) == Exists(d, p)
      {
        assert p in e.players <==> p in e.players.Keys;
        assert p in d.players <==> p in d.players.Keys;
      }
    }
  }

  /**
   * After a successful rewrite of the file `get_player_pos` reads, it reports
   * the new position and dimension.
   */
  lemma SetThenGet(d: Disk, world: Path, id: string, p: Pos, dim: string, broken: set<Path>)
    requires InRange(p) && dim != ""
    requires var c := ChooseFile(Candidates(d, world, id));
      c.Some? && Writable(d.players, broken, c.value) && d.players[c.value].pos.Some?
    ensures SetPlayerPos(d, world, id, p, dim, broken).1
    ensures GetPlayerPos(SetPlayerPos(d, world, id, p, dim, broken).0, world, id) == Some(Reading(p, dim))
  {
    var files := Candidates(d, world, id);
    var c := ChooseFile(files).value;
    SetSucceeds(d, world, id, p, dim, broken, c);
    GetRewritten(d, world, id, p, dim, broken, c);
  }

  /** `set_player_pos` in range reports success when one of the candidates is writable. */
  lemma SetSucceeds(d: Disk, world: Path, id: string, p: Pos, dim: string, broken: set<Path>, c: Path)
    requires InRange(p) && c in Candidates(d, world, id) && Writable(d.players, broken, c)
    ensures SetPlayerPos(d, world, id, p, dim, broken).1
  {
    var files := Candidates(d, world, id);
    var i :| 0 <= i < |files| && files[i] == c;
    assert Writable(d.players, broken, files[i]);
  }

  /** After the rewrite, `get_player_pos` reads the rewritten chosen file. */
  lemma GetRewritten(d: Disk, world: Path, id: string, p: Pos, dim: string, broken: set<Path>, c: Path)
    requires InRange(p) && dim != ""
    requires ChooseFile(Candidates(d, world, id)) == Some(c) && Writable(d.players, broken, c) && d.players[c].pos.Some?
    ensures GetPlayerPos(SetPlayerPos(d, world, id, p, dim, broken).0, world, id) == Some(Reading(p, dim))
  {
    var e := SetPlayerPos(d, world, id, p, dim, broken).0;
    CandidatesByPaths(d, e, world, id);
    assert e.players[c] == Rewritten(d.players[c], p, dim);
  }

  /** Setting the same position twice leaves the files as setting it once. */
  lemma SetIdempotent(d: Disk, world: Path, id: string, p: Pos, dim: string, broken: set<Path>)
    ensures var e := SetPlayerPos(d, world, id, p, dim, broken).0;
      SetPlayerPos(e, world, id, p, dim, broken).0 == e
  {
    var e := SetPlayerPos(d, world, id, p, dim, broken).0;
    var e2 := SetPlayerPos(e, world, id, p, dim, broken).0;
    CandidatesByPaths(d, e, world, id);
    forall q | q in e.players
      ensures e2.players[q] == e.players[q]
    {
      RewrittenIdempotent(d.players[q], p, dim);
    }
    assert e2.players == e.players;
  }

  // ------------------------------------------------------------ the world folder

  /** A working directory that is itself a world folder wins over its `world` subfolder. */
  lemma WorkingDirWins(d: Disk, site: Site)
    requires var wd := WorkingDirectory(d, Some(site)); |wd| > 0 && Exists(d, wd + ["playerdata"])
    ensures InitModifier(None, d, Some(site)) == Some(WorkingDirectory(d, Some(site)))
  {
  }

  /** Otherwise the `world` subfolder is used when it holds `playerdata`, and the usercache beside it is read. */
  lemma WorldSubfolder(d: Disk, site: Site)
    requires var wd := WorkingDirectory(d, Some(site));
      |wd| > 0 && !Exists(d, wd + ["playerdata"]) && Exists(d, wd + ["world", "playerdata"])
    ensures var wd := WorkingDirectory(d, Some(site));
      InitModifier(None, d, Some(site)) == Some(wd + ["world"]) && UsercachePath(wd + ["world"]) == wd + ["usercache.json"]
  {
    var wd := WorkingDirectory(d, Some(site));
    assert Parent(wd + ["world"]) == wd;
  }

  /** A configured directory that does not exist disables the plugin; the start script is not consulted. */
  lemma MissingDirNoFallback(d: Disk, site: Site)
    requires |site.workingDir| > 0 && !Exists(d, site.workingDir)
    ensures InitModifier(None, d, Some(site)) == None
  {
  }

  /** Once the world folder is known, later commands keep it, whatever the configuration says. */
  lemma WorldSticks(st: State, d: Disk, cm: Option<Manager>, text: string, d2: Disk, cm2: Option<Manager>, text2: string)
    requires HandleGetpos(st, d, cm, text).0.world.Some?
    ensures HandleGetpos(HandleGetpos(st, d, cm, text).0, d2, cm2, text2).0 == HandleGetpos(st, d, cm, text).0
  {
  }

  // ------------------------------------------------------------ setpos arguments

  /** Every integer word `float` accepts, it reads as that integer. */
  lemma NumberExtendsInt(s: string)
    requires ParseInt(s).Some?
    ensures ParseNumber(s) == Some(ParseInt(s).value as real)
  {
    var signed := |s| > 0 && (s[0] == '-' || s[0] == '+');
    var body := if signed then s[1..] else s;
    assert AllDigits(body);
    assert forall k | 0 <= k < |body| :: IsDigit(body[k]) && body[k] != '.';
    assert IndexOfChar(body, '.') == |body|;
    assert body[..|body|] == body;
  }

  lemma {:induction false} JoinEnds(ws: seq<string>)
    requires |ws| > 0 && forall i | 0 <= i < |ws| :: |ws[i]| > 0
    ensures var t := JoinSpaced(ws); |t| > 0 && t[0] == ws[0][0] && t[|t| - 1] == ws[|ws| - 1][|ws[|ws| - 1]| - 1]
  {
    if |ws| > 1 {
      JoinEnds(ws[1..]);
      var rest := JoinSpaced(ws[1..]);
      assert JoinSpaced(ws) == ws[0] + " " + rest;
    }
  }

  /** A word list joined by single blanks reads back as that list. */
  lemma ReadsJoined(ws: seq<string>)
    requires forall i | 0 <= i < |ws| :: |ws[i]| > 0 && NoSpace(ws[i])
    ensures Split(Strip(JoinSpaced(ws))) == ws
  {
    SplitJoinSpaced(ws);
    if |ws| > 0 {
      JoinEnds(ws);
      StripStripped(JoinSpaced(ws));
    }
  }

  /**
   * `setpos <player> <x> <y> <z> [dimension]` written with integer coordinates
   * reads back as that player, those coordinates and that dimension (the
   * overworld when none is given).
   */
  lemma SetposArgsRoundTrip(ws: seq<string>, x: int, y: int, z: int)
    requires 4 <= |ws| <= 5 && |ws[0]| > 0 && NoSpace(ws[0])
    requires ws[1] == IntToString(x) && ws[2] == IntToString(y) && ws[3] == IntToString(z)
    requires |ws| == 5 ==> |ws[4]| > 0 && NoSpace(ws[4])
    ensures ReadSetpos(Split(Strip(JoinSpaced(ws))))
      == Args(ws[0], Pos(x as real, y as real, z as real), if |ws| == 5 then ws[4] else Overworld)
  {
    assert NoSpace(IntToString(x)) && NoSpace(IntToString(y)) && NoSpace(IntToString(z));
    ReadsJoined(ws);
    ReadIntWords(ws, x, y, z);
  }

  lemma ReadIntWords(ws: seq<string>, x: int, y: int, z: int)
    requires 4 <= |ws| <= 5 && ws[1] == IntToString(x) && ws[2] == IntToString(y) && ws[3] == IntToString(z)
    ensures ReadSetpos(ws) == Args(ws[0], Pos(x as real, y as real, z as real), if |ws| > 4 then ws[4] else Overworld)
  {
    IntRoundTrip(x); IntRoundTrip(y); IntRoundTrip(z);
    NumberExtendsInt(IntToString(x));
    NumberExtendsInt(IntToString(y));
    NumberExtendsInt(IntToString(z));
  }

  /**
   * A successful `setpos` is read back by `getpos` for the same player, when
   * the file `getpos` reads was writable and had a position.
   */
  lemma SetposThenGetpos(st: State, d: Disk, cm: Option<Manager>, rconUp: bool, broken: set<Path>, text: string, text2: string)
    requires var r := HandleSetpos(st, d, cm, rconUp, broken, text);
      r.2.Moved? && |Split(Strip(text2))| > 0 && Split(Strip(text2))[0] == r.2.player
    requires var r := HandleSetpos(st, d, cm, rconUp, broken, text);
      var c := ChooseFile(Candidates(d, r.0.world.value, r.2.player));
      c.Some? && Writable(d.players, broken, c.value) && d.players[c.value].pos.Some?
    ensures var r := HandleSetpos(st, d, cm, rconUp, broken, text);
      HandleGetpos(r.0, r.1, cm, text2).1 == Located(r.2.player, Reading(r.2.pos, r.2.dimension), r.2.shown)
  {
    var r := HandleSetpos(st, d, cm, rconUp, broken, text);
    var a := ReadSetpos(Split(Strip(text)));
    assert a.dimension != "" by {
      var parts := Split(Strip(text));
      if |parts| > 4 {
        assert |parts[4]| > 0;
      }
    }
    SetThenGet(d, r.0.world.value, a.player, a.pos, a.dimension, broken);
  }
}

=== FILE: text.dfy ===
/**
 * The handful of Python string primitives the plugins rely on: `str.strip`,
 * `str.split()`, `str.lower`, `str.startswith`, `in`, `str.isdigit`, `str(n)`
 * and `int(s)`. Characters are Unicode scalar values; case folding and digit
 * recognition are restricted to ASCII (see README).
 */
module Text {
  import opened Wrappers

  /** Python's `str.isspace()`: the characters `strip()`, `split()` and the regex class `\s` treat as blank. */
  predicate IsSpace(c: char) {
    c == ' ' || c == '\t' || c == '\n' || c == '\r' || c == '\U{000B}' || c == '\U{000C}'
    || ('\U{001C}' <= c <= '\U{001F}') || c == '\U{0085}' || c == '\U{00A0}' || c == '\U{1680}'
    || ('\U{2000}' <= c <= '\U{200A}') || c == '\U{2028}' || c == '\U{2029}' || c == '\U{202F}'
    || c == '\U{205F}' || c == '\U{3000}'
  }

  predicate AllSpace(s: string) {
    forall i | 0 <= i < |s| :: IsSpace(s[i])
  }

  predicate NoSpace(s: string) {
    forall i | 0 <= i < |s| :: !IsSpace(s[i])
  }

  /** The end of the run of blanks that starts at `i`. */
  function SpacesFrom(s: string, i: int): (j: int)
    requires 0 <= i <= |s|
    ensures i <= j <= |s|
    ensures forall k | i <= k < j :: IsSpace(s[k])
    ensures j < |s| ==> !IsSpace(s[j])
    decreases |s| - i
  {
    if i < |s| && IsSpace(s[i]) then SpacesFrom(s, i + 1) else i
  }

  /** The start of the run of blanks that ends just before `e`. */
  function SpacesBefore(s: string, e: int): (j: int)
    requires 0 <= e <= |s|
    ensures 0 <= j <= e
    ensures forall k | j <= k < e :: IsSpace(s[k])
    ensures j > 0 ==> !IsSpace(s[j - 1])
    decreases e
  {
    if e > 0 && IsSpace(s[e - 1]) then SpacesBefore(s, e - 1) else e
  }

  /** Number of leading blanks of `s`. */
  function LeadingSpaces(s: string): (n: nat)
    ensures n <= |s|
    ensures forall i | 0 <= i < n :: IsSpace(s[i])
    ensures n < |s| ==> !IsSpace(s[n])
  {
    SpacesFrom(s, 0)
  }

  /** Number of trailing blanks of `s`. */
  function TrailingSpaces(s: string): (n: nat)
    ensures n <= |s|
    ensures forall i | |s| - n <= i < |s| :: IsSpace(s[i])
    ensures n < |s| ==> !IsSpace(s[|s| - n - 1])
  {
    |s| - SpacesBefore(s, |s|)
  }

  /**
   * `r` is `s` with a blank prefix of length `a` and a blank suffix removed,
   * stated index by index.
   */
  predicate StrippedAt(r: string, s: string, a: int) {
    0 <= a && a + |r| <= |s|
    && (forall i | 0 <= i < a :: IsSpace(s[i]))
    && (forall i | 0 <= i < |r| :: r[i] == s[a + i])
    && (forall i | a + |r| <= i < |s| :: IsSpace(s[i]))
  }

  /** `s.strip()`: `s` without its leading and trailing blanks. */
  function Strip(s: string): (r: string)
    ensures |r| <= |s|
    ensures |r| > 0 ==> !IsSpace(r[0]) && !IsSpace(r[|r| - 1])
    ensures |r| == 0 <==> AllSpace(s)
  {
    var a := LeadingSpaces(s);
    if a == |s| then [] else s[a..|s| - TrailingSpaces(s)]
  }

  /** What `Strip` removes is blank on both sides, and what it keeps is a contiguous piece of `s`. */
  lemma StripSlice(s: string)
    ensures StrippedAt(Strip(s), s, LeadingSpaces(s))
  {
  }

  /** `Strip` is the only blank-free-ended piece of `s` with blanks on both sides. */
  lemma StripUnique(r: string, s: string, a: int)
    requires StrippedAt(r, s, a)
    requires |r| > 0 ==> !IsSpace(r[0]) && !IsSpace(r[|r| - 1])
    ensures r == Strip(s)
  {
    StripSlice(s);
    var q := Strip(s);
    if |r| > 0 {
      assert s[a] == r[0];
      assert s[a + |r| - 1] == r[|r| - 1];
      assert LeadingSpaces(s) == a;
      assert |s| - TrailingSpaces(s) == a + |r|;
      assert forall i | 0 <= i < |r| :: r[i] == q[i];
    } else {
      assert forall i | 0 <= i < |s| :: IsSpace(s[i]) by {
        assert forall i | a <= i < |s| :: IsSpace(s[i]);
      }
    }
  }

  /** A character of `Strip(s)` is a character of `s`. */
  lemma StripKeeps(s: string, c: char)
    requires c in Strip(s)
    ensures c in s
  {
    StripSlice(s);
    var i :| 0 <= i < |Strip(s)| && Strip(s)[i] == c;
    assert s[LeadingSpaces(s) + i] == c;
  }

  /** A string with no blank at either end is its own strip. */
  lemma StripStripped(s: string)
    requires |s| > 0 && !IsSpace(s[0]) && !IsSpace(s[|s| - 1])
    ensures Strip(s) == s
  {
    assert LeadingSpaces(s) == 0;
    assert TrailingSpaces(s) == 0;
    assert s[0..|s|] == s;
  }

  /** Stripping twice strips no more than once. */
  lemma StripIdempotent(s: string)
    ensures Strip(Strip(s)) == Strip(s)
  {
    var r := Strip(s);
    if |r| > 0 {
      StripStripped(r);
    } else {
      assert AllSpace(r);
    }
  }

  /** Blanks in front of a string that starts with a non-blank are exactly the leading blanks. */
  lemma LeadingSpacesPrefix(b: string, u: string)
    requires AllSpace(b) && |u| > 0 && !IsSpace(u[0])
    ensures LeadingSpaces(b + u) == |b|
  {
    var n := LeadingSpaces(b + u);
    assert (b + u)[|b|] == u[0];
  }

  /** The longest blank-free prefix of `s`. */
  function Word(s: string): (w: string)
    ensures |w| <= |s| && w == s[..|w|] && NoSpace(w)
    ensures |w| < |s| ==> IsSpace(s[|w|])
  {
    if |s| == 0 || IsSpace(s[0]) then [] else [s[0]] + Word(s[1..])
  }

  /** The characters of `s` that are not blanks, in order. */
  function Squeeze(s: string): string {
    if |s| == 0 then [] else (if IsSpace(s[0]) then [] else [s[0]]) + Squeeze(s[1..])
  }

  function Concat(ws: seq<string>): string {
    if |ws| == 0 then [] else ws[0] + Concat(ws[1..])
  }

  /** `s.split()` with no separator: the maximal runs of non-blank characters. */
  function Split(s: string): (r: seq<string>)
    ensures forall i | 0 <= i < |r| :: |r[i]| > 0 && NoSpace(r[i])
    ensures Concat(r) == Squeeze(s)
    decreases |s|
  {
    if |s| == 0 then []
    else if IsSpace(s[0]) then Split(s[1..])
    else
      var w := Word(s);
      SqueezeAppend(w, s[|w|..]);
      SqueezeNoSpace(w);
      assert s == w + s[|w|..];
      [w] + Split(s[|w|..])
  }

  lemma {:induction false} SqueezeAppend(a: string, b: string)
    ensures Squeeze(a + b) == Squeeze(a) + Squeeze(b)
  {
    if |a| > 0 {
      assert (a + b)[1..] == a[1..] + b;
      SqueezeAppend(a[1..], b);
    } else {
      assert a + b == b;
    }
  }

  lemma {:induction false} SqueezeNoSpace(w: string)
    requires NoSpace(w)
    ensures Squeeze(w) == w
  {
    if |w| > 0 {
      SqueezeNoSpace(w[1..]);
    }
  }

  /** Tokens joined by single blanks, the inverse of `Split`. */
  function JoinSpaced(ws: seq<string>): string {
    if |ws| == 0 then [] else if |ws| == 1 then ws[0] else ws[0] + " " + JoinSpaced(ws[1..])
  }

  lemma {:induction false} WordOfJoin(w: string, rest: string)
    requires NoSpace(w)
    requires |rest| == 0 || IsSpace(rest[0])
    ensures Word(w + rest) == w
  {
    if |w| > 0 {
      assert (w + rest)[1..] == w[1..] + rest;
      WordOfJoin(w[1..], rest);
      assert w == [w[0]] + w[1..];
    } else {
      assert w + rest == rest;
    }
  }

  /** `Split` recovers any list of non-empty blank-free tokens from their blank-joined text. */
  lemma {:induction false} SplitJoinSpaced(ws: seq<string>)
    requires forall i | 0 <= i < |ws| :: |ws[i]| > 0 && NoSpace(ws[i])
    ensures Split(JoinSpaced(ws)) == ws
  {
    if |ws| == 1 {
      WordOfJoin(ws[0], []);
      assert ws[0] + [] == ws[0];
    } else if |ws| > 1 {
      var rest := JoinSpaced(ws[1..]);
      var s := ws[0] + " " + rest;
      WordOfJoin(ws[0], " " + rest);
      assert s == ws[0] + (" " + rest);
      assert s[|ws[0]|..] == " " + rest;
      assert (" " + rest)[1..] == rest;
      SplitJoinSpaced(ws[1..]);
      assert ws == [ws[0]] + ws[1..];
    }
  }

  /** A non-empty blank-free text is one word. */
  lemma SplitWord(w: string)
    requires |w| > 0 && NoSpace(w)
    ensures Split(w) == [w]
  {
    WordOfJoin(w, []);
    assert w + [] == w;
    assert w[|w|..] == [];
  }

  /** A word stops at the first blank, so what follows the blank cannot extend it. */
  lemma {:induction false} WordBeforeBlank(a: string, t: string)
    requires |t| > 0 && IsSpace(t[0])
    ensures Word(a + t) == Word(a)
  {
    if |a| == 0 {
      assert a + t == t;
    } else if !IsSpace(a[0]) {
      assert (a + t)[1..] == a[1..] + t;
      WordBeforeBlank(a[1..], t);
    }
  }

  /** Splitting at a blank: the words of the text are the words before it followed by the words after it. */
  lemma {:induction false} SplitAppend(a: string, sp: char, b: string)
    requires IsSpace(sp)
    ensures Split(a + [sp] + b) == Split(a) + Split(b)
    decreases |a|
  {
    var s := a + [sp] + b;
    if |a| == 0 {
      assert s == [sp] + b;
      assert s[1..] == b;
    } else if IsSpace(a[0]) {
      assert s[1..] == a[1..] + [sp] + b;
      SplitAppend(a[1..], sp, b);
    } else {
      var w := Word(a);
      assert s == a + ([sp] + b);
      WordBeforeBlank(a, [sp] + b);
      assert Word(s) == w;
      assert s[|w|..] == a[|w|..] + [sp] + b;
      SplitAppend(a[|w|..], sp, b);
    }
  }

  /** Blanks around the text do not change how it splits. */
  lemma {:induction false} SplitSkipsBlanks(b: string, s: string)
    requires AllSpace(b)
    ensures Split(b + s) == Split(s)
  {
    if |b| > 0 {
      assert (b + s)[1..] == b[1..] + s;
      SplitSkipsBlanks(b[1..], s);
    } else {
      assert b + s == s;
    }
  }

  /** ASCII-only `str.lower()`. */
  function LowerChar(c: char): char {
    if 'A' <= c <= 'Z' then (c as int + 32) as char else c
  }

  function Lower(s: string): (r: string)
    ensures |r| == |s|
    ensures forall i | 0 <= i < |s| :: r[i] == LowerChar(s[i])
  {
    seq(|s|, i requires 0 <= i < |s| => LowerChar(s[i]))
  }

  predicate StartsWith(s: string, p: string) {
    |p| <= |s| && s[..|p|] == p
  }

  predicate EndsWith(s: string, p: string) {
    |p| <= |s| && s[|s| - |p|..] == p
  }

  /** `sub` occurs in `s` starting at index `i`. */
  predicate OccursAt(s: string, sub: string, i: int) {
    0 <= i && i + |sub| <= |s| && s[i..i + |sub|] == sub
  }

  /** Python's `sub in s` for strings. */
  predicate Contains(s: string, sub: string) {
    exists i | 0 <= i <= |s| :: OccursAt(s, sub, i)
  }

  /** An occurrence cannot start at a character that differs from the first one sought. */
  lemma NotOccursAt(s: string, sub: string, q: int)
    requires 0 <= q < |s| && |sub| > 0 && s[q] != sub[0]
    ensures !OccursAt(s, sub, q)
  {
    if q + |sub| <= |s| {
      assert s[q..q + |sub|][0] == s[q];
    }
  }

  /** An occurrence that starts in the second half of `x + y` lies in `y`. */
  lemma OccursInSuffix(x: string, y: string, sub: string, q: int)
    requires q >= |x|
    ensures OccursAt(x + y, sub, q) ==> OccursAt(y, sub, q - |x|)
  {
    if q + |sub| <= |x + y| {
      assert (x + y)[q..q + |sub|] == y[q - |x|..q - |x| + |sub|];
    }
  }

  /** An occurrence inside a piece of `s` is an occurrence in `s`. */
  lemma ContainsSlice(s: string, lo: int, hi: int, sub: string)
    requires 0 <= lo <= hi <= |s| && Contains(s[lo..hi], sub)
    ensures Contains(s, sub)
  {
    var i :| 0 <= i <= hi - lo && OccursAt(s[lo..hi], sub, i);
    var u := s[lo..hi];
    assert u[i..i + |sub|] == sub;
    assert forall k | 0 <= k < |sub| :: sub[k] == u[i + k] == s[lo + i + k];
    assert s[lo + i..lo + i + |sub|] == sub;
    assert OccursAt(s, sub, lo + i);
  }

  predicate IsDigit(c: char) {
    '0' <= c <= '9'
  }

  predicate AllDigits(s: string) {
    forall i | 0 <= i < |s| :: IsDigit(s[i])
  }

  function DigitChar(d: nat): char
    requires d < 10
  {
    ('0' as int + d) as char
  }

  /** The decimal value of a run of ASCII digits (leading zeros allowed, as `int()` allows them). */
  function DigitsValue(s: string): nat
    requires AllDigits(s)
  {
    if |s| == 0 then 0 else DigitsValue(s[..|s| - 1]) * 10 + (s[|s| - 1] as int - '0' as int)
  }

  /** `str(n)` for a natural number: shortest decimal digits, no leading zero. */
  function NatToString(n: nat): (r: string)
    ensures |r| > 0 && AllDigits(r) && DigitsValue(r) == n
    ensures r[0] == '0' ==> n == 0
    decreases n
  {
    if n < 10 then [DigitChar(n)]
    else
      var r := NatToString(n / 10) + [DigitChar(n % 10)];
      assert r[..|r| - 1] == NatToString(n / 10);
      r
  }

  /** `str(i)` for any integer. */
  function IntToString(i: int): (r: string)
    ensures |r| > 0
    ensures forall k | 0 <= k < |r| :: IsDigit(r[k]) || (k == 0 && r[k] == '-')
  {
    if i < 0 then "-" + NatToString(-i) else NatToString(i)
  }

  /** `int(s)` for a token: an optional sign followed by ASCII digits, or `None` (the `ValueError`). */
  function ParseInt(s: string): (r: Option<int>)
    ensures r.Some? ==> |s| > 0
  {
    if |s| > 0 && (s[0] == '-' || s[0] == '+') then
      var d := s[1..];
      if |d| > 0 && AllDigits(d) then
        var v: int := DigitsValue(d);
        Some(if s[0] == '-' then -v else v)
      else None
    else if |s| > 0 && AllDigits(s) then Some(DigitsValue(s))
    else None
  }

  /** Parsing undoes printing. */
  lemma IntRoundTrip(i: int)
    ensures ParseInt(IntToString(i)) == Some(i)
  {
    if i < 0 {
      assert IntToString(i)[1..] == NatToString(-i);
    }
  }

  /** Different integers print differently. */
  lemma IntToStringInjective(i: int, j: int)
    requires IntToString(i) == IntToString(j)
    ensures i == j
  {
    IntRoundTrip(i);
    IntRoundTrip(j);
  }

  /** Position of the first `c` at or after `i`, or `|s|` when there is none. */
  function IndexFrom(s: string, c: char, i: int): (j: int)
    requires 0 <= i <= |s|
    ensures i <= j <= |s|
    ensures forall k | i <= k < j :: s[k] != c
    ensures j < |s| ==> s[j] == c
    decreases |s| - i
  {
    if i < |s| && s[i] != c then IndexFrom(s, c, i + 1) else i
  }

  /** Position of the first `c` in `s`, or `|s|` when there is none (Python's `find`, with `len` for -1). */
  function IndexOfChar(s: string, c: char): (i: nat)
    ensures i <= |s|
    ensures forall k | 0 <= k < i :: s[k] != c
    ensures i < |s| ==> s[i] == c
  {
    IndexFrom(s, c, 0)
  }

  lemma SeparatorIndex(a: string, s: string, c: char)
    requires c !in a
    ensures IndexOfChar(a + [c] + s, c) == |a|
  {
    var x := a + [c] + s;
    var n := IndexOfChar(x, c);
    assert x[|a|] == c;
  }

  /**
   * Composite keys `a + [sep] + s` decode uniquely when `sep` never occurs in the
   * first component; this is what makes the plugins' `f"{x}_{y}"` keys unambiguous.
   */
  lemma {:induction false} SeparatedKeyInjective(a: string, s: string, b: string, t: string, sep: char)
    requires sep !in a && sep !in b
    requires a + [sep] + s == b + [sep] + t
    ensures a == b && s == t
  {
    var x := a + [sep] + s;
    SeparatorIndex(a, s, sep);
    SeparatorIndex(b, t, sep);
    assert a == x[..|a|] == b;
    assert s == x[|a| + 1..] == t;
  }

  /** `f"{i}{sep}{s}"`: an integer, a separator that no printed integer contains, and a tail. */
  function IntKey(i: int, sep: char, s: string): string
    requires !IsDigit(sep) && sep != '-'
  {
    IntToString(i) + [sep] + s
  }

  /** Two such keys are equal exactly when their parts are. */
  lemma IntKeyInjective(i: int, s: string, j: int, t: string, sep: char)
    requires !IsDigit(sep) && sep != '-'
    ensures IntKey(i, sep, s) == IntKey(j, sep, t) <==> i == j && s == t
  {
    if IntKey(i, sep, s) == IntKey(j, sep, t) {
      SeparatedKeyInjective(IntToString(i), s, IntToString(j), t, sep);
      IntToStringInjective(i, j);
    }
  }
}

=== FILE: wrappers.dfy ===
/** Failure-compatible optional values, used wherever the plugins return `None`. */
module Wrappers {

  datatype Option<+T> = None | Some(value: T) {

    /** The wrapped value, or `default` when there is none. */
    function GetOr(default: T): T {
      match this
      case Some(v) => v
      case None => default
    }
  }
}
